=== FILE: README.md ===
# RFM scoring and segmentation, modelled in Dafny

The repository analyses purchase histories by RFM. For every customer it computes three
metrics. Recency is the days since the last purchase. Frequency is the number of purchases.
Monetary value is the sum of the amounts. It scores each metric and then places every
customer in a segment. Four variants of this computation exist side by side, and each has
its own module here:

- `RootAnalysis` models `rfm_analysis.py`, the original script. Recency is measured from the
  latest order in the data. Each metric gets a quartile score from `pd.qcut`, with no
  fallback. The three scores form a code such as `"341"`, and `int(code)` is compared
  against 444, 333 and 222. The result reports total customers, total revenue and segment
  sizes.
- `BackendAnalysis` models `backend/rfm_analysis.py`, the validated variant. It checks its
  input first. When `qcut` raises for a metric, every score of that metric falls back to 1.
  It also computes per-segment statistics, rounded to cents.
- `ProAnalysis` and `ProRanks` model `rfmpro_analysis.py`. They cover validation with
  warnings and the clipped metrics. Ranking is configurable: quantile, fixed or
  custom-interval. When a ranking raises, a dense-rank fallback takes over. The
  eight-rule segment table (`np.select`), the optional code mapping and the segment
  distribution are modelled too.
- `UploadService` models `backend/main.py`, the service. The upload path checks the file
  format and the columns, then reshapes each record. The analysis path takes five quantile
  groups per metric. `AppScoring` models `backend/app/rfm.py`, the application variant, as
  written. It has min-max normalised metrics, a weighted composite score,
  equal-width score bands, the best and worst segment, and recommendation priorities.
  `AppIntended` is the corrected version of that variant (see Findings).
- `Models` models the field validators of `backend/app/models.py`. `Plans` models the plan
  limits and premium features of `backend/app/auth.py`.

Shared modules hold the pandas behaviour these variants rely on:

- `Frame`: cells, columns and failures.
- `Metrics`: `groupby` per customer, in sorted key order.
- `Binning`: `qcut` with linear-interpolated quantile edges, `cut`, and automatic cut lists.
- `FirstRank`: `rank(method='first')`.
- `DenseRank`: the dense-rank fallback and round-half-to-even.
- `Codes`: decimal strings, `int(...)` and the code thresholds.
- `Distribution`: value counts and percentages.
- `Scoring`: the scored record shared by the two quartile variants.
- `Tally` and `Sorting`: counting, summing and sorting helpers.

Values are modelled as follows:

- Dates are whole day numbers.
- `pd.to_datetime` is a parameter `toDay`, which may fail on a cell.
- The current time (`datetime.now()`, `pd.Timestamp.now()` or the analysis date) is a
  parameter `now`.
- Amounts are exact reals.
- In `AppScoring`, floating-point division can yield NaN or an infinity, so values there are
  a small `Float` type (`Finite`, `NaN`, `Inf`). It follows IEEE comparison and propagation
  rules for those cases.

Behaviours of the code that the model keeps as they are:

- In `backend/app/rfm.py`, the composite score is the weighted sum of the min-max-normalised
  raw metrics.
- All-zero weights are accepted there.
- In that file, a single customer or a constant metric yields NaN.
- In `backend/rfm_analysis.py`, a failed binning gives every customer score 1 for that
  metric.

## Model

| member | source | states |
|---|---|---|
| Metrics.Keys | rfm_analysis.py:8-11 | The group keys hold each customer exactly once, in pandas' sorted key order, and every purchase's customer is among them. |
| Metrics.LastDay | rfm_analysis.py:9 | A customer's last day is the largest day among that customer's purchases, and some purchase falls on it. |
| Metrics.MaxDay | rfm_analysis.py:6 | The reference day is the latest purchase day in the data and is attained. |
| Metrics.Aggregate | rfm_analysis.py:8-12 | One row per distinct customer, carrying the last day, the purchase count and the amount sum of that customer. |
| Metrics.AggregateConserves | rfm_analysis.py:8-12 | Grouping loses nothing: at most one row per purchase, every count is at least 1, the counts add up to the number of purchases and the sums add up to the total amount. |
| Metrics.KeyedTransactions | rfm_analysis.py:8 | A key column without nulls gives purchases that all carry a customer. |
| Metrics.Transactions | backend/rfm_analysis.py:40-43 | Date conversion succeeds iff every date cell converts, otherwise it fails naming the date column; on success, one purchase per row carries that row's customer, day and amount. |
| Metrics.LatestPurchaseReference | rfm_analysis.py:5-9 | Measured from the latest order, no recency is negative and some customer has recency 0. |
| Metrics.AmountColumnSum | rfm_analysis.py:31 | The purchase amounts add up to the sum of the amount column. |
| Frame.Missing | rfmpro_analysis.py:97-98 | Names exactly the required columns that are absent, and no more entries than were required. |
| Frame.Days | rfmpro_analysis.py:61-65 | Converts the date column or fails naming it; it succeeds iff every cell converts. |
| Codes.DecimalRoundTrip | rfm_analysis.py:18-21 | `int(str(i)) == i` for every integer. |
| Codes.CodeValue | rfm_analysis.py:18-21 | For one-digit scores the code has three characters and parses to `100r + 10f + m`. |
| Codes.ThreeDigitOrder | rfm_analysis.py:21-25 | Comparing three-digit codes numerically is the lexicographic order of the score triples. |
| Codes.ThresholdSegment | rfm_analysis.py:20-25 | Champions iff the value is at least 444; loyal iff in [333, 444); at risk iff in [222, 333); lost iff below 222. This characterises the threshold chain; what it means for three scores is stated by `Codes.SegmentOfRanks`. |
| Codes.SegmentOfRanks | backend/rfm_analysis.py:81-92 | For scores 1 to 4: champions only for (4,4,4); loyal and at risk are lexicographic bands; r = 4 is never below loyal, and r = 1 is always lost. |
| Codes.CodeCollision | rfmpro_analysis.py:279-283 | Concatenated codes do not identify scores of two or more digits: (1,11,1) and (11,1,1) give the same code. |
| Binning.QCutBins | rfm_analysis.py:14-16 | On success there is one bin per value, below q: the bin of the linear-quantile edges that contains the value. |
| Binning.QCutBinsSucceeds | rfm_analysis.py:14-16 | A non-empty column bins iff q is 1 or the linear-quantile edges are distinct; otherwise it fails for non-unique edges. |
| Binning.QCut | rfmpro_analysis.py:218-223 | Labelled `qcut` succeeds exactly when the bins do; each label is the label of the value's bin. |
| Binning.EdgesShape | rfm_analysis.py:14 | The quantile edges are non-decreasing, start at the minimum and end at the maximum. |
| Binning.QCutBinsInterval | rfm_analysis.py:14 | Each value lies in the interval of its bin (first one closed), and in no other. |
| Binning.QCutBinsMono | rfm_analysis.py:14-16 | A larger value never gets a smaller bin. |
| Binning.QCutBinsMinimum | rfm_analysis.py:14-16 | A minimal value gets the first bin. |
| Binning.QCutBinsMaximum | rfm_analysis.py:14-16 | A maximal value gets the last bin. |
| Binning.QCutConstantFails | backend/rfm_analysis.py:62-65 | A constant column makes `qcut` raise whenever q is at least 2. |
| Binning.CutRanks | rfmpro_analysis.py:234-238 | `cut` with open outer bins succeeds iff the inner edges increase strictly, and yields ranks 1 to len + 1. |
| Binning.CutRanksMeaning | rfmpro_analysis.py:234-238 | Rank k + 1 iff the value lies in (cuts[k-1], cuts[k]], both directions. |
| Binning.CutRanksMono | rfmpro_analysis.py:234-238 | `cut` ranks are monotone in the value. |
| Binning.AutoCuts | rfmpro_analysis.py:241-245 | The automatic interval list has n − 1 entries. |
| Binning.AutoCutsIncreasing | rfmpro_analysis.py:241-253 | Automatic cuts increase strictly iff the column is not constant or n is at most 2. |
| Binning.DescendingNotIncreasing | rfmpro_analysis.py:230-231 | A list of two or more cuts sorted in reverse is never strictly increasing, so `cut` rejects it. |
| FirstRank.RankOrder | rfm_analysis.py:15 | `rank(method='first')` orders by value and breaks ties by position. |
| FirstRank.FirstRanksDistinct | rfm_analysis.py:15 | First-ranks are pairwise distinct. |
| FirstRank.SortedFirstRanks | rfm_analysis.py:15 | Sorted first-ranks are exactly 1, 2, …, n. |
| FirstRank.QCutFirstRanks | rfm_analysis.py:15 | `qcut` over first-ranks succeeds iff there are at least two customers (or q is 1). |
| DenseRank.Dense | rfmpro_analysis.py:266 | A dense rank lies between 1 and the number of distinct values. |
| DenseRank.DenseOrder | rfmpro_analysis.py:266 | A smaller value has a strictly smaller ascending dense rank and a strictly larger descending one. |
| DenseRank.DenseExtremes | rfmpro_analysis.py:266-267 | The minimum ranks 1 ascending and last descending, and the maximum the other way round. |
| DenseRank.RoundHalfEven | rfmpro_analysis.py:269 | The rounded integer is within one half of the quotient. |
| DenseRank.RoundTiesEven | rfmpro_analysis.py:269 | An exact half rounds to the even neighbour. |
| DenseRank.RoundExact | rfmpro_analysis.py:269 | Whole numbers round to themselves. |
| DenseRank.RoundMono | rfmpro_analysis.py:269 | Rounding is monotone. |
| DenseRank.RescaleShape | rfmpro_analysis.py:269 | Rescaling maps dense rank 1 to 1 and the top rank to k, monotonically within [1, k]. |
| DenseRank.Fallback | rfmpro_analysis.py:257-269 | The fallback yields one rank in [1, k] per value. |
| DenseRank.FallbackConstant | rfmpro_analysis.py:261-263 | A constant column gets the middle rank (k + 1) // 2 in both directions. |
| DenseRank.FallbackOrder | rfmpro_analysis.py:266-269 | Fallback ranks follow the value order: ascending or reversed. |
| DenseRank.FallbackExtremes | rfmpro_analysis.py:266-269 | With two or more distinct values, the minimum and maximum get ranks 1 and k (by direction). |
| Distribution.Counts | rfmpro_analysis.py:372-373 | Each listed label occurs in the data and carries its exact count, and every occurring label is listed. |
| Distribution.CountsCover | rfmpro_analysis.py:372-373 | The counts add up to the number of labelled rows. |
| Distribution.SharesAddUp | rfmpro_analysis.py:374 | The percentages add up to 100. |
| Scoring.SegmentOf | backend/rfm_analysis.py:78-92 | The segment is the threshold segment of the parsed code. |
| Scoring.Assemble | backend/rfm_analysis.py:57-92 | Each record keeps its customer's metrics, the given scores, their code and its segment. |
| Scoring.SegmentsCover | rfm_analysis.py:30-32 | Segment sizes add up to the customer total. |
| Scoring.SummaryTotals | rfm_analysis.py:29-33 | Totals match the grouped table, and the revenue equals the sum of all amounts. |
| Scoring.SegmentTable | backend/rfm_analysis.py:95-98 | Before `.round(2)`: each statistics row is an occurring segment with its count, exact revenue sum and the two exact means. |
| Scoring.Round2 | backend/rfm_analysis.py:99 | A whole number of cents within half a cent of the value; whole cents stay, and an exact half cent goes to the even neighbour. |
| Scoring.RoundStats | backend/rfm_analysis.py:95-99 | The rounded table keeps each row's segment and size, and moves its revenue and the two means by at most half a cent. |
| Scoring.RoundedSums | backend/rfm_analysis.py:95-99 | After rounding the sizes add up as before, and the revenues add up to within half a cent per row of the unrounded sum. |
| Scoring.CentsLost | backend/rfm_analysis.py:99 | The rounded segment revenues need not add up to the revenue: two segments of 0.004 each report 0.0 and 0.0 against 0.008. |
| Scoring.SegmentTableSums | backend/rfm_analysis.py:95-98 | The unrounded rows' counts and revenues add up to the per-segment totals. |
| Scoring.SegmentTableCovers | backend/rfm_analysis.py:95-98 | Before rounding, the segment rows account for every customer and the whole revenue. |
| RootAnalysis.Score | rfm_analysis.py:5-27 | Scores every grouped customer, with recency from the latest order, or fails because the edges are not unique. |
| RootAnalysis.ScoreGrouped | rfm_analysis.py:14-27 | On success, each record describes its grouped row. |
| RootAnalysis.ScoreSucceeds | rfm_analysis.py:14-16 | Scoring succeeds iff there are at least two customers and the recency and monetary edges are distinct; a single customer always fails. |
| RootAnalysis.GroupedSucceeds | rfm_analysis.py:14-16 | The grouped table scores iff each of the three quartile binnings succeeds. |
| RootAnalysis.ScoreBins | rfm_analysis.py:14-16 | r is 4 minus the recency bin; f and m are 1 plus their bins. |
| RootAnalysis.ScoreDirections | rfm_analysis.py:14-16 | More recent means r is at least as high; more purchases or more money means f or m is at least as high. |
| RootAnalysis.ScoreLatest | rfm_analysis.py:6-14 | No recency is negative, and the customer of the latest order has recency 0 and r = 4. |
| RootAnalysis.ScoreTopSpender | rfm_analysis.py:16 | A top spender gets m = 4. |
| RootAnalysis.Analyze | rfm_analysis.py:4-34 | A missing column is a `KeyError`, raised in the order the script reads the columns. A date failure is reported. Success is exactly the summary of the scored grouping. |
| RootAnalysis.AnalyzeTotals | rfm_analysis.py:29-33 | With a null-free id column, customers are the distinct ids, segment sizes add up to them, and revenue is the amount column's sum. |
| RootAnalysis.ReportTotals | rfm_analysis.py:29-33 | The same totals, stated over purchases that all carry a customer id. |
| BackendAnalysis.Validate | backend/rfm_analysis.py:27-43 | The missing-set error, then the null error, then the numeric error, then date conversion, in that order; success yields one purchase per row. |
| BackendAnalysis.ScoreOr | backend/rfm_analysis.py:62-75 | Each score is its quartile label when `qcut` succeeds and 1 for every customer when it raises; it is always in [1, 4]. |
| BackendAnalysis.Score | backend/rfm_analysis.py:46-92 | Binning failures are caught, so scoring gives one record per grouped customer, describing it; what happens with no customers at all is stated by `BackendAnalysis.Analyze`. |
| BackendAnalysis.ScoreCases | backend/rfm_analysis.py:62-75 | Each score by case (bin label or fallback 1). Frequency binning succeeds iff there are at least two customers. |
| BackendAnalysis.LoneCustomer | backend/rfm_analysis.py:62-92 | A single customer gets code "111" and is lost. |
| BackendAnalysis.ScoreDirections | backend/rfm_analysis.py:62-75 | Scores are monotone in the right direction for each metric. |
| BackendAnalysis.Analyze | backend/rfm_analysis.py:5-138 | Succeeds iff validation passes, the date and amount columns differ and there is at least one row. A validation error is returned as is; one column for date and amount fails with the column-count mismatch of line 54; no rows fail at the `apply` of line 92. Success is the summary of the scores. |
| BackendAnalysis.NoRowsFail | backend/rfm_analysis.py:27-92 | A frame with the three distinct columns and no rows passes validation with no purchases, and the analysis still fails at the segment `apply`. |
| BackendAnalysis.CalculateRfm | backend/rfm_analysis.py:141-151 | The legacy entry point is the analysis with the default column names. |
| BackendAnalysis.AnalyzeTotals | backend/rfm_analysis.py:95-118 | Customers are the distinct ids, and the segment counts add up to them. The total revenue is the amount column's sum, unrounded. There are at most four segments, and their revenues, rounded to cents, add up to the total only to within half a cent per segment. |
| BackendAnalysis.RevenueTotals | backend/rfm_analysis.py:105 | Scored revenue equals the sum of all amounts. |
| ProRanks.Labels | rfmpro_analysis.py:203-205 | k labels, all in [1, k]. |
| ProRanks.MethodOf | rfmpro_analysis.py:201-255 | The quantile method iff the name is 'quantile', the fixed method iff it is 'fixed', and otherwise an unsupported method carrying the name. |
| ProRanks.TryRank | rfmpro_analysis.py:200-255 | The chosen method's ranks, one per value; an unknown method raises. |
| ProRanks.RankMetricCases | rfmpro_analysis.py:200-269 | Whatever the method raises, the column gets the fallback ranks; when it succeeds, its own ranks. |
| ProRanks.RankRange | rfmpro_analysis.py:200-269 | Ranks lie in [1, k], or in [1, max(k, len + 1)] with custom intervals. |
| ProRanks.FallbackTaken | rfmpro_analysis.py:230-231 | An unknown method, or reversed custom intervals of length two or more, always ends in the fallback. |
| ProRanks.AutoReversedFallsBack | rfmpro_analysis.py:245-253 | Descending automatic intervals (k at least 3) always end in the fallback. |
| ProRanks.AutoAscending | rfmpro_analysis.py:241-253 | Ascending automatic intervals succeed iff the column is not constant or k is at most 2, and then they are the `cut` ranks. |
| ProRanks.FewDistinctUsesFirstRanks | rfmpro_analysis.py:208-216 | With fewer distinct values than k, quantile ranking uses first-ranks and succeeds. |
| ProRanks.LabelEnds | rfmpro_analysis.py:203-205 | Labels run 1..k ascending and k..1 descending. |
| ProRanks.QuantileMinimum | rfmpro_analysis.py:200-223 | The strict minimum gets the first label. |
| ProRanks.QuantileMaximum | rfmpro_analysis.py:200-223 | The strict maximum gets the last label. |
| ProRanks.QuantileOrder | rfmpro_analysis.py:200-223 | Quantile ranks are monotone in the labels' direction. |
| ProAnalysis.NullColumns | rfmpro_analysis.py:104-105 | Exactly the required columns holding a null are named. |
| ProAnalysis.Validate | rfmpro_analysis.py:94-125 | Missing columns are an error naming them. An amount column with text is an error: not numeric when it cannot be converted, not comparable otherwise. |
| ProAnalysis.ValidateWarnings | rfmpro_analysis.py:103-125 | Nulls, negative amounts and fewer than 10 rows are only warnings, each present exactly when its condition holds. |
| ProAnalysis.Select | rfmpro_analysis.py:348 | `np.select` picks a choice when some condition holds and the default otherwise. |
| ProAnalysis.SelectUnique | rfmpro_analysis.py:348 | With exactly one true condition it picks that condition's choice. |
| ProAnalysis.RulesPartition | rfmpro_analysis.py:318-348 | Exactly one of the eight rules holds for any ranks, so "Прочие" never occurs. |
| ProAnalysis.Band | rfmpro_analysis.py:296-315 | A band exists iff the rank is in [0, 5], and it is one of three. |
| ProAnalysis.BandIsCut | rfmpro_analysis.py:296-300 | The band is the `cut` over edges 0, 2, 4, 5 including the lowest. |
| ProAnalysis.Label | rfmpro_analysis.py:294-353 | Without a mapping, the rule segment applies. With a mapping, the mapped name applies, or "Прочие" for an unmapped code, and no bands are set. |
| ProAnalysis.ClippedRecencies | rfmpro_analysis.py:162-175 | Recency is days since the last purchase, clipped below at 0. |
| ProAnalysis.ScoreWith | rfmpro_analysis.py:80-86 | One row per customer, with the ranks, their code, the rank sum and the labels. |
| ProAnalysis.DistributionAddsUp | rfmpro_analysis.py:372-374 | Every segment is listed with its count; counts add up to the rows and percentages to 100. |
| ProAnalysis.Analyze | rfmpro_analysis.py:54-91 | Validation errors first, then the date failure; success is validation's warnings plus the scored and labelled rows. |
| ProAnalysis.NoOthersWithoutMapping | rfmpro_analysis.py:318-348 | Without a mapping, every customer gets one of the eight named segments. |
| ProAnalysis.BandsDefined | rfmpro_analysis.py:296-315 | For k at most 5, every rank has a band. |
| ProAnalysis.BestCustomerIsLost | rfmpro_analysis.py:188-191 | As written, the strictly best customer gets ranks (1,1,1) and is labelled lost. |
| ProAnalysis.WorstCustomerIsChampion | rfmpro_analysis.py:188-191 | As written, the strictly worst customer gets ranks (k,k,k) and is labelled champion. |
| ProAnalysis.IntendedBestIsChampion | rfmpro_analysis.py:318-320 | With the directions the rules expect, the best customer is a champion. |
| ProAnalysis.IntendedWorstIsLost | rfmpro_analysis.py:331-332 | With those directions, the worst customer is lost. |
| ProAnalysis.IntendedOrder | rfmpro_analysis.py:188-223 | With those directions, more recent, more frequent or higher-spending customers never get a lower rank. |
| UploadService.AsWritten | backend/main.py:66-67 | Any raised exception, `HTTPException` included, becomes status 500. |
| UploadService.Intended | backend/main.py:43 | An `HTTPException` keeps its own status; any other exception becomes 500. |
| UploadService.FormatOf | backend/main.py:38-43 | CSV iff the name ends in ".csv"; Excel iff it ends in ".xlsx" or ".xls" and not ".csv"; otherwise unsupported. |
| UploadService.RowRecord | backend/main.py:51 | A record holds exactly the three chosen columns of its row. |
| UploadService.Reshape | backend/main.py:52-59 | Reshaping fails only on a non-numeric amount or a key it has already deleted. |
| UploadService.ReshapeKeys | backend/main.py:52-59 | When the three chosen names are distinct and none is an output name (`user_id`, `client_id`, `purchase_date`, `amount`), it succeeds iff the amount converts. Then the record holds exactly the output keys: user id, stringified client id, stringified date and float amount. |
| UploadService.ReshapeOutputKeys | backend/main.py:52-59 | For any three distinct chosen names, a successful reshape keeps exactly the output names that were not chosen. |
| UploadService.NaturalNamesKeepOnlyUser | backend/main.py:54-59 | Choosing the columns `client_id`, `purchase_date` and `amount` succeeds but leaves only `user_id`; the corrected body keeps all four output keys. |
| UploadService.ReshapeIntended | backend/main.py:52-59 | Corrected: fails only on a non-numeric amount, and otherwise builds exactly the four output fields, whatever the chosen names. |
| UploadService.ReshapeAgrees | backend/main.py:52-59 | For distinct chosen names that are not output names, the corrected record equals the code's, and so does the error. |
| UploadService.ReshapeAllIntended | backend/main.py:52-59 | The corrected loop succeeds iff every amount converts, and then holds each record's corrected form, in order. |
| UploadService.ReshapeAllAgrees | backend/main.py:52-59 | For distinct chosen names that are not output names, both loops give the same result. |
| UploadService.ReshapeSharedName | backend/main.py:57-59 | When two of the chosen column names coincide, the second `del` raises. |
| UploadService.Received | backend/main.py:37-48 | Unsupported format is 400 and missing columns are 400. It passes iff the format is supported, the file reads and every chosen column exists. |
| UploadService.UploadBody | backend/main.py:36-59 | Unsupported format is 400; missing columns are 400; success has one record per row. |
| UploadService.UploadBodyIntended | backend/main.py:36-59 | Corrected: the same checks and errors. It succeeds iff they pass and every amount converts; each stored record has exactly the output keys. |
| UploadService.IntendedRecords | backend/main.py:51-59 | The corrected records of a table exist iff every amount converts; there is then one per row, with exactly the output keys. |
| UploadService.ReshapeAll | backend/main.py:52-59 | Succeeds iff every record reshapes, keeping order. |
| UploadService.Upload | backend/main.py:30-67 | Every failure is reported as 500, the unsupported format included. |
| UploadService.UploadIntended | backend/main.py:36-67 | Unsupported format and missing columns are 400. It succeeds iff the checks pass and every amount converts, and every stored record has exactly the output keys. |
| UploadService.UploadAgrees | backend/main.py:36-67 | For distinct chosen names that are not output names, the corrected handler succeeds exactly when the code does and stores the same records. |
| UploadService.UploadStoresOutputKeys | backend/main.py:52-59 | When the three chosen names are distinct and none is an output name, every stored record has exactly the output keys. |
| UploadService.UnsupportedFileIs500 | backend/main.py:43 | A ".txt" upload raises 400 inside the handler and reaches the client as 500; corrected, it is 400. |
| UploadService.ScoreGrouped | backend/main.py:100-106 | Five-group scoring succeeds iff all three `qcut`s do; r is 5 minus the recency bin, and f and m are 1 plus their bins. |
| UploadService.AnalyzeBody | backend/main.py:71-108 | Empty data is 404; success means the columns exist, dates convert and the rows are the five-group scores of the grouping. |
| UploadService.Analyze | backend/main.py:69-111 | Every failure, empty data included, is reported as 500. |
| UploadService.AnalyzeIntended | backend/main.py:76-77 | Empty data is 404 and nothing else is. It succeeds exactly when the original handler does. |
| UploadService.CodeDigits | backend/main.py:106 | Every code has three digits and parses to 100r + 10f + m. |
| UploadService.ScoreDirections | backend/main.py:101-103 | Scores are monotone in the right direction for each metric. |
| UploadService.EqualFrequenciesFail | backend/main.py:102 | When all customers bought equally often, the frequency `qcut` raises. |
| Models.NewUser | backend/app/models.py:10-18 | Accepted iff the plan (default "free") is free, basic or pro and the password has at least 8 characters; each failing field is named. |
| Models.NewFileStatus | backend/app/models.py:43 | Accepted iff the status is pending, processing, completed or error. |
| Models.NewAnalysisStatus | backend/app/models.py:89 | Accepted iff the status is processing, completed or error. |
| Models.StatusEnums | backend/app/models.py:43-89 | The analysis statuses are the file statuses without "pending". |
| Models.NewRfmParams | backend/app/models.py:50-58 | Accepted iff the segment count (default 5) is in [2, 10] and each weight (default 1.0) is in [0, 1]; each failing field is named; the values are kept. |
| Models.DefaultParams | backend/app/models.py:55-58 | Defaults are accepted: 5 segments, weights summing to 3. |
| Models.NewRecommendation | backend/app/models.py:96-102 | Accepted iff the priority is in [1, 5]. |
| Plans.CheckPlanLimits | backend/app/auth.py:191-196 | Pro has no limit; basic allows up to the configured basic limit; free and any unknown plan allow up to the configured free limit. |
| Plans.DefaultLimits | backend/app/config.py:31-33 | With the default settings, basic allows up to 1000 and free and unknown plans up to 100. |
| Plans.LimitsMonotone | backend/app/auth.py:196 | Data within a limit stays within it when smaller. |
| Plans.PlanOrder | backend/app/auth.py:191-196 | When the free limit is at most the basic limit, as by default, free is never more generous than basic; basic is never more generous than pro. |
| Plans.PlanOrderNeedsSettings | backend/app/config.py:31-33 | Settings with a free limit above the basic one let a size at the free limit fit free but not basic. |
| Plans.UnknownPlanIsFree | backend/app/auth.py:196 | An unknown plan gets the free limit. |
| Plans.IsPremiumFeature | backend/app/auth.py:198-207 | Premium iff the feature is one of the four listed. |
| AppScoring.Composite | backend/app/rfm.py:75-79 | Finite iff all three parts are; then it is the weighted sum with recency inverted. |
| AppScoring.NormalisedRange | backend/app/rfm.py:70-72 | With a spread, the normalised value is finite and in [0, 1]; a constant column gives NaN. |
| AppScoring.ScoreRows | backend/app/rfm.py:44-79 | One row per purchase. It has recency from `now`, the customer's count and per-row normalisations. m uses the row's own amount against the per-customer sums. The score is the composite. |
| AppScoring.ConstantRecencyUnscored | backend/app/rfm.py:70 | When all purchases share a day, every r and every score is NaN. |
| AppScoring.FullMarks | backend/app/rfm.py:75-79 | The freshest, most frequent, top-amount row scores the plain weight sum (3 with the default weights). |
| AppScoring.MonetaryFromRowAmount | backend/app/rfm.py:72 | On three concrete purchases, m is −4/15 for one row: outside [0, 1]. |
| AppScoring.BandsDisjoint | backend/app/rfm.py:101 | A score lies in at most one band. |
| AppScoring.BandHitsCover | backend/app/rfm.py:97-101 | Over all bands, a score is counted once iff it is finite and in [0, 1), else never. |
| AppScoring.Unbanded | backend/app/rfm.py:101 | A score outside [0, 1), or not finite, is in no band. |
| AppScoring.TopRowUnbanded | backend/app/rfm.py:97-101 | When the weights add up to at least 1, the top row is in no segment and the segments miss a customer. |
| AppScoring.SegmentCustomers | backend/app/rfm.py:96-117 | Fails (division by zero) iff there are no rows but some segments. Otherwise there is one entry per segment, with its id, name, member count and percentage of all rows. |
| AppScoring.CoveredCount | backend/app/rfm.py:101 | All rows are banded iff every score is finite and in [0, 1). |
| AppScoring.PercentagesAddUp | backend/app/rfm.py:108-113 | Counts add up to the banded rows. Percentages add up to 100 iff every score is banded. |
| AppScoring.SameDayUnsegmented | backend/app/rfm.py:70-113 | When all purchases share a day, every segment is empty and the percentages add up to 0. |
| AppScoring.UnscoredUnsegmented | backend/app/rfm.py:101-113 | All-NaN scores leave every segment empty. |
| AppScoring.BestAndWorstFirst | backend/app/rfm.py:152-153 | With finite scores, `max` and `min` pick the first segment with the highest and lowest score. |
| AppScoring.FirstNaNIsBestAndWorst | backend/app/rfm.py:152-153 | When the first segment's score is NaN, it is both the best and the worst. |
| AppScoring.AverageOfFinite | backend/app/rfm.py:159 | With all scores finite, the pandas mean is the arithmetic mean. |
| AppScoring.Checked | backend/app/rfm.py:44-62 | Missing columns are an error naming them. The checks pass iff the columns exist, dates convert, `customer_id` exists, amounts are numeric and there is a row; then the purchases are the frame's rows, and there is at least one. |
| AppScoring.PerformRfmAnalysis | backend/app/rfm.py:120-171 | Fails iff the checks fail, with their error. The total is the row count, there are `segments_count` segments, and best and worst are the segments `max` and `min` pick. |
| AppScoring.Recommendations | backend/app/rfm.py:234-243 | Valid iff every segment id is in [0, 4]; priority is 5 minus the id. |
| AppScoring.PriorityLimit | backend/app/rfm.py:241 | Recommendations for n segments validate iff n is at most 5; segment 5 fails. |
| AppIntended.Normalise | backend/app/rfm.py:70-72 | In [0, 1], 0 at the minimum and 1 at the maximum; equals the code's value when there is a spread; 0 for a constant column. |
| AppIntended.Composite | backend/app/rfm.py:75-79 | The weighted mean, in [0, 1], 0 for zero weights. For positive weights, the code's composite is this mean times the weight sum. |
| AppIntended.Band | backend/app/rfm.py:97-101 | The band is below n; for a score below 1 it is the code's band, and score 1 goes to the top band. |
| AppIntended.BandMonotone | backend/app/rfm.py:97-101 | A higher score never gets a lower band. |
| AppIntended.ScoreRows | backend/app/rfm.py:44-79 | One row per purchase. The metrics are the customer's recency, count and sum; the scores are normalised, the composite is in [0, 1] and the band is below n. |
| AppIntended.AgreesWithCode | backend/app/rfm.py:70-71 | When the recency and count columns have a spread, r and f equal the code's values. |
| AppIntended.AgreesOnSinglePurchases | backend/app/rfm.py:70-79 | On a row whose amount is its customer's whole sum (a customer who bought once), when the recency, count and sum columns each have a spread, m equals the code's value and the score is the code's score divided by the weight sum. The count spread needs some repeat buyer; when every customer bought once the code's f is NaN and the lemma does not apply. |
| AppIntended.SameDayScored | backend/app/rfm.py:70 | When all purchases share a day, every row still gets r = 0, a score in [0, 1] and a band. |
| AppIntended.PerCustomer | backend/app/rfm.py:61-72 | Rows of the same customer get the same f and m, and the top spender gets m = 1. |
| AppIntended.SegmentCustomers | backend/app/rfm.py:96-117 | Fails iff there are no rows but some segments. Otherwise each entry's count is the number of rows in its band, with the corresponding percentage. |
| AppIntended.EveryRowSegmented | backend/app/rfm.py:108-113 | Every row is in one segment: counts add up to the rows and percentages to 100. |
| AppIntended.BestAndWorst | backend/app/rfm.py:152-153 | Best and worst skip empty segments. When every segment's score is finite they agree with `max` and `min`. |
| AppIntended.Priority | backend/app/rfm.py:241 | Priority is in [1, 5]: 5 for the first segment, 5 minus the id up to id 4, and 1 beyond. |
| AppIntended.PriorityMonotone | backend/app/rfm.py:241 | A later segment never gets a higher priority. |
| AppIntended.PrioritiesValid | backend/app/models.py:102 | Every segment's recommendation validates, whatever the segment count. |
| AppIntended.Summarise | backend/app/rfm.py:151-162 | The summary keeps the total and the segments, and the average is the arithmetic mean of the scores. Best and worst are segments below n: the first with the largest and the smallest finite mean score. |
| AppIntended.PerformRfmAnalysis | backend/app/rfm.py:120-171 | Succeeds iff the code's checks pass; success is the summary of the corrected rows. |
| AppIntended.SameFailures | backend/app/rfm.py:139-146 | The corrected analysis fails exactly when the code does, with the same error. |
| AppIntended.SummaryNamesSegments | backend/app/rfm.py:152-161 | With rows present, some segment has a finite mean score, so a best and a worst segment exist. |

## Left out

- HTTP transport, Supabase storage and queries, OpenAI prompts, JWT tokens, password hashing
  and e-mail validation are calls into code outside this model. The storage call of the
  upload (`backend/main.py:62`) and the fetch of the analysis (`backend/main.py:73`) are
  parameters or left to the caller.
- The business-day recency of `rfmpro_analysis.py` (`pd.bdate_range`) depends on a calendar
  and is left out. Only the calendar-day path is modelled.
- Visualisation, CSV export and the descriptive statistics (mean, median, standard
  deviation) that feed only reports are left out. The `.round(2)` of the segment statistics
  of `backend/rfm_analysis.py` is modelled (`Scoring.Round2`). The `segment_stats` of
  `rfmpro_analysis.py` are left out too; only its distribution is modelled.
- Binary floating-point rounding is not modelled. Amounts are exact reals, and outside `AppScoring`
  no value is NaN or infinite.
- Parsing of the `analysis_date` string and of date cells is a parameter (`toDay`, `now`).
- The order of `value_counts()` rows (by count) is not modelled. The distribution lists
  segments in first-occurrence order, which does not change the counts or shares.
- The row order after `merge` in `backend/app/rfm.py` is taken to be the input order.
- The description strings with two decimals (`backend/app/rfm.py:107`) and the printed
  warning texts are not modelled. Warnings are values.
- `AppScoring.PerformRfmAnalysis`: requires the three configured column names to be plain
  names that differ from the columns the code adds (`PlainNames`). A configured name equal to
  "count" or "recency" would be overwritten by the merge, and that is not modelled.
- `AppScoring.PerformRfmAnalysis` and `AppIntended.PerformRfmAnalysis`: require null-free
  columns, because pandas' skipping of nulls in `groupby`, `max` and arithmetic is not
  modelled.
- `AppScoring.PerformRfmAnalysis` and `AppIntended.PerformRfmAnalysis`: require `Mergeable`.
  An input column named `count` would shadow the group counts in the merge
  (`backend/app/rfm.py:53`), so that line 71 normalises the input's own column; that is not
  modelled. A frequency column mixing numbers and text makes `agg(['count', 'sum'])`
  (line 52) raise `TypeError`; that error is not modelled. The requirement excludes every mix,
  including one that pandas might add group by group without raising.
- `ProAnalysis.Analyze`: requires the three columns to be null-free, although validation
  only warns about nulls. What pandas does with nulls afterwards is not modelled.
- `ProAnalysis.Analyze`: requires `n_quantiles` (`cfg.k`) to be at least 1. The code never
  checks it (`rfmpro_analysis.py:15`, `:203`, `:263`), and what `qcut`, the labels and the
  fallback do with 0 or fewer groups is not modelled.
- `RootAnalysis.Analyze` and `UploadService.AnalyzeBody`: require a numeric amount column
  when it exists, because pandas' text concatenation in a `sum` is not modelled.
- `RootAnalysis.Analyze`, `RootAnalysis.AnalyzeTotals`, `RootAnalysis.ReportTotals` and
  `UploadService.AnalyzeBody` (with `UploadService.Analyze` and `UploadService.AnalyzeIntended`):
  require key and date columns without nulls. pandas' `groupby` drops rows with a null key, so
  those rows count neither as customers nor in the grouped revenue. A null date becomes `NaT`
  and does not raise. Neither behaviour is modelled.
- `BackendAnalysis.Validate`: assumes pandas 1.x. `backend/rfm_analysis.py:32` indexes the
  frame with a set (`df[required_columns]`), which pandas 2.0 and later reject with
  `TypeError` on every input that passes the column check. The model performs the null check
  as pandas 1.x does.
- `BackendAnalysis.Analyze` and `BackendAnalysis.AnalyzeTotals`: require the customer
  column to differ from the date and amount columns. Grouping by a column that is also
  aggregated is not modelled.
- `BackendAnalysis.Validate`: the amount column's dtype is inferred from its cells, so an
  empty column counts as numeric. pandas gives a header-only CSV `object` columns, and
  `is_numeric_dtype` (line 36) then fails the check, which the model does not reproduce.
  For such a file `BackendAnalysis.Analyze` fails too, but with `EmptyApply`.
- `ProAnalysis.Validate`: models `pd.to_numeric` as the parameter `parse`.
- `UploadService.Upload`: states that every failure is 500 and how the format decides, but
  not the stored records in full. Those are stated by `UploadService.UploadStoresOutputKeys`
  and `UploadService.ReshapeAll`.
- `AppScoring.ScoreRows`: integer day differences stand for `.dt.days`, which truncates
  time of day.

## Findings

| source | as written | input that shows it | evidently intended | confidence | as-written member | corrected member |
|---|---|---|---|---|---|---|
| backend/app/rfm.py:97-101 | Bands are half-open `[i/n, (i+1)/n)`, so a score of 1 or more is in no segment | Three purchases with distinct days, counts and sums; the top row scores 3 with the default weights | Every customer is in exactly one segment; percentages add up to 100 | not executed | AppScoring.TopRowUnbanded | AppIntended.EveryRowSegmented |
| backend/app/rfm.py:75-79 | The composite is the weighted sum, not divided by the weight sum, so it reaches 3 | The freshest, most frequent, top-spending row with default weights | A score in [0, 1] matching the [0, 1] band boundaries | not executed | AppScoring.FullMarks | AppIntended.Composite |
| backend/app/rfm.py:70-72 | min-max divides by zero for a constant column, giving NaN scores | All purchases on the same day (or a single customer) | A constant column scores 0, and every row is segmented | not executed | AppScoring.SameDayUnsegmented | AppIntended.SameDayScored |
| backend/app/rfm.py:72 | m normalises the row's own amount against the range of per-customer sums | Customer A buys 10 and 190 on day 10, customer B buys 50 on day 0: A's first row gets m = −4/15 | m is the customer's sum normalised against the sums' range, in [0, 1] | not executed | AppScoring.MonetaryFromRowAmount | AppIntended.PerCustomer |
| backend/app/rfm.py:241 | Priority `5 - segment_id` violates the model's range [1, 5] from segment 5 on | segments_count = 6 (allowed up to 10) | Every recommendation has a priority in [1, 5] | not executed | AppScoring.PriorityLimit | AppIntended.PrioritiesValid |
| backend/app/rfm.py:152-153 | `max`/`min` by score keep a first segment whose mean is NaN (empty) | Segment 1 empty, other segments populated | Best and worst are chosen among populated segments | not executed | AppScoring.FirstNaNIsBestAndWorst | AppIntended.BestAndWorst |
| rfmpro_analysis.py:188-191 | Recency ranks ascending and frequency and monetary descending give the best customer ranks (1,1,1) | Two customers, one more recent, more frequent and higher-spending | The best customer is a champion and the worst is lost | not executed | ProAnalysis.BestCustomerIsLost | ProAnalysis.IntendedBestIsChampion |
| backend/main.py:54-59 | The output fields are written into the record and the chosen columns are deleted afterwards, so a chosen name equal to an output name deletes that field | A file whose columns are already named `client_id`, `purchase_date` and `amount`: each stored record holds only `user_id`, and the analysis then finds no `client_id` | Every stored record has the four output fields | not executed | UploadService.NaturalNamesKeepOnlyUser | UploadService.ReshapeIntended |
| backend/main.py:43 | `HTTPException(400)` raised inside `try` is caught by `except Exception` and re-raised as 500 | Uploading "data.txt" | Unsupported format answers 400 and empty data 404 | not executed | UploadService.UnsupportedFileIs500 | UploadService.UploadIntended |

=== FILE: app_intended.dfy ===
/** `backend/app/rfm.py` with its evident intent restored: a constant column normalises to
    0 instead of NaN, the composite is the weighted MEAN, the monetary score is per customer,
    the last band is closed at 1, the best and worst segments are chosen among non-empty
    ones, and the priorities are clamped to [1, 5] whatever the number of segments. */
module AppIntended {
  import opened Wrappers
  import opened Tally
  import opened Frame
  import opened Metrics
  import opened Binning
  import opened Codes
  import opened Models
  import AppScoring

  type Float = AppScoring.Float

  // ---------------------------------------------------------------- scores

  /** Min-max normalisation with a constant column mapped to 0, as scikit-learn's
      `MinMaxScaler` does; on a column with a spread it agrees with the code as written. */
  function Normalise(x: real, xs: seq<real>): (v: real)
    requires x in xs
    ensures 0.0 <= v <= 1.0
    ensures x == Minimum(xs) ==> v == 0.0
    ensures Minimum(xs) < Maximum(xs) && x == Maximum(xs) ==> v == 1.0
    ensures Minimum(xs) < Maximum(xs) ==> AppScoring.Normalised(x, xs) == AppScoring.Finite(v)
  {
    var lo, hi := Minimum(xs), Maximum(xs);
    if lo == hi then 0.0
    else
      AppScoring.DivUnit(x - lo, hi - lo);
      AppScoring.DivEnds(hi - lo);
      (x - lo) / (hi - lo)
  }

  function WeightSum(p: RfmParams): real {
    p.recencyWeight + p.frequencyWeight + p.monetaryWeight
  }

  lemma WeightedBound(w: real, x: real, y: real)
    requires 0.0 <= w && 0.0 <= x <= 1.0 && y == w * x
    ensures 0.0 <= y <= w
  {
    assert w * (1.0 - x) >= 0.0;
  }

  lemma MeanInUnit(a: real, b: real, c: real, x: real, y: real, z: real)
    requires 0.0 <= a && 0.0 <= b && 0.0 <= c && a + b + c > 0.0
    requires 0.0 <= x <= 1.0 && 0.0 <= y <= 1.0 && 0.0 <= z <= 1.0
    ensures 0.0 <= (a * x + b * y + c * z) / (a + b + c) <= 1.0
    ensures (a * x + b * y + c * z) / (a + b + c) * (a + b + c) == a * x + b * y + c * z
  {
    var u, v, o := a * x, b * y, c * z;
    WeightedBound(a, x, u);
    WeightedBound(b, y, v);
    WeightedBound(c, z, o);
    var t, w := u + v + o, a + b + c;
    assert 0.0 <= t <= w;
    AppScoring.DivUnit(t, w);
    assert t / w * w == t;
  }

  /** The weighted mean of `1 - r`, `f` and `m`: in [0, 1], and the code's composite divided
      by the weight sum (0 when every weight is 0). */
  function Composite(p: RfmParams, r: real, f: real, m: real): (s: real)
    requires ValidParams(p) && 0.0 <= r <= 1.0 && 0.0 <= f <= 1.0 && 0.0 <= m <= 1.0
    ensures 0.0 <= s <= 1.0
    ensures WeightSum(p) == 0.0 ==> s == 0.0
    ensures WeightSum(p) > 0.0 ==>
              AppScoring.Composite(p, AppScoring.Finite(r), AppScoring.Finite(f), AppScoring.Finite(m)) == AppScoring.Finite(s * WeightSum(p))
  {
    var w := WeightSum(p);
    if w == 0.0 then 0.0
    else
      var total := p.recencyWeight * (1.0 - r) + p.frequencyWeight * f + p.monetaryWeight * m;
      MeanInUnit(p.recencyWeight, p.frequencyWeight, p.monetaryWeight, 1.0 - r, f, m);
      var written := AppScoring.Composite(p, AppScoring.Finite(r), AppScoring.Finite(f), AppScoring.Finite(m));
      assert written.Finite? && written.value == total == total / w * w;
      total / w
  }

  // ---------------------------------------------------------------- bands

  function BandFrom(s: real, i: nat, n: nat): (b: nat)
    requires i < n && AppScoring.Lower(i, n) <= s
    ensures i <= b < n && AppScoring.Lower(b, n) <= s
    ensures b < n - 1 ==> s < AppScoring.Lower(b + 1, n)
    decreases n - i
  {
    if i == n - 1 || s < AppScoring.Lower(i + 1, n) then i else BandFrom(s, i + 1, n)
  }

  /** The band of a score in [0, 1]: `[i/n, (i+1)/n)`, with the last band closed at 1. Below 1
      it is the one band the code as written finds. */
  function Band(s: real, n: nat): (b: nat)
    requires n > 0 && 0.0 <= s <= 1.0
    ensures b < n
    ensures s < 1.0 ==> AppScoring.InBand(AppScoring.Finite(s), b, n)
    ensures s == 1.0 ==> b == n - 1
  {
    assert AppScoring.Lower(0, n) == 0.0 && AppScoring.Lower(n, n) == 1.0;
    var b := BandFrom(s, 0, n);
    if b < n - 1 then AppScoring.LowerMono(b + 1, n, n); b else b
  }

  /** A higher score never lands in a lower band. */
  lemma BandMonotone(s: real, t: real, n: nat)
    requires n > 0 && 0.0 <= s <= t <= 1.0
    ensures Band(s, n) <= Band(t, n)
  {
    var bs, bt := Band(s, n), Band(t, n);
    if bt < n - 1 {
      assert AppScoring.Lower(bs, n) <= s < AppScoring.Lower(bt + 1, n);
      LowerOrder(bs, bt + 1, n);
    }
  }

  lemma LowerOrder(i: int, j: int, n: nat)
    requires n > 0 && AppScoring.Lower(i, n) < AppScoring.Lower(j, n)
    ensures i < j
  {
    if j <= i {
      AppScoring.LowerMono(j, i, n);
    }
  }

  // ---------------------------------------------------------------- rows

  datatype Row = Row(customer: Cell, r: real, f: real, m: real, score: real, band: nat)

  function BandKey(x: Row): int { x.band }
  function RValue(x: Row): real { x.r }
  function FValue(x: Row): real { x.f }
  function MValue(x: Row): real { x.m }
  function ScoreValue(x: Row): real { x.score }

  /** Row `i`: recency from the row, frequency and monetary from the row's customer, each
      normalised over its column; the weighted mean; its band. */
  function ScoredRow(customer: Cell, rec: seq<real>, counts: seq<real>, sums: seq<real>, i: nat, p: RfmParams): (row: Row)
    requires i < |rec| && i < |counts| && i < |sums| && ValidParams(p)
    ensures row.customer == customer
    ensures row.r == Normalise(rec[i], rec) && row.f == Normalise(counts[i], counts) && row.m == Normalise(sums[i], sums)
    ensures 0.0 <= row.score <= 1.0 && row.band < p.segmentsCount
    ensures row.band == Band(row.score, p.segmentsCount)
    ensures row.score == Composite(p, row.r, row.f, row.m)
  {
    var r, f, m := Normalise(rec[i], rec), Normalise(counts[i], counts), Normalise(sums[i], sums);
    var s := Composite(p, r, f, m);
    Row(customer, r, f, m, s, Band(s, p.segmentsCount))
  }

  function ScoreRows(txns: seq<Txn>, now: int, p: RfmParams): (rows: seq<Row>)
    requires ValidParams(p)
    ensures |rows| == |txns|
    ensures forall i :: 0 <= i < |txns| ==>
              rows[i] == ScoredRow(txns[i].customer, AppScoring.RowRecencies(txns, now), AppScoring.RowCounts(txns), AppScoring.RowSums(txns), i, p)
  {
    var rec, counts, sums := AppScoring.RowRecencies(txns, now), AppScoring.RowCounts(txns), AppScoring.RowSums(txns);
    seq(|txns|, i requires 0 <= i < |txns| => ScoredRow(txns[i].customer, rec, counts, sums, i, p))
  }

  lemma ScaledComposite(p: RfmParams, r: real, f: real, m: real, s: real)
    requires ValidParams(p) && 0.0 <= r <= 1.0 && 0.0 <= f <= 1.0 && 0.0 <= m <= 1.0 && WeightSum(p) > 0.0
    requires s == Composite(p, r, f, m)
    ensures AppScoring.Composite(p, AppScoring.Finite(r), AppScoring.Finite(f), AppScoring.Finite(m)) == AppScoring.Finite(s * WeightSum(p))
  {
  }

  /** On columns with a spread the code's recency and frequency scores are these. */
  lemma AgreesWithCode(txns: seq<Txn>, now: int, p: RfmParams, i: nat)
    requires ValidParams(p) && i < |txns|
    requires Minimum(AppScoring.RowRecencies(txns, now)) < Maximum(AppScoring.RowRecencies(txns, now))
    requires Minimum(AppScoring.RowCounts(txns)) < Maximum(AppScoring.RowCounts(txns))
    ensures AppScoring.ScoreRows(txns, now, p)[i].r == AppScoring.Finite(ScoreRows(txns, now, p)[i].r)
    ensures AppScoring.ScoreRows(txns, now, p)[i].f == AppScoring.Finite(ScoreRows(txns, now, p)[i].f)
  {
    var rec, counts, sums := AppScoring.RowRecencies(txns, now), AppScoring.RowCounts(txns), AppScoring.RowSums(txns);
    AppScoring.RowOf(txns, now, p, i);
    var ours := ScoreRows(txns, now, p)[i];
    assert ours == ScoredRow(txns[i].customer, rec, counts, sums, i, p);
    assert rec[i] in rec && counts[i] in counts;
  }

  /** On a row whose amount is its customer's whole sum (a customer who bought once), when
      besides the count and sum columns have a spread, the code's monetary score is this one
      and its composite is this score times the weight sum. The spread of the counts needs
      some customer with more than one purchase: when every customer bought once the code's
      count column is constant, its f is NaN, and this lemma does not apply. */
  lemma AgreesOnSinglePurchases(txns: seq<Txn>, now: int, p: RfmParams, i: nat)
    requires ValidParams(p) && i < |txns| && WeightSum(p) > 0.0
    requires Minimum(AppScoring.RowRecencies(txns, now)) < Maximum(AppScoring.RowRecencies(txns, now))
    requires Minimum(AppScoring.RowCounts(txns)) < Maximum(AppScoring.RowCounts(txns))
    requires Minimum(AppScoring.RowSums(txns)) < Maximum(AppScoring.RowSums(txns))
    requires AppScoring.RowSums(txns)[i] == txns[i].amount
    ensures AppScoring.ScoreRows(txns, now, p)[i].m == AppScoring.Finite(ScoreRows(txns, now, p)[i].m)
    ensures AppScoring.ScoreRows(txns, now, p)[i].score.Finite?
    ensures ScoreRows(txns, now, p)[i].score == AppScoring.ScoreRows(txns, now, p)[i].score.value / WeightSum(p)
  {
    var rec, counts, sums := AppScoring.RowRecencies(txns, now), AppScoring.RowCounts(txns), AppScoring.RowSums(txns);
    AgreesWithCode(txns, now, p, i);
    AppScoring.RowOf(txns, now, p, i);
    var code, ours := AppScoring.ScoreRows(txns, now, p)[i], ScoreRows(txns, now, p)[i];
    assert ours == ScoredRow(txns[i].customer, rec, counts, sums, i, p);
    assert sums[i] in sums;
    assert code.m == AppScoring.Normalised(sums[i], sums);
    RowAgreement(p, code, ours);
  }

  lemma RowAgreement(p: RfmParams, code: AppScoring.ScoredRow, ours: Row)
    requires ValidParams(p) && WeightSum(p) > 0.0
    requires 0.0 <= ours.r <= 1.0 && 0.0 <= ours.f <= 1.0 && 0.0 <= ours.m <= 1.0 && ours.score == Composite(p, ours.r, ours.f, ours.m)
    requires code.r == AppScoring.Finite(ours.r) && code.f == AppScoring.Finite(ours.f) && code.m == AppScoring.Finite(ours.m)
    requires code.score == AppScoring.Composite(p, code.r, code.f, code.m)
    ensures code.score.Finite? && ours.score == code.score.value / WeightSum(p)
  {
    ScaledComposite(p, ours.r, ours.f, ours.m, ours.score);
    MulDiv(ours.score, WeightSum(p));
  }

  lemma MulDiv(x: real, w: real)
    requires w != 0.0
    ensures x * w / w == x
  {
  }

  /** When every purchase falls on the same day every row scores 0 on recency and still
      gets a score and a band. */
  lemma SameDayScored(txns: seq<Txn>, now: int, p: RfmParams, i: nat)
    requires ValidParams(p) && i < |txns|
    requires forall j :: 0 <= j < |txns| ==> txns[j].day == txns[0].day
    ensures ScoreRows(txns, now, p)[i].r == 0.0
    ensures 0.0 <= ScoreRows(txns, now, p)[i].score <= 1.0 && ScoreRows(txns, now, p)[i].band < p.segmentsCount
  {
    var rec := AppScoring.RowRecencies(txns, now);
    assert rec[i] in rec && Minimum(rec) in rec;
    assert Minimum(rec) == rec[i];
  }

  /** All rows of one customer share its frequency and monetary scores, and the customer
      with the largest sum scores 1 on monetary when the sums differ. */
  lemma PerCustomer(txns: seq<Txn>, now: int, p: RfmParams, i: nat, j: nat)
    requires ValidParams(p) && i < |txns| && j < |txns|
    ensures txns[i].customer == txns[j].customer ==>
              ScoreRows(txns, now, p)[i].f == ScoreRows(txns, now, p)[j].f && ScoreRows(txns, now, p)[i].m == ScoreRows(txns, now, p)[j].m
    ensures Minimum(AppScoring.RowSums(txns)) < Maximum(AppScoring.RowSums(txns)) && AppScoring.RowSums(txns)[i] == Maximum(AppScoring.RowSums(txns)) ==>
              ScoreRows(txns, now, p)[i].m == 1.0
  {
  }

  // ---------------------------------------------------------------- segments

  /** The mean of `val` over band `i`'s rows; NaN for an empty band. */
  function MeanOf(rows: seq<Row>, i: int, val: Row -> real): Float {
    var c := Count(rows, BandKey, i);
    if c == 0 then AppScoring.NaN else AppScoring.Finite(Total(rows, BandKey, val, i) / c as real)
  }

  function Info(rows: seq<Row>, i: int): AppScoring.SegmentInfo
    requires rows != [] && i >= 0
  {
    var c := Count(rows, BandKey, i);
    AppScoring.SegmentInfo(i, "Сегмент " + Decimal(i + 1), c, MeanOf(rows, i, RValue), MeanOf(rows, i, FValue),
                           MeanOf(rows, i, MValue), MeanOf(rows, i, ScoreValue), c as real / |rows| as real * 100.0)
  }

  function SegmentsOver(rows: seq<Row>, ids: seq<int>): (segs: seq<AppScoring.SegmentInfo>)
    requires rows != [] && forall k :: 0 <= k < |ids| ==> ids[k] >= 0
    ensures |segs| == |ids| && forall k :: 0 <= k < |ids| ==> segs[k] == Info(rows, ids[k])
  {
    if ids == [] then []
    else
      assert forall k :: 1 <= k < |ids| ==> ids[k] == ids[1..][k - 1];
      [Info(rows, ids[0])] + SegmentsOver(rows, ids[1..])
  }

  /** One segment per band, each row counted in the segment of its band. */
  function SegmentCustomers(rows: seq<Row>, n: nat): (r: Result<seq<AppScoring.SegmentInfo>, Failure>)
    ensures r.Err? <==> rows == [] && n > 0
    ensures r.Ok? ==> |r.value| == n
    ensures r.Ok? ==> forall i :: 0 <= i < n ==> r.value[i].segmentId == i && r.value[i].customerCount == Count(rows, BandKey, i)
  {
    if n == 0 then Ok([])
    else if rows == [] then Err(ZeroDivision)
    else Ok(SegmentsOver(rows, AppScoring.Ids(n)))
  }

  lemma {:induction false} CountsOver(rows: seq<Row>, ids: seq<int>)
    requires rows != [] && forall k :: 0 <= k < |ids| ==> ids[k] >= 0
    ensures Sum(SegmentsOver(rows, ids), AppScoring.CustomerCount) == CountAll(rows, BandKey, ids) as real
  {
    if ids != [] {
      assert SegmentsOver(rows, ids)[1..] == SegmentsOver(rows, ids[1..]);
      CountsOver(rows, ids[1..]);
    }
  }

  /** Every row lies in exactly one segment: the counts add up to the number of rows and the
      percentages to 100, for every non-empty input, a single customer included. */
  lemma EveryRowSegmented(rows: seq<Row>, n: nat)
    requires n > 0 && rows != [] && forall i :: 0 <= i < |rows| ==> rows[i].band < n
    ensures Sum(SegmentCustomers(rows, n).value, AppScoring.CustomerCount) == |rows| as real
    ensures Sum(SegmentCustomers(rows, n).value, AppScoring.Percentage) == 100.0
  {
    var ids := AppScoring.Ids(n);
    var segs := SegmentsOver(rows, ids);
    assert segs == SegmentCustomers(rows, n).value;
    CountsCover(rows, n);
    CountsOver(rows, ids);
    SharesOf(rows, ids);
    var len := |rows| as real;
    ShareSum(segs, AppScoring.CustomerCount, AppScoring.Percentage, len);
    AppScoring.WholeShare(len, len);
  }

  /** With every band below `n`, the per-band counts add up to the number of rows. */
  lemma CountsCover(rows: seq<Row>, n: nat)
    requires forall i :: 0 <= i < |rows| ==> rows[i].band < n
    ensures CountAll(rows, BandKey, AppScoring.Ids(n)) == |rows|
  {
    var ids := AppScoring.Ids(n);
    assert NoDup(ids);
    forall i | 0 <= i < |rows| ensures BandKey(rows[i]) in ids {
      assert ids[rows[i].band] == rows[i].band;
    }
    CountAllPartition(rows, BandKey, ids);
  }

  lemma SharesOf(rows: seq<Row>, ids: seq<int>)
    requires rows != [] && forall k :: 0 <= k < |ids| ==> ids[k] >= 0
    ensures forall k :: 0 <= k < |ids| ==>
              AppScoring.Percentage(SegmentsOver(rows, ids)[k]) == AppScoring.CustomerCount(SegmentsOver(rows, ids)[k]) / |rows| as real * 100.0
  {
  }

  // ---------------------------------------------------------------- best and worst

  /** `cur` is the first position holding the largest finite key among the first `i`, or -1
      when none of them is finite. */
  predicate BestSoFar(keys: seq<Float>, cur: int, i: nat)
    requires i <= |keys|
  {
    && -1 <= cur < i
    && (cur == -1 <==> forall j :: 0 <= j < i ==> !keys[j].Finite?)
    && (cur >= 0 ==> keys[cur].Finite?
                     && (forall j :: 0 <= j < i && keys[j].Finite? ==> keys[j].value <= keys[cur].value)
                     && (forall j :: 0 <= j < cur && keys[j].Finite? ==> keys[j].value < keys[cur].value))
  }

  predicate WorstSoFar(keys: seq<Float>, cur: int, i: nat)
    requires i <= |keys|
  {
    && -1 <= cur < i
    && (cur == -1 <==> forall j :: 0 <= j < i ==> !keys[j].Finite?)
    && (cur >= 0 ==> keys[cur].Finite?
                     && (forall j :: 0 <= j < i && keys[j].Finite? ==> keys[cur].value <= keys[j].value)
                     && (forall j :: 0 <= j < cur && keys[j].Finite? ==> keys[cur].value < keys[j].value))
  }

  /** Python's `max` scan restricted to the non-empty segments (finite keys). */
  function BestFrom(keys: seq<Float>, cur: int, i: nat): (k: int)
    requires i <= |keys| && BestSoFar(keys, cur, i)
    ensures BestSoFar(keys, k, |keys|)
    decreases |keys| - i
  {
    if i == |keys| then cur
    else if keys[i].Finite? && (cur < 0 || keys[i].value > keys[cur].value) then BestFrom(keys, i, i + 1)
    else BestFrom(keys, cur, i + 1)
  }

  function WorstFrom(keys: seq<Float>, cur: int, i: nat): (k: int)
    requires i <= |keys| && WorstSoFar(keys, cur, i)
    ensures WorstSoFar(keys, k, |keys|)
    decreases |keys| - i
  {
    if i == |keys| then cur
    else if keys[i].Finite? && (cur < 0 || keys[i].value < keys[cur].value) then WorstFrom(keys, i, i + 1)
    else WorstFrom(keys, cur, i + 1)
  }

  /** With at least one non-empty segment the best and worst are the first non-empty
      segments with the largest and the smallest mean score; on all-finite keys they are
      what Python's `max` and `min` pick. */
  lemma BestAndWorst(keys: seq<Float>, j: nat)
    requires j < |keys| && keys[j].Finite?
    ensures BestFrom(keys, -1, 0) >= 0 && WorstFrom(keys, -1, 0) >= 0
    ensures AppScoring.AllFinite(keys) ==>
              BestFrom(keys, -1, 0) == AppScoring.PyMax(keys) && WorstFrom(keys, -1, 0) == AppScoring.PyMin(keys)
  {
    if AppScoring.AllFinite(keys) {
      AppScoring.BestAndWorstFirst(keys);
      SameFirst(keys, BestFrom(keys, -1, 0), AppScoring.PyMax(keys), false);
      SameFirst(keys, WorstFrom(keys, -1, 0), AppScoring.PyMin(keys), true);
    }
  }

  /** The first position of the extreme key is unique. */
  lemma SameFirst(keys: seq<Float>, a: nat, b: nat, lower: bool)
    requires a < |keys| && b < |keys| && AppScoring.AllFinite(keys)
    requires !lower ==> AppScoring.FirstMax(keys, a, |keys|) && AppScoring.FirstMax(keys, b, |keys|)
    requires lower ==> AppScoring.FirstMin(keys, a, |keys|) && AppScoring.FirstMin(keys, b, |keys|)
    ensures a == b
  {
    assert keys[a].value == keys[b].value;
  }

  // ---------------------------------------------------------------- priorities

  /** `5 - id`, held at 1 from the fifth segment on: the first segment comes first and no
      segment falls below the lowest valid priority. */
  function Priority(id: nat): (p: int)
    ensures 1 <= p <= 5
    ensures id == 0 ==> p == 5
    ensures id <= 4 ==> p == 5 - id
    ensures id >= 4 ==> p == 1
  {
    if id < 4 then 5 - id else 1
  }

  /** Priorities never increase with the segment number. */
  lemma PriorityMonotone(i: nat, j: nat)
    requires i <= j
    ensures Priority(j) <= Priority(i)
  {
  }

  /** Every segment gets a recommendation that passes validation, whatever the segment
      count, and the first five keep the code's priorities. */
  lemma PrioritiesValid(id: nat)
    ensures NewRecommendation(id, Priority(id)).Ok?
    ensures id <= 4 ==> Priority(id) == 5 - id
  {
  }

  // ---------------------------------------------------------------- the analysis

  function Scores(rows: seq<Row>): (xs: seq<real>)
    ensures |xs| == |rows| && forall i :: 0 <= i < |rows| ==> xs[i] == rows[i].score
  {
    seq(|rows|, i requires 0 <= i < |rows| => rows[i].score)
  }

  function Same(x: real): real { x }

  /** The summary of scored rows: every row counted in one segment, the mean score, and the
      best and worst among the non-empty segments. */
  function Summarise(rows: seq<Row>, n: nat, total: nat): (s: AppScoring.SegmentSummary)
    requires n > 0 && rows != [] && forall i :: 0 <= i < |rows| ==> rows[i].band < n
    ensures s.totalCustomers == total && s.segments == SegmentCustomers(rows, n).value
    ensures s.averageRfmScore == AppScoring.Finite(Sum(Scores(rows), Same) / |rows| as real)
    ensures var keys := AppScoring.SegmentScores(s.segments);
            && 0 <= BestFrom(keys, -1, 0) < n && s.bestSegment == s.segments[BestFrom(keys, -1, 0)].name
            && 0 <= WorstFrom(keys, -1, 0) < n && s.worstSegment == s.segments[WorstFrom(keys, -1, 0)].name
  {
    SummaryNamesSegments(rows, n);
    var segs := SegmentCustomers(rows, n).value;
    var keys := AppScoring.SegmentScores(segs);
    AppScoring.SegmentSummary(total, segs, AppScoring.Finite(Sum(Scores(rows), Same) / |rows| as real),
                              segs[BestFrom(keys, -1, 0)].name, segs[WorstFrom(keys, -1, 0)].name)
  }

  /** Every scored row lies in one of the `segments_count` bands. */
  lemma RowsBanded(txns: seq<Txn>, now: int, p: RfmParams)
    requires ValidParams(p)
    ensures forall i :: 0 <= i < |txns| ==> ScoreRows(txns, now, p)[i].band < p.segmentsCount
  {
  }

  /** The analysis with every correction: the same checks in the same order as the code,
      then the summary above. */
  function PerformRfmAnalysis(t: Table, p: RfmParams, now: int, toDay: Cell -> Option<int>): (r: Result<AppScoring.SegmentSummary, Failure>)
    requires WellFormed(t) && ValidParams(p) && AppScoring.PlainNames(p) && AppScoring.Mergeable(t, p)
    requires forall c :: c in t.columns ==> NullFree(t, c)
    ensures r.Ok? <==> AppScoring.Checked(t, p, toDay).Ok?
    ensures r.Ok? ==> r.value == Summarise(ScoreRows(AppScoring.Checked(t, p, toDay).value, now, p), p.segmentsCount, |t.rows|)
  {
    var txns :- AppScoring.Checked(t, p, toDay);
    RowsBanded(txns, now, p);
    Ok(Summarise(ScoreRows(txns, now, p), p.segmentsCount, |t.rows|))
  }

  /** The corrected analysis fails on exactly the inputs the code fails on, with the same
      error. */
  lemma SameFailures(t: Table, p: RfmParams, now: int, toDay: Cell -> Option<int>)
    requires WellFormed(t) && ValidParams(p) && AppScoring.PlainNames(p) && AppScoring.Mergeable(t, p)
    requires forall c :: c in t.columns ==> NullFree(t, c)
    ensures PerformRfmAnalysis(t, p, now, toDay).Ok? <==> AppScoring.PerformRfmAnalysis(t, p, now, toDay).Ok?
    ensures PerformRfmAnalysis(t, p, now, toDay).Err? ==> PerformRfmAnalysis(t, p, now, toDay) == AppScoring.PerformRfmAnalysis(t, p, now, toDay)
  {
  }

  /** The segment of the first row is non-empty, so a best and a worst segment exist. */
  lemma SummaryNamesSegments(rows: seq<Row>, n: nat)
    requires n > 0 && rows != [] && forall i :: 0 <= i < |rows| ==> rows[i].band < n
    ensures BestFrom(AppScoring.SegmentScores(SegmentCustomers(rows, n).value), -1, 0) >= 0
    ensures WorstFrom(AppScoring.SegmentScores(SegmentCustomers(rows, n).value), -1, 0) >= 0
  {
    var segs := SegmentCustomers(rows, n).value;
    var b := rows[0].band;
    CountMember(rows, BandKey, 0);
    assert segs[b] == Info(rows, b);
    BestAndWorst(AppScoring.SegmentScores(segs), b);
  }
}

=== FILE: app_rfm.dfy ===
/** `backend/app/rfm.py` as written: row-level min-max scores combined with weights,
    equal-width half-open bands on the composite score, per-band summaries, the best and
    worst band by Python's `max`/`min`, and the recommendation priorities. */
module AppScoring {
  import opened Wrappers
  import opened Tally
  import opened Frame
  import opened Metrics
  import opened Binning
  import opened Codes
  import opened Models

  // ---------------------------------------------------------------- floats

  /** What a float division can produce here: a finite value, NaN or an infinity. */
  datatype Float = Finite(value: real) | NaN | Inf(positive: bool)

  /** Float division of two finite values: `0 / 0` is NaN, `x / 0` an infinity of `x`'s sign. */
  function Div(x: real, y: real): Float {
    if y != 0.0 then Finite(x / y) else if x == 0.0 then NaN else Inf(x > 0.0)
  }

  function Add(a: Float, b: Float): Float {
    match (a, b)
    case (Finite(x), Finite(y)) => Finite(x + y)
    case (NaN, _) => NaN
    case (_, NaN) => NaN
    case (Inf(p), Inf(q)) => if p == q then Inf(p) else NaN
    case (Inf(p), Finite(_)) => Inf(p)
    case (Finite(_), Inf(q)) => Inf(q)
  }

  /** `w * a` for a finite weight `w`; `0 * inf` is NaN. */
  function Scale(w: real, a: Float): Float {
    match a
    case Finite(x) => Finite(w * x)
    case NaN => NaN
    case Inf(p) => if w == 0.0 then NaN else Inf(p == (w > 0.0))
  }

  /** `1 - a`. */
  function Complement(a: Float): Float {
    match a
    case Finite(x) => Finite(1.0 - x)
    case NaN => NaN
    case Inf(p) => Inf(!p)
  }

  /** `a > b` on floats: false whenever either side is NaN. */
  predicate Greater(a: Float, b: Float) {
    match (a, b)
    case (Finite(x), Finite(y)) => x > y
    case (Inf(p), Finite(_)) => p
    case (Finite(_), Inf(q)) => !q
    case (Inf(p), Inf(q)) => p && !q
    case _ => false
  }

  /** `recency_weight * (1 - r) + frequency_weight * f + monetary_weight * m`: finite exactly
      when the three component scores are. */
  function Composite(p: RfmParams, r: Float, f: Float, m: Float): (s: Float)
    ensures s.Finite? <==> r.Finite? && f.Finite? && m.Finite?
    ensures s.Finite? ==> s.value == p.recencyWeight * (1.0 - r.value) + p.frequencyWeight * f.value + p.monetaryWeight * m.value
  {
    Add(Add(Scale(p.recencyWeight, Complement(r)), Scale(p.frequencyWeight, f)), Scale(p.monetaryWeight, m))
  }

  // ---------------------------------------------------------------- row scores

  /** `(x - min) / (max - min)` over the values `xs`. */
  function Normalised(x: real, xs: seq<real>): Float
    requires xs != []
  {
    Div(x - Minimum(xs), Maximum(xs) - Minimum(xs))
  }

  /** A value of the column lands in [0, 1] when the column has a spread, and is NaN when the
      column is constant. */
  lemma NormalisedRange(x: real, xs: seq<real>)
    requires x in xs
    ensures Minimum(xs) < Maximum(xs) ==> Normalised(x, xs).Finite? && 0.0 <= Normalised(x, xs).value <= 1.0
    ensures Minimum(xs) == Maximum(xs) ==> Normalised(x, xs) == NaN
  {
    if Minimum(xs) < Maximum(xs) {
      var d := Maximum(xs) - Minimum(xs);
      assert 0.0 <= x - Minimum(xs) <= d;
      DivUnit(x - Minimum(xs), d);
    }
  }

  lemma DivUnit(a: real, d: real)
    requires 0.0 <= a <= d && d > 0.0
    ensures 0.0 <= a / d <= 1.0
  {
    var q := a / d;
    assert q * d == a;
    assert (1.0 - q) * d == d - a;
  }

  /** Days since each purchase row. */
  function RowRecencies(txns: seq<Txn>, now: int): (xs: seq<real>)
    ensures |xs| == |txns| && forall i :: 0 <= i < |txns| ==> xs[i] == (now - txns[i].day) as real
  {
    seq(|txns|, i requires 0 <= i < |txns| => (now - txns[i].day) as real)
  }

  /** The customer's purchase count, merged back onto each row. */
  function RowCounts(txns: seq<Txn>): (xs: seq<real>)
    ensures |xs| == |txns| && forall i :: 0 <= i < |txns| ==> xs[i] == Count(txns, CustomerOf, txns[i].customer) as real
  {
    seq(|txns|, i requires 0 <= i < |txns| => Count(txns, CustomerOf, txns[i].customer) as real)
  }

  /** The customer's amount sum, merged back onto each row; the minimum and maximum over
      these are those over the per-customer sums. */
  function RowSums(txns: seq<Txn>): (xs: seq<real>)
    ensures |xs| == |txns| && forall i :: 0 <= i < |txns| ==> xs[i] == Total(txns, CustomerOf, AmountOf, txns[i].customer)
  {
    seq(|txns|, i requires 0 <= i < |txns| => Total(txns, CustomerOf, AmountOf, txns[i].customer))
  }

  /** One row of the scored frame. */
  datatype ScoredRow = ScoredRow(customer: Cell, recency: int, count: nat, r: Float, f: Float, m: Float, score: Float)

  /** `calculate_rfm_scores`. Each row keeps its own recency and amount; frequency is its
      customer's count. The monetary score normalises the ROW's amount against the range of
      the per-customer sums, because the merged sum column is the one renamed `_mon`. */
  function ScoreRows(txns: seq<Txn>, now: int, p: RfmParams): (rows: seq<ScoredRow>)
    requires txns != []
    ensures |rows| == |txns|
    ensures forall i :: 0 <= i < |txns| ==>
              && rows[i].customer == txns[i].customer && rows[i].recency == now - txns[i].day
              && rows[i].count == Count(txns, CustomerOf, txns[i].customer)
              && rows[i].r == Normalised(RowRecencies(txns, now)[i], RowRecencies(txns, now))
              && rows[i].f == Normalised(RowCounts(txns)[i], RowCounts(txns))
              && rows[i].m == Normalised(txns[i].amount, RowSums(txns))
              && rows[i].score == Composite(p, rows[i].r, rows[i].f, rows[i].m)
  {
    var rec, counts, sums := RowRecencies(txns, now), RowCounts(txns), RowSums(txns);
    seq(|txns|, i requires 0 <= i < |txns| =>
      var r, f, m := Normalised(rec[i], rec), Normalised(counts[i], counts), Normalised(txns[i].amount, sums);
      ScoredRow(txns[i].customer, now - txns[i].day, Count(txns, CustomerOf, txns[i].customer), r, f, m, Composite(p, r, f, m)))
  }

  /** When every purchase is on the same day (one purchase, or one customer buying once) the
      recency range is zero, every recency score is NaN, and so is every composite score. */
  lemma ConstantRecencyUnscored(txns: seq<Txn>, now: int, p: RfmParams)
    requires txns != [] && forall i :: 0 <= i < |txns| ==> txns[i].day == txns[0].day
    ensures forall i :: 0 <= i < |txns| ==> ScoreRows(txns, now, p)[i].r == NaN && ScoreRows(txns, now, p)[i].score == NaN
  {
    var rec := RowRecencies(txns, now);
    forall i | 0 <= i < |txns| ensures ScoreRows(txns, now, p)[i].r == NaN {
      assert Minimum(rec) in rec && Maximum(rec) in rec;
      NormalisedRange(rec[i], rec);
    }
  }

  /** The row of a customer who is the most recent, the most frequent, and whose row amount
      is the largest customer sum, scores the sum of the weights: 3 with the defaults. */
  lemma FullMarks(txns: seq<Txn>, now: int, p: RfmParams, i: nat)
    requires i < |txns|
    requires Minimum(RowRecencies(txns, now)) < Maximum(RowRecencies(txns, now))
    requires Minimum(RowCounts(txns)) < Maximum(RowCounts(txns))
    requires Minimum(RowSums(txns)) < Maximum(RowSums(txns))
    requires RowRecencies(txns, now)[i] == Minimum(RowRecencies(txns, now))
    requires RowCounts(txns)[i] == Maximum(RowCounts(txns))
    requires txns[i].amount == Maximum(RowSums(txns))
    ensures ScoreRows(txns, now, p)[i].score == Finite(p.recencyWeight + p.frequencyWeight + p.monetaryWeight)
  {
    var rec, counts, sums := RowRecencies(txns, now), RowCounts(txns), RowSums(txns);
    RowOf(txns, now, p, i);
    NormalisedEnds(rec[i], rec);
    NormalisedEnds(counts[i], counts);
    NormalisedEnds(txns[i].amount, sums);
    CompositeFull(p);
  }

  lemma RowOf(txns: seq<Txn>, now: int, p: RfmParams, i: nat)
    requires i < |txns|
    ensures var row := ScoreRows(txns, now, p)[i];
            && row.r == Normalised(RowRecencies(txns, now)[i], RowRecencies(txns, now))
            && row.f == Normalised(RowCounts(txns)[i], RowCounts(txns))
            && row.m == Normalised(txns[i].amount, RowSums(txns))
            && row.score == Composite(p, row.r, row.f, row.m)
  {
  }

  lemma CompositeFull(p: RfmParams)
    ensures Composite(p, Finite(0.0), Finite(1.0), Finite(1.0)) == Finite(p.recencyWeight + p.frequencyWeight + p.monetaryWeight)
  {
  }

  /** The minimum of a column with a spread normalises to 0 and the maximum to 1. */
  lemma NormalisedEnds(x: real, xs: seq<real>)
    requires xs != [] && Minimum(xs) < Maximum(xs)
    ensures x == Minimum(xs) ==> Normalised(x, xs) == Finite(0.0)
    ensures x == Maximum(xs) ==> Normalised(x, xs) == Finite(1.0)
  {
    var lo, hi := Minimum(xs), Maximum(xs);
    assert Normalised(x, xs) == Div(x - lo, hi - lo);
    DivEnds(hi - lo);
  }

  lemma DivEnds(d: real)
    requires d > 0.0
    ensures Div(0.0, d) == Finite(0.0) && Div(d, d) == Finite(1.0)
  {
  }

  /** Customer 1 buys twice on day 10 (10 and 190), customer 2 once on day 0 (50). */
  const Witness: seq<Txn> := [Txn(Num(1.0), 10, 10.0), Txn(Num(1.0), 10, 190.0), Txn(Num(2.0), 0, 50.0)]

  lemma WitnessColumns()
    ensures RowRecencies(Witness, 10) == [0.0, 0.0, 10.0]
    ensures RowCounts(Witness) == [2.0, 2.0, 1.0]
    ensures RowSums(Witness) == [200.0, 200.0, 50.0]
  {
    var w := Witness;
    assert w[1..] == [w[1], w[2]] && w[1..][1..] == [w[2]] && w[1..][1..][1..] == [];
    assert Count(w, CustomerOf, Num(1.0)) == 2 && Count(w, CustomerOf, Num(2.0)) == 1;
    assert Total(w, CustomerOf, AmountOf, Num(1.0)) == 200.0 && Total(w, CustomerOf, AmountOf, Num(2.0)) == 50.0;
  }

  lemma WitnessRanges()
    ensures Minimum([0.0, 0.0, 10.0]) == 0.0 && Maximum([0.0, 0.0, 10.0]) == 10.0
    ensures Minimum([2.0, 2.0, 1.0]) == 1.0 && Maximum([2.0, 2.0, 1.0]) == 2.0
    ensures Minimum([200.0, 200.0, 50.0]) == 50.0 && Maximum([200.0, 200.0, 50.0]) == 200.0
  {
  }

  /** The monetary score is not per customer: customer 1 has the largest sum, yet its rows
      score -4/15 and 14/15, and the first lies outside [0, 1]. */
  lemma MonetaryFromRowAmount(p: RfmParams)
    ensures ScoreRows(Witness, 10, p)[0].m == Finite(-4.0 / 15.0)
    ensures ScoreRows(Witness, 10, p)[1].m == Finite(14.0 / 15.0)
    ensures ScoreRows(Witness, 10, p)[2].m == Finite(0.0)
  {
    var sums := RowSums(Witness);
    assert Minimum(sums) == 50.0 && Maximum(sums) == 200.0 by {
      WitnessColumns();
      WitnessRanges();
    }
    forall i | 0 <= i < 3 ensures ScoreRows(Witness, 10, p)[i].m == Div(Witness[i].amount - 50.0, 150.0) {
      RowOf(Witness, 10, p, i);
    }
  }

  // ---------------------------------------------------------------- bands

  /** `np.linspace(0, 1, n + 1)[i]`. */
  function Lower(i: int, n: nat): real
    requires n > 0
  {
    i as real / n as real
  }

  /** `(score >= boundaries[i]) & (score < boundaries[i + 1])`: never true of NaN or an
      infinity. */
  predicate InBand(s: Float, i: int, n: nat)
    requires n > 0
  {
    s.Finite? && Lower(i, n) <= s.value < Lower(i + 1, n)
  }

  /** A score some band holds: finite and in [0, 1). */
  predicate Covered(s: Float) {
    s.Finite? && 0.0 <= s.value < 1.0
  }

  /** The rows of band `i`, in order. */
  function Members(rows: seq<ScoredRow>, i: int, n: nat): (ms: seq<ScoredRow>)
    requires n > 0
    ensures |ms| <= |rows|
    ensures forall x :: x in ms ==> x in rows && InBand(x.score, i, n)
  {
    if rows == [] then []
    else (if InBand(rows[0].score, i, n) then [rows[0]] else []) + Members(rows[1..], i, n)
  }

  lemma LowerMono(i: int, j: int, n: nat)
    requires n > 0 && i <= j
    ensures Lower(i, n) <= Lower(j, n)
  {
    assert (j - i) as real / n as real >= 0.0;
    assert Lower(j, n) - Lower(i, n) == (j - i) as real / n as real;
  }

  /** Bands are pairwise disjoint: a score lies in at most one. */
  lemma BandsDisjoint(s: Float, i: int, j: int, n: nat)
    requires n > 0 && InBand(s, i, n) && InBand(s, j, n)
    ensures i == j
  {
    if i < j {
      LowerMono(i + 1, j, n);
    } else if j < i {
      LowerMono(j + 1, i, n);
    }
  }

  /** How many of the bands `i .. n-1` hold the score. */
  function BandHits(s: Float, i: nat, n: nat): nat
    requires n > 0
    decreases n - i
  {
    if i >= n then 0 else (if InBand(s, i, n) then 1 else 0) + BandHits(s, i + 1, n)
  }

  /** Bands `i .. n-1` together cover exactly `[i/n, 1)`. */
  lemma {:induction false} BandHitsCover(s: Float, i: nat, n: nat)
    requires n > 0 && i <= n
    ensures BandHits(s, i, n) == if s.Finite? && Lower(i, n) <= s.value < 1.0 then 1 else 0
    decreases n - i
  {
    assert Lower(n, n) == 1.0;
    if i < n {
      BandHitsCover(s, i + 1, n);
      LowerMono(i, i + 1, n);
      LowerMono(i + 1, n, n);
    }
  }

  /** A score of 1 or more, NaN or an infinity lies in no band. */
  lemma Unbanded(s: Float, n: nat)
    requires n > 0 && !Covered(s)
    ensures forall i :: 0 <= i < n ==> !InBand(s, i, n)
  {
    forall i | 0 <= i < n ensures !InBand(s, i, n) {
      LowerMono(0, i, n);
      LowerMono(i + 1, n, n);
      assert Lower(n, n) == 1.0;
    }
  }

  /** With weights adding up to 1 or more (3 by default) the top row of `FullMarks` scores at
      least 1, lies in no band, and is left out of every segment. */
  lemma TopRowUnbanded(txns: seq<Txn>, now: int, p: RfmParams, i: nat)
    requires i < |txns| && p.segmentsCount > 0
    requires p.recencyWeight + p.frequencyWeight + p.monetaryWeight >= 1.0
    requires Minimum(RowRecencies(txns, now)) < Maximum(RowRecencies(txns, now))
    requires Minimum(RowCounts(txns)) < Maximum(RowCounts(txns))
    requires Minimum(RowSums(txns)) < Maximum(RowSums(txns))
    requires RowRecencies(txns, now)[i] == Minimum(RowRecencies(txns, now))
    requires RowCounts(txns)[i] == Maximum(RowCounts(txns))
    requires txns[i].amount == Maximum(RowSums(txns))
    ensures forall b :: 0 <= b < p.segmentsCount ==> !InBand(ScoreRows(txns, now, p)[i].score, b, p.segmentsCount)
    ensures CoveredCount(ScoreRows(txns, now, p)) < |txns|
  {
    FullMarks(txns, now, p, i);
    Unbanded(ScoreRows(txns, now, p)[i].score, p.segmentsCount);
  }

  // ---------------------------------------------------------------- segments

  function RScore(x: ScoredRow): real { if x.r.Finite? then x.r.value else 0.0 }
  function FScore(x: ScoredRow): real { if x.f.Finite? then x.f.value else 0.0 }
  function MScore(x: ScoredRow): real { if x.m.Finite? then x.m.value else 0.0 }
  function TotalScore(x: ScoredRow): real { if x.score.Finite? then x.score.value else 0.0 }

  /** `Series.mean()` of a band's rows, all finite; NaN for an empty band. */
  function Mean(rows: seq<ScoredRow>, val: ScoredRow -> real): Float {
    if rows == [] then NaN else Finite(Sum(rows, val) / |rows| as real)
  }

  /** `SegmentInfo`, less the formatted description. */
  datatype SegmentInfo = SegmentInfo(segmentId: nat, name: string, customerCount: nat, recencyScore: Float, frequencyScore: Float,
                                     monetaryScore: Float, rfmScore: Float, percentage: real)

  function CustomerCount(s: SegmentInfo): real { s.customerCount as real }
  function Percentage(s: SegmentInfo): real { s.percentage }
  function RfmScoreOf(s: SegmentInfo): Float { s.rfmScore }

  function Info(rows: seq<ScoredRow>, i: nat, n: nat): SegmentInfo
    requires n > 0 && rows != []
  {
    var ms := Members(rows, i, n);
    SegmentInfo(i, "Сегмент " + Decimal(i + 1), |ms|, Mean(ms, RScore), Mean(ms, FScore), Mean(ms, MScore), Mean(ms, TotalScore),
                |ms| as real / |rows| as real * 100.0)
  }

  /** The loop of `segment_customers` from band `i` on. */
  function SegmentsFrom(rows: seq<ScoredRow>, i: nat, n: nat): (segs: seq<SegmentInfo>)
    requires n > 0 && rows != [] && i <= n
    ensures |segs| == n - i && forall j :: 0 <= j < |segs| ==> segs[j] == Info(rows, i + j, n)
    decreases n - i
  {
    if i == n then [] else [Info(rows, i, n)] + SegmentsFrom(rows, i + 1, n)
  }

  /** `segment_customers`: exactly `segments_count` segments, the i-th holding the rows whose
      score lies in `[i/n, (i+1)/n)`; the percentage divides by the row count, which raises on
      an empty frame. */
  function SegmentCustomers(rows: seq<ScoredRow>, n: nat): (r: Result<seq<SegmentInfo>, Failure>)
    ensures r.Err? <==> rows == [] && n > 0
    ensures r.Err? ==> r.error == ZeroDivision
    ensures r.Ok? ==> |r.value| == n
    ensures r.Ok? && n > 0 ==> forall i :: 0 <= i < n ==>
              && r.value[i].segmentId == i && r.value[i].name == "Сегмент " + Decimal(i + 1)
              && r.value[i].customerCount == |Members(rows, i, n)|
              && r.value[i].percentage == |Members(rows, i, n)| as real / |rows| as real * 100.0
  {
    if n == 0 then Ok([])
    else if rows == [] then Err(ZeroDivision)
    else Ok(SegmentsFrom(rows, 0, n))
  }

  /** The number of rows whose score some band holds. */
  function CoveredCount(rows: seq<ScoredRow>): (c: nat)
    ensures c <= |rows|
    ensures c == |rows| <==> forall i :: 0 <= i < |rows| ==> Covered(rows[i].score)
  {
    if rows == [] then 0
    else
      assert forall i :: 1 <= i < |rows| ==> rows[i] == rows[1..][i - 1];
      (if Covered(rows[0].score) then 1 else 0) + CoveredCount(rows[1..])
  }

  function HitsSum(rows: seq<ScoredRow>, i: nat, n: nat): nat
    requires n > 0
  {
    if rows == [] then 0 else BandHits(rows[0].score, i, n) + HitsSum(rows[1..], i, n)
  }

  lemma {:induction false} HitsSplit(rows: seq<ScoredRow>, i: nat, n: nat)
    requires i < n
    ensures HitsSum(rows, i, n) == |Members(rows, i, n)| + HitsSum(rows, i + 1, n)
  {
    if rows != [] {
      HitsSplit(rows[1..], i, n);
    }
  }

  lemma {:induction false} HitsCovered(rows: seq<ScoredRow>, n: nat)
    requires n > 0
    ensures HitsSum(rows, 0, n) == CoveredCount(rows)
  {
    if rows != [] {
      BandHitsCover(rows[0].score, 0, n);
      HitsCovered(rows[1..], n);
    }
  }

  lemma {:induction false} CountsFrom(rows: seq<ScoredRow>, i: nat, n: nat)
    requires n > 0 && rows != [] && i <= n
    ensures Sum(SegmentsFrom(rows, i, n), CustomerCount) == HitsSum(rows, i, n) as real
    decreases n - i
  {
    if i == n {
      HitsZero(rows, n);
    } else {
      CountsFrom(rows, i + 1, n);
      HitsSplit(rows, i, n);
      assert SegmentsFrom(rows, i, n)[1..] == SegmentsFrom(rows, i + 1, n);
    }
  }

  lemma {:induction false} HitsZero(rows: seq<ScoredRow>, n: nat)
    requires n > 0
    ensures HitsSum(rows, n, n) == 0
  {
    if rows != [] {
      HitsZero(rows[1..], n);
    }
  }

  /** The segment counts add up to the number of rows with a score in [0, 1), and the
      percentages to that share of all rows times 100: to 100 exactly when every score is a
      finite value below 1. */
  lemma PercentagesAddUp(rows: seq<ScoredRow>, n: nat)
    requires n > 0 && rows != []
    ensures Sum(SegmentCustomers(rows, n).value, CustomerCount) == CoveredCount(rows) as real
    ensures Sum(SegmentCustomers(rows, n).value, Percentage) == CoveredCount(rows) as real / |rows| as real * 100.0
    ensures Sum(SegmentCustomers(rows, n).value, Percentage) == 100.0 <==> forall i :: 0 <= i < |rows| ==> Covered(rows[i].score)
  {
    var segs := SegmentsFrom(rows, 0, n);
    assert SegmentCustomers(rows, n).value == segs;
    CountsFrom(rows, 0, n);
    HitsCovered(rows, n);
    assert forall i :: 0 <= i < |segs| ==> Percentage(segs[i]) == CustomerCount(segs[i]) / |rows| as real * 100.0;
    ShareSum(segs, CustomerCount, Percentage, |rows| as real);
    WholeShare(CoveredCount(rows) as real, |rows| as real);
  }

  lemma WholeShare(c: real, len: real)
    requires len > 0.0
    ensures c / len * 100.0 == 100.0 <==> c == len
  {
    var q := c / len;
    assert q * len == c;
  }

  lemma {:induction false} NoneCovered(rows: seq<ScoredRow>)
    requires forall i :: 0 <= i < |rows| ==> !Covered(rows[i].score)
    ensures CoveredCount(rows) == 0
  {
    if rows != [] {
      assert forall i :: 0 <= i < |rows[1..]| ==> !Covered(rows[1..][i].score) by {
        forall i | 0 <= i < |rows[1..]| ensures !Covered(rows[1..][i].score) {
          assert rows[1..][i] == rows[i + 1];
        }
      }
      NoneCovered(rows[1..]);
    }
  }

  /** When every purchase is on the same day, for instance a single purchase, every segment
      is empty and the percentages add up to 0, not 100. */
  lemma SameDayUnsegmented(txns: seq<Txn>, now: int, p: RfmParams, n: nat)
    requires n > 0 && txns != [] && forall i :: 0 <= i < |txns| ==> txns[i].day == txns[0].day
    ensures forall b :: 0 <= b < n ==> SegmentCustomers(ScoreRows(txns, now, p), n).value[b].customerCount == 0
    ensures Sum(SegmentCustomers(ScoreRows(txns, now, p), n).value, Percentage) == 0.0
  {
    ConstantRecencyUnscored(txns, now, p);
    UnscoredUnsegmented(ScoreRows(txns, now, p), n);
  }

  lemma {:induction false} NoMembers(rows: seq<ScoredRow>, b: int, n: nat)
    requires n > 0 && forall i :: 0 <= i < |rows| ==> rows[i].score == NaN
    ensures Members(rows, b, n) == []
  {
    if rows != [] {
      assert forall i :: 0 <= i < |rows[1..]| ==> rows[1..][i].score == NaN by {
        forall i | 0 <= i < |rows[1..]| ensures rows[1..][i].score == NaN {
          assert rows[1..][i] == rows[i + 1];
        }
      }
      NoMembers(rows[1..], b, n);
    }
  }

  /** Rows none of whose scores is finite leave every segment empty. */
  lemma UnscoredUnsegmented(rows: seq<ScoredRow>, n: nat)
    requires n > 0 && rows != [] && forall i :: 0 <= i < |rows| ==> rows[i].score == NaN
    ensures forall b :: 0 <= b < n ==> SegmentCustomers(rows, n).value[b].customerCount == 0
    ensures Sum(SegmentCustomers(rows, n).value, Percentage) == 0.0
  {
    forall b | 0 <= b < n ensures Members(rows, b, n) == [] {
      NoMembers(rows, b, n);
    }
    NoneCovered(rows);
    PercentagesAddUp(rows, n);
  }

  // ---------------------------------------------------------------- best and worst

  /** The scan of Python's `max(items, key=...)`: an item replaces the current one only when
      its key is strictly greater, so a NaN in first place is never replaced. */
  function ArgMaxFrom(keys: seq<Float>, cur: nat, i: nat): (k: nat)
    requires cur < |keys| && i <= |keys|
    ensures k < |keys|
    decreases |keys| - i
  {
    if i == |keys| then cur else ArgMaxFrom(keys, if Greater(keys[i], keys[cur]) then i else cur, i + 1)
  }

  /** The same scan for `min`. */
  function ArgMinFrom(keys: seq<Float>, cur: nat, i: nat): (k: nat)
    requires cur < |keys| && i <= |keys|
    ensures k < |keys|
    decreases |keys| - i
  {
    if i == |keys| then cur else ArgMinFrom(keys, if Greater(keys[cur], keys[i]) then i else cur, i + 1)
  }

  function PyMax(keys: seq<Float>): nat
    requires keys != []
  {
    ArgMaxFrom(keys, 0, 1)
  }

  function PyMin(keys: seq<Float>): nat
    requires keys != []
  {
    ArgMinFrom(keys, 0, 1)
  }

  predicate AllFinite(keys: seq<Float>) {
    forall i :: 0 <= i < |keys| ==> keys[i].Finite?
  }

  /** `cur` is the first position of the largest key among the first `i`. */
  predicate FirstMax(keys: seq<Float>, cur: nat, i: nat)
    requires AllFinite(keys) && cur < i <= |keys|
  {
    (forall j :: 0 <= j < i ==> keys[j].value <= keys[cur].value) && (forall j :: 0 <= j < cur ==> keys[j].value < keys[cur].value)
  }

  predicate FirstMin(keys: seq<Float>, cur: nat, i: nat)
    requires AllFinite(keys) && cur < i <= |keys|
  {
    (forall j :: 0 <= j < i ==> keys[cur].value <= keys[j].value) && (forall j :: 0 <= j < cur ==> keys[cur].value < keys[j].value)
  }

  lemma {:induction false} ArgMaxFirst(keys: seq<Float>, cur: nat, i: nat)
    requires AllFinite(keys) && cur < i <= |keys| && FirstMax(keys, cur, i)
    ensures FirstMax(keys, ArgMaxFrom(keys, cur, i), |keys|)
    decreases |keys| - i
  {
    if i < |keys| {
      ArgMaxFirst(keys, if Greater(keys[i], keys[cur]) then i else cur, i + 1);
    }
  }

  lemma {:induction false} ArgMinFirst(keys: seq<Float>, cur: nat, i: nat)
    requires AllFinite(keys) && cur < i <= |keys| && FirstMin(keys, cur, i)
    ensures FirstMin(keys, ArgMinFrom(keys, cur, i), |keys|)
    decreases |keys| - i
  {
    if i < |keys| {
      ArgMinFirst(keys, if Greater(keys[cur], keys[i]) then i else cur, i + 1);
    }
  }

  /** On finite keys `max` and `min` pick the first position of the largest and of the
      smallest key. */
  lemma BestAndWorstFirst(keys: seq<Float>)
    requires keys != [] && AllFinite(keys)
    ensures FirstMax(keys, PyMax(keys), |keys|) && FirstMin(keys, PyMin(keys), |keys|)
  {
    ArgMaxFirst(keys, 0, 1);
    ArgMinFirst(keys, 0, 1);
  }

  lemma {:induction false} NaNStays(keys: seq<Float>, i: nat)
    requires 0 < i <= |keys| && keys[0].NaN?
    ensures ArgMaxFrom(keys, 0, i) == 0 && ArgMinFrom(keys, 0, i) == 0
    decreases |keys| - i
  {
    if i < |keys| {
      NaNStays(keys, i + 1);
    }
  }

  /** A NaN key in first place (the mean of an empty first band) is never replaced: that
      segment is then both the best and the worst. */
  lemma FirstNaNIsBestAndWorst(keys: seq<Float>)
    requires keys != [] && keys[0].NaN?
    ensures PyMax(keys) == 0 && PyMin(keys) == 0
  {
    NaNStays(keys, 1);
  }

  // ---------------------------------------------------------------- the analysis

  /** `Series.mean()`: NaN values are skipped, infinities are not. */
  function PandasMean(xs: seq<Float>): Float {
    var kept := NonNaN(xs);
    if kept == [] then NaN
    else match AddAll(kept)
         case Finite(v) => Finite(v / |kept| as real)
         case other => other
  }

  function NonNaN(xs: seq<Float>): (ys: seq<Float>)
    ensures |ys| <= |xs|
    ensures (forall i :: 0 <= i < |xs| ==> xs[i].Finite?) ==> ys == xs
  {
    if xs == [] then []
    else
      assert forall i :: 1 <= i < |xs| ==> xs[i] == xs[1..][i - 1];
      (if xs[0].NaN? then [] else [xs[0]]) + NonNaN(xs[1..])
  }

  function AddAll(xs: seq<Float>): Float {
    if xs == [] then Finite(0.0) else Add(xs[0], AddAll(xs[1..]))
  }

  function FiniteValue(x: Float): real { if x.Finite? then x.value else 0.0 }

  lemma {:induction false} AddAllFinite(xs: seq<Float>)
    requires forall i :: 0 <= i < |xs| ==> xs[i].Finite?
    ensures AddAll(xs) == Finite(Sum(xs, FiniteValue))
  {
    if xs != [] {
      assert forall i :: 0 <= i < |xs[1..]| ==> xs[1..][i].Finite? by {
        forall i | 0 <= i < |xs[1..]| ensures xs[1..][i].Finite? {
          assert xs[1..][i] == xs[i + 1];
        }
      }
      AddAllFinite(xs[1..]);
    }
  }

  /** When every score is finite the average is their plain mean. */
  lemma AverageOfFinite(xs: seq<Float>)
    requires xs != [] && forall i :: 0 <= i < |xs| ==> xs[i].Finite?
    ensures PandasMean(xs) == Finite(Sum(xs, FiniteValue) / |xs| as real)
  {
    AddAllFinite(xs);
  }

  function Scores(rows: seq<ScoredRow>): (xs: seq<Float>)
    ensures |xs| == |rows| && forall i :: 0 <= i < |rows| ==> xs[i] == rows[i].score
  {
    seq(|rows|, i requires 0 <= i < |rows| => rows[i].score)
  }

  function SegmentScores(segs: seq<SegmentInfo>): (xs: seq<Float>)
    ensures |xs| == |segs| && forall i :: 0 <= i < |segs| ==> xs[i] == segs[i].rfmScore
  {
    seq(|segs|, i requires 0 <= i < |segs| => segs[i].rfmScore)
  }

  datatype SegmentSummary = SegmentSummary(totalCustomers: nat, segments: seq<SegmentInfo>, averageRfmScore: Float,
                                           bestSegment: string, worstSegment: string)

  /** The column names the analysis adds to the frame; a parameter naming one of them would
      read the added column instead of the input. */
  const AddedColumns: seq<string> := ["customer_id", "recency", "count", "sum", "r_score", "f_score", "m_score", "rfm_score"]

  predicate PlainNames(p: RfmParams) {
    p.recencyColumn !in AddedColumns && p.frequencyColumn !in AddedColumns && p.monetaryColumn !in AddedColumns
  }

  const CustomerKey := "customer_id"

  /** What the frequency merge needs of the frame: no column of its own named `count`, which
      the merge would keep in place of the group counts (the new one becomes `count_freq`), and
      a frequency column that does not mix numbers and text, which `sum` cannot add. */
  predicate Mergeable(t: Table, p: RfmParams)
    requires WellFormed(t)
  {
    && "count" !in t.columns
    && (p.frequencyColumn in t.columns ==> AllNumbers(Column(t, p.frequencyColumn)) || AllText(Column(t, p.frequencyColumn)))
  }

  predicate AllText(cells: seq<Cell>) {
    forall cell :: cell in cells ==> cell.Text?
  }

  /** The purchases of a frame whose checks passed. */
  function Purchases(t: Table, p: RfmParams, days: seq<int>): (txns: seq<Txn>)
    requires WellFormed(t) && CustomerKey in t.columns && p.monetaryColumn in t.columns
    requires AllNumbers(Column(t, p.monetaryColumn)) && |days| == |t.rows|
    ensures |txns| == |t.rows|
  {
    Zip(Column(t, CustomerKey), days, Numbers(Column(t, p.monetaryColumn)))
  }

  /** The checks `perform_rfm_analysis` makes before scoring, in the code's order: a missing
      parameter column raises first, naming every missing one; then an unparseable date, a
      missing `customer_id` column, a non-numeric monetary column, and an empty frame (which
      raises at the percentage). When all pass, the frame's purchases. */
  function Checked(t: Table, p: RfmParams, toDay: Cell -> Option<int>): (r: Result<seq<Txn>, Failure>)
    requires WellFormed(t)
    ensures Missing([p.recencyColumn, p.frequencyColumn, p.monetaryColumn], t.columns) != [] ==>
              r == Err(MissingColumns(Missing([p.recencyColumn, p.frequencyColumn, p.monetaryColumn], t.columns)))
    ensures r.Ok? <==> Missing([p.recencyColumn, p.frequencyColumn, p.monetaryColumn], t.columns) == []
                       && Days(Column(t, p.recencyColumn), toDay, p.recencyColumn).Ok?
                       && CustomerKey in t.columns && AllNumbers(Column(t, p.monetaryColumn)) && t.rows != []
    ensures r.Ok? ==> && r.value != []
                      && r.value == Purchases(t, p, Days(Column(t, p.recencyColumn), toDay, p.recencyColumn).value)
  {
    var missing := Missing([p.recencyColumn, p.frequencyColumn, p.monetaryColumn], t.columns);
    if missing != [] then Err(MissingColumns(missing))
    else
      assert p.recencyColumn !in missing && p.monetaryColumn !in missing;
      var days :- Days(Column(t, p.recencyColumn), toDay, p.recencyColumn);
      if CustomerKey !in t.columns then Err(MissingKey(CustomerKey))
      else if !AllNumbers(Column(t, p.monetaryColumn)) then Err(NotNumeric(p.monetaryColumn))
      else if t.rows == [] then Err(ZeroDivision)
      else Ok(Purchases(t, p, days))
  }

  /** `perform_rfm_analysis`, with `analysis_date` given as the day number `now` and
      `pd.to_datetime` as `toDay`: the checks above, then the segment summary. */
  function PerformRfmAnalysis(t: Table, p: RfmParams, now: int, toDay: Cell -> Option<int>): (r: Result<SegmentSummary, Failure>)
    requires WellFormed(t) && ValidParams(p) && PlainNames(p) && Mergeable(t, p)
    requires forall c :: c in t.columns ==> NullFree(t, c)
    ensures r.Ok? <==> Checked(t, p, toDay).Ok?
    ensures r.Err? ==> r == Err(Checked(t, p, toDay).error)
    ensures r.Ok? ==>
              var segs := SegmentCustomers(ScoreRows(Checked(t, p, toDay).value, now, p), p.segmentsCount).value;
              && r.value.totalCustomers == |t.rows|
              && r.value.segments == segs && |segs| == p.segmentsCount
              && r.value.averageRfmScore == PandasMean(Scores(ScoreRows(Checked(t, p, toDay).value, now, p)))
              && r.value.bestSegment == segs[PyMax(SegmentScores(segs))].name
              && r.value.worstSegment == segs[PyMin(SegmentScores(segs))].name
  {
    var txns :- Checked(t, p, toDay);
    var rows := ScoreRows(txns, now, p);
    var segs := SegmentCustomers(rows, p.segmentsCount).value;
    var keys := SegmentScores(segs);
    Ok(SegmentSummary(|t.rows|, segs, PandasMean(Scores(rows)), segs[PyMax(keys)].name, segs[PyMin(keys)].name))
  }

  // ---------------------------------------------------------------- recommendations

  /** The priorities `generate_ai_recommendations` gives the segments, each checked by
      `SegmentRecommendation`; the first failing one raises. */
  function Recommendations(ids: seq<int>): (r: Result<seq<SegmentRecommendation>, seq<string>>)
    ensures r.Ok? <==> forall i :: 0 <= i < |ids| ==> 0 <= ids[i] <= 4
    ensures r.Ok? ==> |r.value| == |ids| && forall i :: 0 <= i < |ids| ==>
                        r.value[i].segmentId == ids[i] && r.value[i].priority == 5 - ids[i]
    ensures r.Err? ==> r.error == ["priority"]
  {
    if ids == [] then Ok([])
    else
      var head := NewRecommendation(ids[0], 5 - ids[0]);
      if head.Err? then Err(head.error)
      else
        var rest := Recommendations(ids[1..]);
        assert forall i :: 1 <= i < |ids| ==> ids[i] == ids[1..][i - 1];
        if rest.Err? then rest else Ok([head.value] + rest.value)
  }

  function Ids(n: nat): (ids: seq<int>)
    ensures |ids| == n && forall i :: 0 <= i < n ==> ids[i] == i
  {
    seq(n, i requires 0 <= i < n => i)
  }

  /** The priorities pass validation exactly when there are at most five segments; with six
      or more, segment 5 gets priority 0. */
  lemma PriorityLimit(n: nat)
    ensures Recommendations(Ids(n)).Ok? <==> n <= 5
    ensures n >= 6 ==> NewRecommendation(5, 5 - 5).Err?
  {
    if n >= 6 {
      assert !(0 <= Ids(n)[5] <= 4);
    }
  }
}

=== FILE: backend_main.dfy ===
/** `backend/main.py`: the FastAPI service. Only the computation is modelled: the upload's
    format and column checks and its per-record reshaping, and the analysis that scores
    stored purchases with five quantile groups. The storage calls are left to the caller. */
module UploadService {
  import opened Wrappers
  import opened Frame
  import opened Metrics
  import opened Binning
  import opened Codes

  /** What a handler body raises: an `HTTPException` with a status, or any other exception. */
  datatype Raised = Http(status: nat) | Python(failure: Failure)

  /** What the client receives. */
  datatype Response<T> = Success(body: T) | Status(code: nat)

  /** As written, every handler wraps its body in `except Exception` and re-raises 500, which
      also catches the handler's own `HTTPException`s. */
  function AsWritten<T>(r: Result<T, Raised>): (resp: Response<T>)
    ensures r.Ok? <==> resp.Success?
    ensures r.Ok? ==> resp.body == r.value
    ensures r.Err? ==> resp.code == 500
  {
    match r
    case Ok(v) => Success(v)
    case Err(_) => Status(500)
  }

  /** The evidently intended handler: an `HTTPException` keeps its status, any other
      exception becomes 500. */
  function Intended<T>(r: Result<T, Raised>): (resp: Response<T>)
    ensures r.Ok? <==> resp.Success?
    ensures r.Ok? ==> resp.body == r.value
    ensures r.Err? && r.error.Http? ==> resp.code == r.error.status
    ensures r.Err? && r.error.Python? ==> resp.code == 500
  {
    match r
    case Ok(v) => Success(v)
    case Err(Http(s)) => Status(s)
    case Err(Python(_)) => Status(500)
  }

  // ---------------------------------------------------------------- upload

  datatype Format = Csv | Excel

  predicate EndsWith(s: string, suffix: string) {
    |suffix| <= |s| && s[|s| - |suffix|..] == suffix
  }

  /** `.csv` is read as CSV, `.xlsx` and `.xls` as Excel, anything else is unsupported. */
  function FormatOf(filename: string): (f: Option<Format>)
    ensures f == Some(Csv) <==> EndsWith(filename, ".csv")
    ensures f == Some(Excel) <==> !EndsWith(filename, ".csv") && (EndsWith(filename, ".xlsx") || EndsWith(filename, ".xls"))
    ensures f == None <==> !EndsWith(filename, ".csv") && !EndsWith(filename, ".xlsx") && !EndsWith(filename, ".xls")
  {
    if EndsWith(filename, ".csv") then Some(Csv)
    else if EndsWith(filename, ".xlsx") || EndsWith(filename, ".xls") then Some(Excel)
    else None
  }

  /** A record value: a cell as read, a string, or a float. */
  datatype Field = Raw(cell: Cell) | Str(s: string) | Float(x: real)

  type Record = map<string, Field>

  /** The output keys of a reshaped record. */
  const OutputKeys: set<string> := {"user_id", "client_id", "purchase_date", "amount"}

  /** `df[[client, date, amount]].to_dict('records')[i]`: a name chosen twice is one key. */
  function RowRecord(t: Table, i: nat, client: string, date: string, amount: string): (r: Record)
    requires WellFormed(t) && i < |t.rows| && client in t.columns && date in t.columns && amount in t.columns
    ensures r.Keys == {client, date, amount}
    ensures r[client] == Raw(Column(t, client)[i]) && r[date] == Raw(Column(t, date)[i]) && r[amount] == Raw(Column(t, amount)[i])
  {
    map[client := Raw(Column(t, client)[i]), date := Raw(Column(t, date)[i]), amount := Raw(Column(t, amount)[i])]
  }

  /** The loop body, one statement at a time: each assignment sees the record as the previous
      statements left it, and `del` of an absent key raises `KeyError`. `str` and `float` are
      parameters. */
  function Reshape(rec: Record, client: string, date: string, amount: string,
                   show: Field -> string, toFloat: Field -> Option<real>): (r: Result<Record, Failure>)
    requires client in rec && date in rec && amount in rec
    ensures r.Err? ==> r.error in {NotNumeric(amount), MissingKey(date), MissingKey(amount)}
  {
    var r1 := rec["user_id" := Str("user1")];
    var r2 := r1["client_id" := Str(show(r1[client]))];
    var r3 := r2["purchase_date" := Str(show(r2[date]))];
    match toFloat(r3[amount])
    case None => Err(NotNumeric(amount))
    case Some(x) =>
      var r4 := r3["amount" := Float(x)];
      var r5 := r4 - {client};
      if date !in r5 then Err(MissingKey(date))
      else
        var r6 := r5 - {date};
        if amount !in r6 then Err(MissingKey(amount))
        else Ok(r6 - {amount})
  }

  /** With three distinct chosen names, none of them an output key, reshaping succeeds exactly
      when the amount converts, and the record then holds exactly the four output keys with the
      converted values of the chosen columns. */
  lemma ReshapeKeys(rec: Record, client: string, date: string, amount: string,
                    show: Field -> string, toFloat: Field -> Option<real>)
    requires rec.Keys == {client, date, amount}
    requires client != date && date != amount && client != amount
    requires client !in OutputKeys && date !in OutputKeys && amount !in OutputKeys
    ensures Reshape(rec, client, date, amount, show, toFloat).Ok? <==> toFloat(rec[amount]).Some?
    ensures Reshape(rec, client, date, amount, show, toFloat).Ok? ==>
              var out := Reshape(rec, client, date, amount, show, toFloat).value;
              && out.Keys == OutputKeys
              && out["user_id"] == Str("user1")
              && out["client_id"] == Str(show(rec[client]))
              && out["purchase_date"] == Str(show(rec[date]))
              && out["amount"] == Float(toFloat(rec[amount]).value)
  {
  }

  /** Choosing one column for two roles always fails: the second `del` of the shared key
      raises `KeyError`. */
  lemma ReshapeSharedName(rec: Record, client: string, date: string, amount: string,
                          show: Field -> string, toFloat: Field -> Option<real>)
    requires client in rec && date in rec && amount in rec
    requires client == date || date == amount || client == amount
    ensures Reshape(rec, client, date, amount, show, toFloat).Err?
  {
  }

  /** As written, for any three distinct chosen names, a successful reshape keeps exactly the
      output keys that are not chosen names: the `del` statements remove a chosen name even
      when the assignments above just wrote an output field under it. */
  lemma {:induction false} ReshapeOutputKeys(rec: Record, client: string, date: string, amount: string,
                                             show: Field -> string, toFloat: Field -> Option<real>)
    requires rec.Keys == {client, date, amount}
    requires client != date && date != amount && client != amount
    ensures Reshape(rec, client, date, amount, show, toFloat).Ok? ==>
              Reshape(rec, client, date, amount, show, toFloat).value.Keys == OutputKeys - {client, date, amount}
  {
    if Reshape(rec, client, date, amount, show, toFloat).Ok? {
      var r1 := rec["user_id" := Str("user1")];
      var r2 := r1["client_id" := Str(show(r1[client]))];
      var r3 := r2["purchase_date" := Str(show(r2[date]))];
      var r4 := r3["amount" := Float(toFloat(r3[amount]).value)];
      assert r4.Keys == OutputKeys + {client, date, amount};
      assert Reshape(rec, client, date, amount, show, toFloat).value == r4 - {client} - {date} - {amount};
    }
  }

  /** A file whose columns already carry the output names: the upload succeeds, and every
      stored record holds `user_id` alone. */
  lemma NaturalNamesKeepOnlyUser(rec: Record, show: Field -> string, toFloat: Field -> Option<real>)
    requires rec.Keys == {"client_id", "purchase_date", "amount"}
    requires toFloat(rec["amount"]).Some?
    ensures Reshape(rec, "client_id", "purchase_date", "amount", show, toFloat).Ok?
    ensures Reshape(rec, "client_id", "purchase_date", "amount", show, toFloat).value.Keys == {"user_id"}
    ensures ReshapeIntended(rec, "client_id", "purchase_date", "amount", show, toFloat).value.Keys == OutputKeys
  {
    ReshapeOutputKeys(rec, "client_id", "purchase_date", "amount", show, toFloat);
    assert OutputKeys - {"client_id", "purchase_date", "amount"} == {"user_id"};
  }

  /** The evidently intended loop body: a new record with the four output fields, so no choice
      of column names can delete one. Only a non-numeric amount raises. */
  function ReshapeIntended(rec: Record, client: string, date: string, amount: string,
                           show: Field -> string, toFloat: Field -> Option<real>): (r: Result<Record, Failure>)
    requires client in rec && date in rec && amount in rec
    ensures r.Ok? <==> toFloat(rec[amount]).Some?
    ensures r.Err? ==> r.error == NotNumeric(amount)
    ensures r.Ok? ==>
              && r.value.Keys == OutputKeys
              && r.value["user_id"] == Str("user1")
              && r.value["client_id"] == Str(show(rec[client]))
              && r.value["purchase_date"] == Str(show(rec[date]))
              && r.value["amount"] == Float(toFloat(rec[amount]).value)
  {
    match toFloat(rec[amount])
    case None => Err(NotNumeric(amount))
    case Some(x) =>
      Ok(map["user_id" := Str("user1"), "client_id" := Str(show(rec[client])),
             "purchase_date" := Str(show(rec[date])), "amount" := Float(x)])
  }

  /** For three distinct chosen names, none of them an output key, the code and the intended
      body store the same record, or both raise the same error. */
  lemma ReshapeAgrees(rec: Record, client: string, date: string, amount: string,
                      show: Field -> string, toFloat: Field -> Option<real>)
    requires rec.Keys == {client, date, amount}
    requires client != date && date != amount && client != amount
    requires client !in OutputKeys && date !in OutputKeys && amount !in OutputKeys
    ensures Reshape(rec, client, date, amount, show, toFloat) == ReshapeIntended(rec, client, date, amount, show, toFloat)
  {
    ReshapeKeys(rec, client, date, amount, show, toFloat);
    var a, b := Reshape(rec, client, date, amount, show, toFloat), ReshapeIntended(rec, client, date, amount, show, toFloat);
    if a.Ok? {
      assert a.value.Keys == b.value.Keys;
      assert forall k :: k in a.value ==> a.value[k] == b.value[k];
      assert a.value == b.value;
    } else {
      var r1 := rec["user_id" := Str("user1")];
      var r2 := r1["client_id" := Str(show(r1[client]))];
      var r3 := r2["purchase_date" := Str(show(r2[date]))];
      assert r3[amount] == rec[amount];
    }
  }

  /** `all(col in df.columns for col in required_cols)`; an absent query parameter is `None`,
      which is no column name. */
  predicate Chosen(t: Table, client: Option<string>, date: Option<string>, amount: Option<string>) {
    client.Some? && client.value in t.columns && date.Some? && date.value in t.columns
    && amount.Some? && amount.value in t.columns
  }

  /** Shared by the as-written and the intended handler: the format check, the read and the
      column check. `read` stands for `pd.read_csv` / `pd.read_excel`, which may raise. */
  function Received(filename: string, read: Format -> Result<Table, Failure>,
                    client: Option<string>, date: Option<string>, amount: Option<string>): (r: Result<Table, Raised>)
    requires forall f: Format :: read(f).Ok? ==> WellFormed(read(f).value)
    ensures FormatOf(filename) == None ==> r == Err(Http(400))
    ensures FormatOf(filename).Some? && read(FormatOf(filename).value).Ok? ==>
              var t := read(FormatOf(filename).value).value;
              (!Chosen(t, client, date, amount) ==> r == Err(Http(400)))
    ensures r.Ok? <==> FormatOf(filename).Some? && read(FormatOf(filename).value).Ok?
                       && Chosen(read(FormatOf(filename).value).value, client, date, amount)
    ensures r.Ok? ==> r.value == read(FormatOf(filename).value).value && WellFormed(r.value)
  {
    match FormatOf(filename)
    case None => Err(Http(400))
    case Some(fmt) =>
      match read(fmt)
      case Err(e) => Err(Python(e))
      case Ok(t) => if !Chosen(t, client, date, amount) then Err(Http(400)) else Ok(t)
  }

  /** The body of `upload_file` up to the storage call. */
  function UploadBody(filename: string, read: Format -> Result<Table, Failure>,
                      client: Option<string>, date: Option<string>, amount: Option<string>,
                      show: Field -> string, toFloat: Field -> Option<real>): (r: Result<seq<Record>, Raised>)
    requires forall f: Format :: read(f).Ok? ==> WellFormed(read(f).value)
    ensures FormatOf(filename) == None ==> r == Err(Http(400))
    ensures FormatOf(filename).Some? && read(FormatOf(filename).value).Ok? ==>
              var t := read(FormatOf(filename).value).value;
              (!Chosen(t, client, date, amount) ==> r == Err(Http(400)))
    ensures r.Ok? ==> FormatOf(filename).Some? && read(FormatOf(filename).value).Ok?
                      && |r.value| == |read(FormatOf(filename).value).value.rows|
  {
    var t :- Received(filename, read, client, date, amount);
    match ReshapeAll(RowRecords(t, client.value, date.value, amount.value), client.value, date.value, amount.value, show, toFloat)
    case Err(e) => Err(Python(e))
    case Ok(records) => Ok(records)
  }

  /** The evidently intended body: the same checks, then the intended records. */
  function UploadBodyIntended(filename: string, read: Format -> Result<Table, Failure>,
                              client: Option<string>, date: Option<string>, amount: Option<string>,
                              show: Field -> string, toFloat: Field -> Option<real>): (r: Result<seq<Record>, Raised>)
    requires forall f: Format :: read(f).Ok? ==> WellFormed(read(f).value)
    ensures Received(filename, read, client, date, amount).Err? ==> r == Err(Received(filename, read, client, date, amount).error)
    ensures r.Ok? <==> Received(filename, read, client, date, amount).Ok?
                       && AmountsConvert(Received(filename, read, client, date, amount).value, amount.value, toFloat)
    ensures r.Ok? ==> forall k :: 0 <= k < |r.value| ==> r.value[k].Keys == OutputKeys
  {
    var t :- Received(filename, read, client, date, amount);
    IntendedRecords(t, client.value, date.value, amount.value, show, toFloat);
    match ReshapeAllIntended(RowRecords(t, client.value, date.value, amount.value), client.value, date.value, amount.value, show, toFloat)
    case Err(e) => Err(Python(e))
    case Ok(records) => Ok(records)
  }

  /** Every amount cell of the table converts with `float`. */
  predicate AmountsConvert(t: Table, amount: string, toFloat: Field -> Option<real>)
    requires WellFormed(t) && amount in t.columns
  {
    forall k :: 0 <= k < |t.rows| ==> toFloat(Raw(Column(t, amount)[k])).Some?
  }

  /** The intended loop over a table's records succeeds iff every amount converts, and then
      stores one record per row with exactly the output keys. */
  lemma IntendedRecords(t: Table, client: string, date: string, amount: string,
                        show: Field -> string, toFloat: Field -> Option<real>)
    requires WellFormed(t) && client in t.columns && date in t.columns && amount in t.columns
    ensures ReshapeAllIntended(RowRecords(t, client, date, amount), client, date, amount, show, toFloat).Ok?
            <==> AmountsConvert(t, amount, toFloat)
    ensures var r := ReshapeAllIntended(RowRecords(t, client, date, amount), client, date, amount, show, toFloat);
            r.Ok? ==> |r.value| == |t.rows| && forall k :: 0 <= k < |r.value| ==> r.value[k].Keys == OutputKeys
  {
    var recs := RowRecords(t, client, date, amount);
    assert forall k :: 0 <= k < |recs| ==> recs[k][amount] == Raw(Column(t, amount)[k]);
  }

  /** `df[[client, date, amount]].to_dict('records')`. */
  function RowRecords(t: Table, client: string, date: string, amount: string): (recs: seq<Record>)
    requires WellFormed(t) && client in t.columns && date in t.columns && amount in t.columns
    ensures |recs| == |t.rows| && forall k :: 0 <= k < |t.rows| ==> recs[k] == RowRecord(t, k, client, date, amount)
  {
    seq(|t.rows|, k requires 0 <= k < |t.rows| => RowRecord(t, k, client, date, amount))
  }

  predicate HasKeys(recs: seq<Record>, client: string, date: string, amount: string) {
    forall k :: 0 <= k < |recs| ==> client in recs[k] && date in recs[k] && amount in recs[k]
  }

  /** The `for record in records` loop; the first failing record raises. */
  function ReshapeAll(recs: seq<Record>, client: string, date: string, amount: string,
                      show: Field -> string, toFloat: Field -> Option<real>): (r: Result<seq<Record>, Failure>)
    requires HasKeys(recs, client, date, amount)
    ensures r.Ok? <==> forall k :: 0 <= k < |recs| ==> Reshape(recs[k], client, date, amount, show, toFloat).Ok?
    ensures r.Ok? ==> |r.value| == |recs| && forall k :: 0 <= k < |recs| ==>
              r.value[k] == Reshape(recs[k], client, date, amount, show, toFloat).value
  {
    if recs == [] then Ok([])
    else
      var head := Reshape(recs[0], client, date, amount, show, toFloat);
      assert HasKeys(recs[1..], client, date, amount) by {
        forall k | 0 <= k < |recs[1..]| ensures client in recs[1..][k] && date in recs[1..][k] && amount in recs[1..][k] {
          assert recs[1..][k] == recs[k + 1];
        }
      }
      var tail := ReshapeAll(recs[1..], client, date, amount, show, toFloat);
      if head.Err? then Err(head.error)
      else if tail.Err? then Err(tail.error)
      else Ok([head.value] + tail.value)
  }

  /** The loop with the intended body; the first non-numeric amount raises. */
  function ReshapeAllIntended(recs: seq<Record>, client: string, date: string, amount: string,
                              show: Field -> string, toFloat: Field -> Option<real>): (r: Result<seq<Record>, Failure>)
    requires HasKeys(recs, client, date, amount)
    ensures r.Ok? <==> forall k :: 0 <= k < |recs| ==> toFloat(recs[k][amount]).Some?
    ensures r.Ok? ==> |r.value| == |recs| && forall k :: 0 <= k < |recs| ==>
              r.value[k] == ReshapeIntended(recs[k], client, date, amount, show, toFloat).value
  {
    if recs == [] then Ok([])
    else
      var head := ReshapeIntended(recs[0], client, date, amount, show, toFloat);
      assert HasKeys(recs[1..], client, date, amount) by {
        forall k | 0 <= k < |recs[1..]| ensures client in recs[1..][k] && date in recs[1..][k] && amount in recs[1..][k] {
          assert recs[1..][k] == recs[k + 1];
        }
      }
      var tail := ReshapeAllIntended(recs[1..], client, date, amount, show, toFloat);
      if head.Err? then Err(head.error)
      else if tail.Err? then Err(tail.error)
      else Ok([head.value] + tail.value)
  }

  /** For distinct chosen names, none an output key, both loops give the same result. */
  lemma {:induction false} ReshapeAllAgrees(recs: seq<Record>, client: string, date: string, amount: string,
                                            show: Field -> string, toFloat: Field -> Option<real>)
    requires forall k :: 0 <= k < |recs| ==> recs[k].Keys == {client, date, amount}
    requires client != date && date != amount && client != amount
    requires client !in OutputKeys && date !in OutputKeys && amount !in OutputKeys
    ensures ReshapeAll(recs, client, date, amount, show, toFloat) == ReshapeAllIntended(recs, client, date, amount, show, toFloat)
  {
    if recs != [] {
      ReshapeAgrees(recs[0], client, date, amount, show, toFloat);
      assert forall k :: 0 <= k < |recs[1..]| ==> recs[1..][k] == recs[k + 1];
      ReshapeAllAgrees(recs[1..], client, date, amount, show, toFloat);
    }
  }

  /** `upload_file` as written: the unsupported-format and missing-column rejections reach the
      client as 500, never as 400. */
  function Upload(filename: string, read: Format -> Result<Table, Failure>,
                  client: Option<string>, date: Option<string>, amount: Option<string>,
                  show: Field -> string, toFloat: Field -> Option<real>): (resp: Response<seq<Record>>)
    requires forall f: Format :: read(f).Ok? ==> WellFormed(read(f).value)
    ensures resp.Status? ==> resp.code == 500
    ensures FormatOf(filename) == None ==> resp == Status(500)
  {
    AsWritten(UploadBody(filename, read, client, date, amount, show, toFloat))
  }

  /** The upload with both corrections: an unsupported file or a missing column is 400, and
      every stored record has the four output fields whatever the chosen names. */
  function UploadIntended(filename: string, read: Format -> Result<Table, Failure>,
                          client: Option<string>, date: Option<string>, amount: Option<string>,
                          show: Field -> string, toFloat: Field -> Option<real>): (resp: Response<seq<Record>>)
    requires forall f: Format :: read(f).Ok? ==> WellFormed(read(f).value)
    ensures FormatOf(filename) == None ==> resp == Status(400)
    ensures FormatOf(filename).Some? && read(FormatOf(filename).value).Ok? ==>
              var t := read(FormatOf(filename).value).value;
              (!Chosen(t, client, date, amount) ==> resp == Status(400))
    ensures resp.Success? <==> Received(filename, read, client, date, amount).Ok?
                               && AmountsConvert(Received(filename, read, client, date, amount).value, amount.value, toFloat)
    ensures resp.Success? ==> forall k :: 0 <= k < |resp.body| ==> resp.body[k].Keys == OutputKeys
  {
    Intended(UploadBodyIntended(filename, read, client, date, amount, show, toFloat))
  }

  /** With three distinct chosen names, none of them an output key, the corrected handler
      succeeds exactly when the code does and stores the same records. */
  lemma UploadAgrees(filename: string, read: Format -> Result<Table, Failure>,
                     client: string, date: string, amount: string,
                     show: Field -> string, toFloat: Field -> Option<real>)
    requires forall f: Format :: read(f).Ok? ==> WellFormed(read(f).value)
    requires client != date && date != amount && client != amount
    requires client !in OutputKeys && date !in OutputKeys && amount !in OutputKeys
    ensures UploadIntended(filename, read, Some(client), Some(date), Some(amount), show, toFloat).Success?
            <==> Upload(filename, read, Some(client), Some(date), Some(amount), show, toFloat).Success?
    ensures Upload(filename, read, Some(client), Some(date), Some(amount), show, toFloat).Success? ==>
              UploadIntended(filename, read, Some(client), Some(date), Some(amount), show, toFloat).body
              == Upload(filename, read, Some(client), Some(date), Some(amount), show, toFloat).body
  {
    var rc := Received(filename, read, Some(client), Some(date), Some(amount));
    if rc.Ok? {
      var recs := RowRecords(rc.value, client, date, amount);
      ReshapeAllAgrees(recs, client, date, amount, show, toFloat);
    }
  }

  /** A successful upload with three distinct chosen names, none of them an output key,
      stores one record per row, each with exactly the four output keys. */
  lemma UploadStoresOutputKeys(filename: string, read: Format -> Result<Table, Failure>,
                               client: string, date: string, amount: string,
                               show: Field -> string, toFloat: Field -> Option<real>)
    requires forall f: Format :: read(f).Ok? ==> WellFormed(read(f).value)
    requires client != date && date != amount && client != amount
    requires client !in OutputKeys && date !in OutputKeys && amount !in OutputKeys
    requires Upload(filename, read, Some(client), Some(date), Some(amount), show, toFloat).Success?
    ensures forall k :: 0 <= k < |Upload(filename, read, Some(client), Some(date), Some(amount), show, toFloat).body| ==>
              Upload(filename, read, Some(client), Some(date), Some(amount), show, toFloat).body[k].Keys == OutputKeys
  {
    var t := read(FormatOf(filename).value).value;
    var recs := RowRecords(t, client, date, amount);
    var out := Upload(filename, read, Some(client), Some(date), Some(amount), show, toFloat).body;
    assert out == ReshapeAll(recs, client, date, amount, show, toFloat).value;
    forall k | 0 <= k < |out| ensures out[k].Keys == OutputKeys {
      ReshapeKeys(recs[k], client, date, amount, show, toFloat);
    }
  }

  /** A concrete case: a `.txt` file is rejected with 400 by the body but answered with 500. */
  lemma UnsupportedFileIs500(read: Format -> Result<Table, Failure>, show: Field -> string, toFloat: Field -> Option<real>)
    requires forall f: Format :: read(f).Ok? ==> WellFormed(read(f).value)
    ensures UploadBody("data.txt", read, None, None, None, show, toFloat) == Err(Http(400))
    ensures Upload("data.txt", read, None, None, None, show, toFloat) == Status(500)
    ensures UploadIntended("data.txt", read, None, None, None, show, toFloat) == Status(400)
  {
    assert !EndsWith("data.txt", ".csv");
    assert !EndsWith("data.txt", ".xlsx");
    assert !EndsWith("data.txt", ".xls");
  }

  // ---------------------------------------------------------------- analysis

  /** One output record of `rfm.to_dict(orient='records')`; the client id is the index and is
      not part of it. */
  datatype Row = Row(recency: real, frequency: nat, monetary: real, r: int, f: int, m: int, code: string)

  predicate FiveRange(r: int, f: int, m: int) {
    1 <= r <= 5 && 1 <= f <= 5 && 1 <= m <= 5
  }

  /** What every output record promises about the grouped customer it comes from. */
  predicate Describes(row: Row, s: CustomerStats, now: int) {
    && row.recency == (now - s.lastDay) as real
    && row.frequency == s.frequency
    && row.monetary == s.monetary
    && FiveRange(row.r, row.f, row.m)
    && row.code == Code(row.r, row.f, row.m)
  }

  /** The three `pd.qcut(..., q=5)` calls: no rank, no duplicate handling, so any repeated
      quintile edge raises. */
  function ScoreGrouped(stats: seq<CustomerStats>, now: int): (r: Result<seq<Row>, Failure>)
    ensures r.Ok? <==> QCutBins(Recencies(stats, now), 5).Ok? && QCutBins(Frequencies(stats), 5).Ok?
                       && QCutBins(Monetaries(stats), 5).Ok?
    ensures r.Ok? ==> |r.value| == |stats| && forall i :: 0 <= i < |stats| ==> Describes(r.value[i], stats[i], now)
    ensures r.Ok? ==> forall i :: 0 <= i < |stats| ==>
              r.value[i].r == 5 - QCutBins(Recencies(stats, now), 5).value[i]
              && r.value[i].f == 1 + QCutBins(Frequencies(stats), 5).value[i]
              && r.value[i].m == 1 + QCutBins(Monetaries(stats), 5).value[i]
  {
    var rs :- QCut(Recencies(stats, now), 5, Descend(5));
    var fs :- QCut(Frequencies(stats), 5, Ascend(5));
    var ms :- QCut(Monetaries(stats), 5, Ascend(5));
    Ok(Assemble(stats, now, rs, fs, ms))
  }

  /** The output rows: each customer's figures with its three scores and their code. */
  function Assemble(stats: seq<CustomerStats>, now: int, rs: seq<int>, fs: seq<int>, ms: seq<int>): (rows: seq<Row>)
    requires |rs| == |stats| && |fs| == |stats| && |ms| == |stats|
    requires forall i :: 0 <= i < |stats| ==> FiveRange(rs[i], fs[i], ms[i])
    ensures |rows| == |stats|
    ensures forall i :: 0 <= i < |stats| ==>
              Describes(rows[i], stats[i], now) && rows[i].r == rs[i] && rows[i].f == fs[i] && rows[i].m == ms[i]
  {
    seq(|stats|, i requires 0 <= i < |stats| =>
      Row((now - stats[i].lastDay) as real, stats[i].frequency, stats[i].monetary, rs[i], fs[i], ms[i], Code(rs[i], fs[i], ms[i])))
  }

  /** `df.empty`: no rows or no columns. */
  predicate Empty(t: Table) {
    |t.rows| == 0 || |t.columns| == 0
  }

  /** The body of `analyze_data` after the storage read: `t` is the purchases table and `now`
      stands for `pd.Timestamp.now()`. */
  function AnalyzeBody(t: Table, toDay: Cell -> Option<int>, now: int): (r: Result<seq<Row>, Raised>)
    requires WellFormed(t)
    requires "amount" in t.columns ==> AllNumbers(Column(t, "amount"))
    requires NullFree(t, "purchase_date") && NullFree(t, "client_id")
    ensures Empty(t) ==> r == Err(Http(404))
    ensures r.Ok? ==> !Empty(t) && "purchase_date" in t.columns && "client_id" in t.columns && "amount" in t.columns
    ensures r.Ok? ==> Transactions(t, "purchase_date", "client_id", "amount", toDay).Ok?
    ensures r.Ok? ==> ScoreGrouped(Aggregate(Transactions(t, "purchase_date", "client_id", "amount", toDay).value), now)
                      == Ok(r.value)
  {
    if Empty(t) then Err(Http(404))
    else if "purchase_date" !in t.columns then Err(Python(MissingKey("purchase_date")))
    else
      match Days(Column(t, "purchase_date"), toDay, "purchase_date")
      case Err(e) => Err(Python(e))
      case Ok(days) =>
        if "client_id" !in t.columns then Err(Python(MissingKey("client_id")))
        else if "amount" !in t.columns then Err(Python(MissingKey("amount")))
        else
          var txns := Zip(Column(t, "client_id"), days, Numbers(Column(t, "amount")));
          assert txns == Transactions(t, "purchase_date", "client_id", "amount", toDay).value;
          match ScoreGrouped(Aggregate(txns), now)
          case Err(e) => Err(Python(e))
          case Ok(rows) => Ok(rows)
  }

  /** `analyze_data` as written: the 404 for an empty table is turned into 500, so no input
      ever yields 404. */
  function Analyze(t: Table, toDay: Cell -> Option<int>, now: int): (resp: Response<seq<Row>>)
    requires WellFormed(t)
    requires "amount" in t.columns ==> AllNumbers(Column(t, "amount"))
    requires NullFree(t, "purchase_date") && NullFree(t, "client_id")
    ensures resp.Status? ==> resp.code == 500
    ensures Empty(t) ==> resp == Status(500)
  {
    AsWritten(AnalyzeBody(t, toDay, now))
  }

  /** The analysis with the rejection kept: an empty table is 404. */
  function AnalyzeIntended(t: Table, toDay: Cell -> Option<int>, now: int): (resp: Response<seq<Row>>)
    requires WellFormed(t)
    requires "amount" in t.columns ==> AllNumbers(Column(t, "amount"))
    requires NullFree(t, "purchase_date") && NullFree(t, "client_id")
    ensures Empty(t) <==> resp == Status(404)
    ensures resp.Success? <==> Analyze(t, toDay, now).Success?
  {
    Intended(AnalyzeBody(t, toDay, now))
  }

  /** Each code is three digits reading back as `100 R + 10 F + M`. */
  lemma CodeDigits(row: Row, s: CustomerStats, now: int)
    requires Describes(row, s, now)
    ensures |row.code| == 3 && ParseInt(row.code) == Some(100 * row.r + 10 * row.f + row.m)
  {
    CodeValue(row.r, row.f, row.m);
  }

  /** A more recent customer never gets a lower R; buying more often or spending more never
      gives a lower F or M. */
  lemma ScoreDirections(stats: seq<CustomerStats>, now: int, i: nat, j: nat)
    requires ScoreGrouped(stats, now).Ok? && i < |stats| && j < |stats|
    ensures stats[j].lastDay <= stats[i].lastDay ==> ScoreGrouped(stats, now).value[j].r <= ScoreGrouped(stats, now).value[i].r
    ensures stats[i].frequency <= stats[j].frequency ==> ScoreGrouped(stats, now).value[i].f <= ScoreGrouped(stats, now).value[j].f
    ensures stats[i].monetary <= stats[j].monetary ==> ScoreGrouped(stats, now).value[i].m <= ScoreGrouped(stats, now).value[j].m
  {
    if stats[j].lastDay <= stats[i].lastDay {
      QCutBinsMono(Recencies(stats, now), 5, i, j);
    }
    if stats[i].frequency <= stats[j].frequency {
      QCutBinsMono(Frequencies(stats), 5, i, j);
    }
    if stats[i].monetary <= stats[j].monetary {
      QCutBinsMono(Monetaries(stats), 5, i, j);
    }
  }

  /** Frequency is binned on raw counts: when every customer bought equally often (say once
      each), its quintile edges coincide and the analysis fails. */
  lemma EqualFrequenciesFail(stats: seq<CustomerStats>, now: int)
    requires stats != [] && forall i :: 0 <= i < |stats| ==> stats[i].frequency == stats[0].frequency
    ensures ScoreGrouped(stats, now).Err?
  {
    QCutConstantFails(Frequencies(stats), 5);
  }
}

=== FILE: backend_rfm.dfy ===
/** `backend/rfm_analysis.py`: the validated service variant. Configurable column names,
    checks before any computation, recency measured from a caller-supplied `now`, four
    quantile scores that fall back to 1 when binning raises, and per-segment statistics. */
module BackendAnalysis {
  import opened Wrappers
  import opened Tally
  import opened Frame
  import opened Metrics
  import opened Binning
  import opened FirstRank
  import opened Codes
  import opened Scoring

  /** The `summary` totals and the `segments` statistics of the result dictionary. */
  datatype Summary = Summary(totalCustomers: nat, totalRevenue: real, segments: seq<SegmentStats>)

  function ColumnSet(t: Table): set<string> {
    set c | c in t.columns
  }

  /** The input checks, in the order the function makes them, followed by the date
      conversion; on success, one transaction per row. */
  function Validate(t: Table, date: string, amount: string, customer: string, toDay: Cell -> Option<int>): (r: Result<seq<Txn>, Failure>)
    requires WellFormed(t)
    ensures !({date, amount, customer} <= ColumnSet(t)) ==>
              r == Err(MissingColumnSet({date, amount, customer} - ColumnSet(t)))
    ensures {date, amount, customer} <= ColumnSet(t) && !(NullFree(t, date) && NullFree(t, amount) && NullFree(t, customer)) ==>
              r == Err(NullValues)
    ensures {date, amount, customer} <= ColumnSet(t) && NullFree(t, date) && NullFree(t, amount) && NullFree(t, customer) ==>
              (!AllNumbers(Column(t, amount)) ==> r == Err(NotNumeric(amount)))
              && (AllNumbers(Column(t, amount)) ==> r == Transactions(t, date, customer, amount, toDay))
    ensures r.Ok? ==> date in t.columns && customer in t.columns && amount in t.columns && AllNumbers(Column(t, amount))
  {
    var required := {date, amount, customer};
    if !(required <= ColumnSet(t)) then Err(MissingColumnSet(required - ColumnSet(t)))
    else
      assert date in ColumnSet(t) && amount in ColumnSet(t) && customer in ColumnSet(t);
      if !(NullFree(t, date) && NullFree(t, amount) && NullFree(t, customer)) then Err(NullValues)
      else if !AllNumbers(Column(t, amount)) then Err(NotNumeric(amount))
      else Transactions(t, date, customer, amount, toDay)
  }

  /** A metric's score column: the quartile labels when `pd.qcut` succeeds, otherwise 1 for
      every customer. */
  function ScoreOr(values: seq<real>, labels: seq<int>): (s: seq<int>)
    requires |labels| == 4 && forall x :: x in labels ==> 1 <= x <= 4
    ensures |s| == |values| && forall i :: 0 <= i < |values| ==> 1 <= s[i] <= 4
    ensures QCutBins(values, 4).Ok? ==> forall i :: 0 <= i < |values| ==> s[i] == labels[QCutBins(values, 4).value[i]]
    ensures QCutBins(values, 4).Err? ==> forall i :: 0 <= i < |values| ==> s[i] == 1
  {
    match QCut(values, 4, labels)
    case Ok(v) => v
    case Err(_) => seq(|values|, i => 1)
  }

  /** Scores every grouped customer; binning failures are caught, so scoring always yields a
      record per customer. */
  function Score(txns: seq<Txn>, now: int): (cs: seq<Scored>)
    ensures |cs| == |Aggregate(txns)|
    ensures forall i :: 0 <= i < |cs| ==> Describes(cs[i], Aggregate(txns)[i], now)
  {
    ScoreGrouped(Aggregate(txns), now)
  }

  function ScoreGrouped(stats: seq<CustomerStats>, now: int): (cs: seq<Scored>)
    ensures |cs| == |stats| && forall i :: 0 <= i < |stats| ==> Describes(cs[i], stats[i], now)
  {
    var rs := ScoreOr(Recencies(stats, now), Descend(4));
    var fs := ScoreOr(FirstRanks(Frequencies(stats)), Ascend(4));
    var ms := ScoreOr(Monetaries(stats), Ascend(4));
    Assemble(stats, now, rs, fs, ms)
  }

  function RecencyBins(stats: seq<CustomerStats>, now: int): Result<seq<nat>, Failure> {
    QCutBins(Recencies(stats, now), 4)
  }

  function FrequencyBins(stats: seq<CustomerStats>): Result<seq<nat>, Failure> {
    QCutBins(FirstRanks(Frequencies(stats)), 4)
  }

  function MonetaryBins(stats: seq<CustomerStats>): Result<seq<nat>, Failure> {
    QCutBins(Monetaries(stats), 4)
  }

  /** Each score is its quartile label when binning succeeds and 1 for everyone when it
      raises; the frequency binning raises exactly when there are fewer than two customers. */
  lemma ScoreCases(stats: seq<CustomerStats>, now: int, i: nat)
    requires i < |stats|
    ensures RecencyBins(stats, now).Ok? ==> ScoreGrouped(stats, now)[i].r == 4 - RecencyBins(stats, now).value[i]
    ensures RecencyBins(stats, now).Err? ==> ScoreGrouped(stats, now)[i].r == 1
    ensures FrequencyBins(stats).Ok? <==> |stats| >= 2
    ensures FrequencyBins(stats).Ok? ==> ScoreGrouped(stats, now)[i].f == 1 + FrequencyBins(stats).value[i]
    ensures FrequencyBins(stats).Err? ==> ScoreGrouped(stats, now)[i].f == 1
    ensures MonetaryBins(stats).Ok? ==> ScoreGrouped(stats, now)[i].m == 1 + MonetaryBins(stats).value[i]
    ensures MonetaryBins(stats).Err? ==> ScoreGrouped(stats, now)[i].m == 1
  {
    RecencyCase(stats, now, i);
    FrequencyCase(stats, now, i);
    MonetaryCase(stats, now, i);
    QCutFirstRanks(Frequencies(stats), 4);
  }

  lemma RecencyCase(stats: seq<CustomerStats>, now: int, i: nat)
    requires i < |stats|
    ensures RecencyBins(stats, now).Ok? ==> ScoreGrouped(stats, now)[i].r == 4 - RecencyBins(stats, now).value[i]
    ensures RecencyBins(stats, now).Err? ==> ScoreGrouped(stats, now)[i].r == 1
  {
    ScoreColumns(stats, now, i);
    if RecencyBins(stats, now).Ok? {
      assert RecencyBins(stats, now).value[i] < 4;
    }
  }

  lemma FrequencyCase(stats: seq<CustomerStats>, now: int, i: nat)
    requires i < |stats|
    ensures FrequencyBins(stats).Ok? ==> ScoreGrouped(stats, now)[i].f == 1 + FrequencyBins(stats).value[i]
    ensures FrequencyBins(stats).Err? ==> ScoreGrouped(stats, now)[i].f == 1
  {
    ScoreColumns(stats, now, i);
    if FrequencyBins(stats).Ok? {
      assert FrequencyBins(stats).value[i] < 4;
    }
  }

  lemma MonetaryCase(stats: seq<CustomerStats>, now: int, i: nat)
    requires i < |stats|
    ensures MonetaryBins(stats).Ok? ==> ScoreGrouped(stats, now)[i].m == 1 + MonetaryBins(stats).value[i]
    ensures MonetaryBins(stats).Err? ==> ScoreGrouped(stats, now)[i].m == 1
  {
    ScoreColumns(stats, now, i);
    if MonetaryBins(stats).Ok? {
      assert MonetaryBins(stats).value[i] < 4;
    }
  }

  /** Each row's scores are its entries in the three score columns. */
  lemma ScoreColumns(stats: seq<CustomerStats>, now: int, i: nat)
    requires i < |stats|
    ensures ScoreGrouped(stats, now)[i].r == ScoreOr(Recencies(stats, now), Descend(4))[i]
    ensures ScoreGrouped(stats, now)[i].f == ScoreOr(FirstRanks(Frequencies(stats)), Ascend(4))[i]
    ensures ScoreGrouped(stats, now)[i].m == ScoreOr(Monetaries(stats), Ascend(4))[i]
  {
    var rs := ScoreOr(Recencies(stats, now), Descend(4));
    var fs := ScoreOr(FirstRanks(Frequencies(stats)), Ascend(4));
    var ms := ScoreOr(Monetaries(stats), Ascend(4));
    assert ScoreGrouped(stats, now) == Assemble(stats, now, rs, fs, ms);
  }

  /** A lone customer's quartiles all collapse: the code is "111" and the segment is lost. */
  lemma LoneCustomer(stats: seq<CustomerStats>, now: int)
    requires |stats| == 1
    ensures ScoreGrouped(stats, now)[0].code == "111" && ScoreGrouped(stats, now)[0].segment == Lost
  {
    var c := ScoreGrouped(stats, now)[0];
    LoneScores(stats, now);
    assert Describes(c, stats[0], now);
    LowestCode();
    SegmentOfRanks(1, 1, 1);
  }

  /** With one customer every binning raises, so every score falls back to 1. */
  lemma LoneScores(stats: seq<CustomerStats>, now: int)
    requires |stats| == 1
    ensures ScoreGrouped(stats, now)[0].r == 1 && ScoreGrouped(stats, now)[0].f == 1 && ScoreGrouped(stats, now)[0].m == 1
  {
    LoneRecency(stats, now);
    LoneFrequency(stats, now);
    LoneMonetary(stats, now);
  }

  lemma LoneRecency(stats: seq<CustomerStats>, now: int)
    requires |stats| == 1
    ensures ScoreGrouped(stats, now)[0].r == 1
  {
    var xs := Recencies(stats, now);
    assert |xs| == 1;
    QCutConstantFails(xs, 4);
    RecencyCase(stats, now, 0);
  }

  lemma LoneFrequency(stats: seq<CustomerStats>, now: int)
    requires |stats| == 1
    ensures ScoreGrouped(stats, now)[0].f == 1
  {
    FrequencyCase(stats, now, 0);
    QCutFirstRanks(Frequencies(stats), 4);
  }

  lemma LoneMonetary(stats: seq<CustomerStats>, now: int)
    requires |stats| == 1
    ensures ScoreGrouped(stats, now)[0].m == 1
  {
    var xs := Monetaries(stats);
    assert |xs| == 1;
    QCutConstantFails(xs, 4);
    MonetaryCase(stats, now, 0);
  }

  /** With or without the fallback, a more recent customer never gets a lower r, and one who
      bought more often or spent more never gets a lower f or m. */
  lemma ScoreDirections(stats: seq<CustomerStats>, now: int, i: nat, j: nat)
    requires i < |stats| && j < |stats|
    ensures stats[j].lastDay <= stats[i].lastDay ==> ScoreGrouped(stats, now)[j].r <= ScoreGrouped(stats, now)[i].r
    ensures stats[i].frequency < stats[j].frequency ==> ScoreGrouped(stats, now)[i].f <= ScoreGrouped(stats, now)[j].f
    ensures stats[i].monetary <= stats[j].monetary ==> ScoreGrouped(stats, now)[i].m <= ScoreGrouped(stats, now)[j].m
  {
    if stats[j].lastDay <= stats[i].lastDay {
      RecencyDirection(stats, now, i, j);
    }
    if stats[i].frequency < stats[j].frequency {
      FrequencyDirection(stats, now, i, j);
    }
    if stats[i].monetary <= stats[j].monetary {
      MonetaryDirection(stats, now, i, j);
    }
  }

  lemma RecencyDirection(stats: seq<CustomerStats>, now: int, i: nat, j: nat)
    requires i < |stats| && j < |stats| && stats[j].lastDay <= stats[i].lastDay
    ensures ScoreGrouped(stats, now)[j].r <= ScoreGrouped(stats, now)[i].r
  {
    RecencyCase(stats, now, i);
    RecencyCase(stats, now, j);
    if RecencyBins(stats, now).Ok? {
      QCutBinsMono(Recencies(stats, now), 4, i, j);
    }
  }

  lemma FrequencyDirection(stats: seq<CustomerStats>, now: int, i: nat, j: nat)
    requires i < |stats| && j < |stats| && stats[i].frequency < stats[j].frequency
    ensures ScoreGrouped(stats, now)[i].f <= ScoreGrouped(stats, now)[j].f
  {
    FrequencyCase(stats, now, i);
    FrequencyCase(stats, now, j);
    if FrequencyBins(stats).Ok? {
      var fr := Frequencies(stats);
      RankOrder(fr, i, j);
      QCutBinsMono(FirstRanks(fr), 4, i, j);
    }
  }

  lemma MonetaryDirection(stats: seq<CustomerStats>, now: int, i: nat, j: nat)
    requires i < |stats| && j < |stats| && stats[i].monetary <= stats[j].monetary
    ensures ScoreGrouped(stats, now)[i].m <= ScoreGrouped(stats, now)[j].m
  {
    MonetaryCase(stats, now, i);
    MonetaryCase(stats, now, j);
    if MonetaryBins(stats).Ok? {
      QCutBinsMono(Monetaries(stats), 4, i, j);
    }
  }

  /** The summary keeps the exact revenue; the statistics table is rounded to cents. */
  function Summarize(cs: seq<Scored>): Summary {
    Summary(|cs|, Sum(cs, ScoredMonetary), RoundStats(SegmentTable(cs, NameOrder)))
  }

  /** `perform_rfm_analysis(df, date_column, amount_column, customer_column)`, with
      `datetime.now()` given as `now`. After validation two more `ValueError`s can arise.
      When the date and amount columns are one column, the `agg` dictionary keeps one key,
      so the grouped table has three columns for the four names assigned at line 54. When
      there are no rows, `apply` at line 92 returns a whole frame for the one `segment`
      column. */
  function Analyze(t: Table, date: string, amount: string, customer: string, toDay: Cell -> Option<int>, now: int): (r: Result<Summary, Failure>)
    requires WellFormed(t)
    requires customer != date && customer != amount
    ensures r.Ok? <==> Validate(t, date, amount, customer, toDay).Ok? && date != amount && |t.rows| >= 1
    ensures Validate(t, date, amount, customer, toDay).Err? ==> r == Err(Validate(t, date, amount, customer, toDay).error)
    ensures Validate(t, date, amount, customer, toDay).Ok? && date == amount ==> r == Err(ColumnCountMismatch)
    ensures Validate(t, date, amount, customer, toDay).Ok? && date != amount && t.rows == [] ==> r == Err(EmptyApply)
    ensures r.Ok? ==> r.value == Summarize(Score(Validate(t, date, amount, customer, toDay).value, now))
  {
    var txns :- Validate(t, date, amount, customer, toDay);
    if date == amount then Err(ColumnCountMismatch)
    else if txns == [] then Err(EmptyApply)
    else Ok(Summarize(Score(txns, now)))
  }

  /** A frame with the three columns and no rows passes every check and still fails: with
      no rows there is nothing to segment. */
  lemma NoRowsFail(columns: seq<string>, date: string, amount: string, customer: string, toDay: Cell -> Option<int>, now: int)
    requires date in columns && amount in columns && customer in columns
    requires |{date, amount, customer}| == 3
    ensures Validate(Table(columns, []), date, amount, customer, toDay) == Ok([])
    ensures Analyze(Table(columns, []), date, amount, customer, toDay, now) == Err(EmptyApply)
  {
    var t := Table(columns, []);
    assert date in ColumnSet(t) && amount in ColumnSet(t) && customer in ColumnSet(t);
    assert Column(t, amount) == [];
  }

  /** `calculate_rfm(data)`: the same analysis under the default column names. */
  function CalculateRfm(t: Table, toDay: Cell -> Option<int>, now: int): (r: Result<Summary, Failure>)
    requires WellFormed(t)
    ensures r == Analyze(t, "order_date", "order_amount", "customer_id", toDay, now)
  {
    Analyze(t, "order_date", "order_amount", "customer_id", toDay, now)
  }

  /** On success the summary counts each distinct customer once, the per-segment sizes add up
      to that count, and the revenue is the sum of the amount column. The per-segment
      revenues are rounded to cents, so they add up to the revenue only to within half a
      cent per segment, and there are at most four segments. */
  lemma AnalyzeTotals(t: Table, date: string, amount: string, customer: string, toDay: Cell -> Option<int>, now: int)
    requires WellFormed(t) && customer != date && customer != amount
    requires Analyze(t, date, amount, customer, toDay, now).Ok?
    ensures amount in t.columns && AllNumbers(Column(t, amount))
    ensures Analyze(t, date, amount, customer, toDay, now).value.totalCustomers
            == |Keys(Validate(t, date, amount, customer, toDay).value)|
    ensures Sum(Analyze(t, date, amount, customer, toDay, now).value.segments, StatsCount)
            == Analyze(t, date, amount, customer, toDay, now).value.totalCustomers as real
    ensures Analyze(t, date, amount, customer, toDay, now).value.totalRevenue
            == Sum(Numbers(Column(t, amount)), Same)
    ensures |Analyze(t, date, amount, customer, toDay, now).value.segments| <= 4
    ensures var v := Analyze(t, date, amount, customer, toDay, now).value;
            -(|v.segments| as real) * 0.005 <= Sum(v.segments, StatsRevenue) - v.totalRevenue
                                            <= |v.segments| as real * 0.005
  {
    var txns := Validate(t, date, amount, customer, toDay).value;
    var cs := Score(txns, now);
    SegmentTableCovers(cs);
    RoundedSums(SegmentTable(cs, NameOrder));
    RevenueTotals(txns, now);
    AmountColumnSum(Column(t, amount), txns);
  }

  lemma RevenueTotals(txns: seq<Txn>, now: int)
    ensures Sum(Score(txns, now), ScoredMonetary) == Sum(txns, AmountOf)
  {
    var stats := Aggregate(txns);
    var cs := ScoreGrouped(stats, now);
    forall i | 0 <= i < |cs| ensures ScoredMonetary(cs[i]) == MonetaryOf(stats[i]) {
      assert Describes(cs[i], stats[i], now);
    }
    SumPointwise(cs, ScoredMonetary, stats, MonetaryOf);
    AggregateMonetarySum(txns);
  }
}

=== FILE: binning.dfy ===
/** Quantile binning as pandas `qcut` does it, and interval binning as `cut` does it with
    explicit bins. Edges are numpy's linearly interpolated quantiles of the sorted values;
    a value's bin is found by a left `searchsorted` over the edges (right-closed bins) with
    the lowest edge included; non-unique edges raise. */
module Binning {
  import opened Wrappers
  import opened Tally
  import opened Sorting
  import opened Frame

  function RealLeq(a: real, b: real): bool { a <= b }

  predicate NonDecreasing(s: seq<real>) {
    forall i, j :: 0 <= i <= j < |s| ==> s[i] <= s[j]
  }

  predicate Increasing(s: seq<real>) {
    forall i, j :: 0 <= i < j < |s| ==> s[i] < s[j]
  }

  /** `sorted(xs)` */
  function Ascending(xs: seq<real>): (s: seq<real>)
    ensures |s| == |xs| && multiset(s) == multiset(xs)
    ensures NonDecreasing(s)
  {
    RealLeqTotal();
    var s := Sort(xs, RealLeq);
    SortedNonDecreasing(s);
    s
  }

  lemma RealLeqTotal()
    ensures TotalPreorder(RealLeq)
  { }

  lemma SortedNonDecreasing(s: seq<real>)
    requires SortedBy(s, RealLeq)
    ensures NonDecreasing(s)
  {
    forall i, j | 0 <= i <= j < |s| ensures s[i] <= s[j] {
      if i < j {
        assert RealLeq(s[i], s[j]);
      }
    }
  }

  /** A value of `xs` lies between the first and the last element of `sorted(xs)`. */
  lemma AscendingBounds(xs: seq<real>, x: real)
    requires x in xs
    ensures Ascending(xs)[0] <= x <= Ascending(xs)[|xs| - 1]
  {
    var s := Ascending(xs);
    assert x in multiset(s);
    var k :| 0 <= k < |s| && s[k] == x;
  }

  /** Number of elements of `xs` strictly below `v`. */
  function CountLess(xs: seq<real>, v: real): (n: nat)
    ensures n <= |xs|
  {
    if xs == [] then 0 else (if xs[0] < v then 1 else 0) + CountLess(xs[1..], v)
  }

  function CountEq(xs: seq<real>, v: real): (n: nat)
    ensures n <= |xs|
  {
    if xs == [] then 0 else (if xs[0] == v then 1 else 0) + CountEq(xs[1..], v)
  }

  function CountGreater(xs: seq<real>, v: real): (n: nat)
    ensures n <= |xs|
  {
    if xs == [] then 0 else (if xs[0] > v then 1 else 0) + CountGreater(xs[1..], v)
  }

  /** Every element is below, equal to or above `v`. */
  lemma {:induction false} CountSplit(xs: seq<real>, v: real)
    ensures CountLess(xs, v) + CountEq(xs, v) + CountGreater(xs, v) == |xs|
  {
    if xs != [] {
      CountSplit(xs[1..], v);
    }
  }

  lemma {:induction false} CountConcat(a: seq<real>, b: seq<real>, v: real)
    ensures CountLess(a + b, v) == CountLess(a, v) + CountLess(b, v)
    ensures CountEq(a + b, v) == CountEq(a, v) + CountEq(b, v)
    ensures CountGreater(a + b, v) == CountGreater(a, v) + CountGreater(b, v)
  {
    if a != [] {
      assert (a + b)[1..] == a[1..] + b;
      CountConcat(a[1..], b, v);
    } else {
      assert a + b == b;
    }
  }

  /** `CountLess` grows with its threshold; past `u` it also counts the copies of `u`. */
  lemma {:induction false} CountLessMono(xs: seq<real>, u: real, w: real)
    requires u <= w
    ensures CountLess(xs, u) <= CountLess(xs, w)
    ensures u < w ==> CountLess(xs, u) + CountEq(xs, u) <= CountLess(xs, w)
  {
    if xs != [] {
      CountLessMono(xs[1..], u, w);
    }
  }

  lemma {:induction false} CountGreaterMono(xs: seq<real>, u: real, w: real)
    requires u <= w
    ensures CountGreater(xs, w) <= CountGreater(xs, u)
    ensures u < w ==> CountGreater(xs, w) + CountEq(xs, w) <= CountGreater(xs, u)
  {
    if xs != [] {
      CountGreaterMono(xs[1..], u, w);
    }
  }

  lemma {:induction false} CountEqPositive(xs: seq<real>, i: nat)
    requires i < |xs|
    ensures CountEq(xs, xs[i]) >= 1
  {
    if i > 0 {
      assert xs[1..][i - 1] == xs[i];
      CountEqPositive(xs[1..], i - 1);
    }
  }

  /** If some element is at least `v`, not every element is below it. */
  lemma {:induction false} CountLessBelowLength(xs: seq<real>, v: real, j: nat)
    requires j < |xs| && xs[j] >= v
    ensures CountLess(xs, v) <= |xs| - 1
  {
    if j > 0 {
      assert xs[1..][j - 1] == xs[j];
      CountLessBelowLength(xs[1..], v, j - 1);
    }
  }

  /** On an increasing sequence, `CountLess` is the number of leading elements below `v`. */
  lemma {:induction false} CountLessIncreasing(e: seq<real>, v: real, k: nat)
    requires Increasing(e) && k <= |e|
    requires forall i :: 0 <= i < k ==> e[i] < v
    requires forall i :: k <= i < |e| ==> v <= e[i]
    ensures CountLess(e, v) == k
  {
    if e != [] {
      assert Increasing(e[1..]) by {
        forall i, j | 0 <= i < j < |e[1..]| ensures e[1..][i] < e[1..][j] {
          assert e[1..][i] == e[i + 1] && e[1..][j] == e[j + 1];
        }
      }
      if k == 0 {
        CountLessIncreasing(e[1..], v, 0);
      } else {
        CountLessIncreasing(e[1..], v, k - 1);
      }
    }
  }

  lemma MulLe(a: int, b: int, q: nat)
    requires a <= b
    ensures a * q <= b * q
  {
  }

  lemma MulCancel(a: int, b: int, q: nat)
    requires q >= 1 && a * q <= b * q
    ensures a <= b
  {
    if a > b {
      MulLe(b + 1, a, q);
      assert false;
    }
  }

  lemma MulLtCancel(a: int, b: int, q: nat)
    requires a * q < b * q
    ensures a < b
  {
    if a >= b {
      MulLe(b, a, q);
      assert false;
    }
  }

  lemma DivBound(num: nat, q: nat, m: nat)
    requires q >= 1 && num <= m * q
    ensures num / q <= m
    ensures num % q != 0 ==> num / q < m
  {
    var lo := num / q;
    assert lo * q + num % q == num;
    MulCancel(lo, m, q);
    if num % q != 0 {
      MulCancel(lo + 1, m, q);
    }
  }

  lemma MulDiv(a: nat, q: nat)
    requires q >= 1
    ensures a * q / q == a && a * q % q == 0
  {
    var lo, rem := a * q / q, a * q % q;
    assert lo * q + rem == a * q;
    MulCancel(lo, a, q);
    assert (lo + 1) * q == lo * q + q;
    MulLtCancel(a, lo + 1, q);
  }

  /** Integer division is monotone. */
  lemma DivMono(num1: nat, num2: nat, q: nat)
    requires q >= 1 && num1 <= num2
    ensures num1 / q <= num2 / q
    ensures num1 / q == num2 / q ==> num1 % q <= num2 % q
  {
    var lo1, lo2 := num1 / q, num2 / q;
    assert lo1 * q + num1 % q == num1;
    assert lo2 * q + num2 % q == num2;
    assert (lo2 + 1) * q == lo2 * q + q;
    MulLtCancel(lo1, lo2 + 1, q);
  }

  lemma ScaleMono(r1: nat, r2: nat, q: nat, d: real)
    requires q >= 1 && r1 <= r2 && d >= 0.0
    ensures (r1 as real / q as real) * d <= (r2 as real / q as real) * d
  {
    assert r1 as real / q as real <= r2 as real / q as real;
  }

  lemma ScaleBelow(r: nat, q: nat, d: real)
    requires r < q && d >= 0.0
    ensures 0.0 <= (r as real / q as real) * d <= d
  {
    assert 0.0 <= r as real / q as real <= 1.0;
  }

  /** numpy's linear interpolation of the sorted `s` at the virtual index `num / q`. */
  function Interp(s: seq<real>, num: nat, q: nat): real
    requires |s| >= 1 && q >= 1 && num <= (|s| - 1) * q
  {
    DivBound(num, q, |s| - 1);
    var lo := num / q;
    var rem := num % q;
    if rem == 0 then s[lo]
    else s[lo] + (rem as real / q as real) * (s[lo + 1] - s[lo])
  }

  lemma InterpBetween(s: seq<real>, num: nat, q: nat, lo: nat)
    requires |s| >= 1 && q >= 1 && num <= (|s| - 1) * q
    requires NonDecreasing(s) && lo == num / q && lo < |s| && (num % q != 0 ==> lo + 1 < |s|)
    ensures s[lo] <= Interp(s, num, q)
    ensures num % q != 0 ==> Interp(s, num, q) <= s[lo + 1]
  {
    if num % q != 0 {
      ScaleBelow(num % q, q, s[lo + 1] - s[lo]);
    }
  }

  /** Quantiles of sorted data grow with the probability. */
  lemma InterpMono(s: seq<real>, num1: nat, num2: nat, q: nat)
    requires |s| >= 1 && q >= 1 && num1 <= num2 <= (|s| - 1) * q
    requires NonDecreasing(s)
    ensures Interp(s, num1, q) <= Interp(s, num2, q)
  {
    DivBound(num1, q, |s| - 1);
    DivBound(num2, q, |s| - 1);
    DivMono(num1, num2, q);
    var lo1, lo2 := num1 / q, num2 / q;
    InterpBetween(s, num1, q, lo1);
    InterpBetween(s, num2, q, lo2);
    if lo1 == lo2 {
      if num1 % q != 0 {
        ScaleMono(num1 % q, num2 % q, q, s[lo1 + 1] - s[lo1]);
      }
    } else if num1 % q != 0 {
      assert s[lo1 + 1] <= s[lo2];
    }
  }

  /** The `q + 1` quantile edges of the sorted `s` at probabilities `0, 1/q, ..., 1`. */
  function Edges(s: seq<real>, q: nat): (e: seq<real>)
    requires |s| >= 1 && q >= 1
    ensures |e| == q + 1
    ensures forall i :: 0 <= i <= q ==> e[i] == Quantile(s, i, q)
  {
    seq(q + 1, i requires 0 <= i <= q => Quantile(s, i, q))
  }

  /** The `i`-th of the `q`-quantiles of the sorted `s`: virtual index `(n - 1) i / q`. */
  function Quantile(s: seq<real>, i: nat, q: nat): real
    requires |s| >= 1 && q >= 1 && i <= q
  {
    MulMono(|s| - 1, i, q);
    Interp(s, (|s| - 1) * i, q)
  }

  lemma MulMono(a: nat, i: nat, j: nat)
    requires i <= j
    ensures a * i <= a * j
  {
  }

  lemma EdgesShape(s: seq<real>, q: nat)
    requires |s| >= 1 && q >= 1 && NonDecreasing(s)
    ensures NonDecreasing(Edges(s, q))
    ensures Edges(s, q)[0] == s[0]
    ensures Edges(s, q)[q] == s[|s| - 1]
  {
    var e := Edges(s, q);
    forall i, j | 0 <= i <= j < |e| ensures e[i] <= e[j] {
      MulMono(|s| - 1, i, j);
      MulMono(|s| - 1, j, q);
      InterpMono(s, (|s| - 1) * i, (|s| - 1) * j, q);
    }
    MulDiv(|s| - 1, q);
  }

  /** A non-decreasing sequence with distinct elements is increasing. */
  lemma DistinctNonDecreasing(e: seq<real>)
    requires NonDecreasing(e) && NoDup(e)
    ensures Increasing(e)
  {
  }

  /** pandas' bin index for `x`: a left `searchsorted` gives the number of edges below
      `x`; `include_lowest` puts the lowest edge itself into the first bin. Values below the
      lowest edge do not occur: the edges span the data. */
  function BinOf(e: seq<real>, x: real): (b: nat)
    requires |e| >= 1
  {
    if x <= e[0] then 0 else CountLess(e, x) - 1
  }

  /** Bin `b` is the right-closed interval `(e[b], e[b+1]]`, the first one also holding `e[0]`. */
  predicate InBin(e: seq<real>, b: nat, x: real) {
    b + 1 < |e| && ((e[b] < x <= e[b + 1]) || (b == 0 && x == e[0]))
  }

  lemma BinOfRange(e: seq<real>, x: real)
    requires |e| >= 2 && NonDecreasing(e) && e[0] <= x <= e[|e| - 1]
    ensures BinOf(e, x) < |e| - 1
  {
    if x != e[0] {
      CountLessBelowLength(e, x, |e| - 1);
    }
  }

  lemma IncreasingTail(e: seq<real>)
    requires Increasing(e) && e != []
    ensures Increasing(e[1..])
  {
    forall i, j | 0 <= i < j < |e[1..]| ensures e[1..][i] < e[1..][j] {
      assert e[1..][i] == e[i + 1] && e[1..][j] == e[j + 1];
    }
  }

  /** On an increasing sequence the elements below `x` form a prefix, of length `k`. */
  lemma {:induction false} LeadingBelow(e: seq<real>, x: real) returns (k: nat)
    requires Increasing(e)
    ensures k <= |e| && CountLess(e, x) == k
    ensures forall j :: 0 <= j < k ==> e[j] < x
    ensures forall j :: k <= j < |e| ==> x <= e[j]
  {
    if e == [] {
      k := 0;
    } else if x <= e[0] {
      k := 0;
      assert forall j :: 0 < j < |e| ==> e[0] < e[j];
      CountLessIncreasing(e, x, 0);
    } else {
      IncreasingTail(e);
      var k' := LeadingBelow(e[1..], x);
      k := k' + 1;
      assert forall j :: 1 <= j < |e| ==> e[j] == e[1..][j - 1];
    }
  }

  /** The bin found is the one whose interval holds `x`, and no other bin holds it. */
  lemma BinOfIsInBin(e: seq<real>, x: real, b: nat)
    requires |e| >= 2 && Increasing(e) && e[0] <= x <= e[|e| - 1]
    ensures InBin(e, BinOf(e, x), x)
    ensures InBin(e, b, x) ==> b == BinOf(e, x)
  {
    var k := LeadingBelow(e, x);
    if x != e[0] {
      assert 1 <= k < |e|;
      assert BinOf(e, x) == k - 1;
    }
    if InBin(e, b, x) && x != e[0] {
      assert e[b] < x <= e[b + 1];
      assert b + 1 == k;
    }
  }

  /** A larger value never lands in a lower bin. */
  lemma BinOfMono(e: seq<real>, x: real, y: real)
    requires |e| >= 1 && e[0] <= x <= y
    ensures BinOf(e, x) <= BinOf(e, y)
  {
    CountLessMono(e, x, y);
  }

  /** The quantile edges `qcut` computes for `values`. */
  function QuantileEdges(values: seq<real>, q: nat): (e: seq<real>)
    requires values != [] && q >= 1
    ensures |e| == q + 1 && NonDecreasing(e)
    ensures e[0] == Ascending(values)[0] && e[q] == Ascending(values)[|values| - 1]
  {
    EdgesShape(Ascending(values), q);
    Edges(Ascending(values), q)
  }

  lemma AscendingBoundsAll(values: seq<real>)
    requires values != []
    ensures forall i :: 0 <= i < |values| ==> Ascending(values)[0] <= values[i] <= Ascending(values)[|values| - 1]
  {
    forall i | 0 <= i < |values| ensures Ascending(values)[0] <= values[i] <= Ascending(values)[|values| - 1] {
      AscendingBounds(values, values[i]);
    }
  }

  /** The bin index of every value between the outer edges. */
  function BinIndices(e: seq<real>, values: seq<real>): (bins: seq<nat>)
    requires |e| >= 2 && NonDecreasing(e)
    requires forall i :: 0 <= i < |values| ==> e[0] <= values[i] <= e[|e| - 1]
    ensures |bins| == |values|
    ensures forall i :: 0 <= i < |values| ==> bins[i] == BinOf(e, values[i]) && bins[i] < |e| - 1
  {
    var bins := seq(|values|, i requires 0 <= i < |values| => BinOf(e, values[i]));
    assert forall i :: 0 <= i < |values| ==> bins[i] < |e| - 1 by {
      forall i | 0 <= i < |values| ensures bins[i] < |e| - 1 {
        BinOfRange(e, values[i]);
      }
    }
    bins
  }

  /** The bin of every value against its own quantile edges. */
  function QuantileBins(values: seq<real>, q: nat): (bins: seq<nat>)
    requires values != [] && q >= 1
    ensures |bins| == |values|
    ensures forall i :: 0 <= i < |values| ==> bins[i] == BinOf(QuantileEdges(values, q), values[i]) && bins[i] < q
  {
    var e := QuantileEdges(values, q);
    AscendingBoundsAll(values);
    assert forall i :: 0 <= i < |values| ==> e[0] <= values[i] <= e[|e| - 1];
    BinIndices(e, values)
  }

  /** `pd.qcut(values, q)` as bin indices: the error when the edges are not unique. With a
      fixed label list of length `q`, `duplicates='drop'` fails the same way as `'raise'`,
      since dropping an edge leaves fewer bins than labels. With one bin (two edges) pandas
      skips the uniqueness check. */
  function QCutBins(values: seq<real>, q: nat): (r: Result<seq<nat>, Failure>)
    requires q >= 1
    ensures r.Ok? ==> |r.value| == |values| && forall i :: 0 <= i < |values| ==> r.value[i] < q
    ensures r.Ok? && values != [] ==> r.value == QuantileBins(values, q)
  {
    if values == [] then (if q == 1 then Ok([]) else Err(EdgesNotUnique))
    else
      var e := QuantileEdges(values, q);
      if q >= 2 && !NoDup(e) then Err(EdgesNotUnique)
      else
        Ok(QuantileBins(values, q))
  }

  /** Binning a non-empty column fails exactly when two of its quantile edges coincide (and
      there is more than one bin), and then for non-unique edges. */
  lemma QCutBinsSucceeds(values: seq<real>, q: nat)
    requires q >= 1
    ensures values != [] ==> (QCutBins(values, q).Ok? <==> q == 1 || NoDup(QuantileEdges(values, q)))
    ensures QCutBins(values, q).Err? ==> QCutBins(values, q).error == EdgesNotUnique
  {
  }

  /** `list(range(1, k + 1))` */
  function Ascend(k: nat): (labels: seq<int>)
    ensures |labels| == k && forall b :: 0 <= b < k ==> labels[b] == b + 1
    ensures forall x :: x in labels ==> 1 <= x <= k
  {
    seq(k, b requires 0 <= b < k => b + 1)
  }

  /** `list(reversed(range(1, k + 1)))` */
  function Descend(k: nat): (labels: seq<int>)
    ensures |labels| == k && forall b :: 0 <= b < k ==> labels[b] == k - b
    ensures forall x :: x in labels ==> 1 <= x <= k
  {
    seq(k, b requires 0 <= b < k => k - b)
  }

  /** `pd.qcut(values, q, labels=labels)`. */
  function QCut(values: seq<real>, q: nat, labels: seq<int>): (r: Result<seq<int>, Failure>)
    requires q >= 1 && |labels| == q
    ensures r.Ok? <==> QCutBins(values, q).Ok?
    ensures r.Ok? ==> |r.value| == |values|
    ensures r.Ok? ==> forall i :: 0 <= i < |values| ==> r.value[i] == labels[QCutBins(values, q).value[i]]
    ensures r.Ok? ==> forall i :: 0 <= i < |values| ==> r.value[i] in labels
  {
    match QCutBins(values, q)
    case Err(e) => Err(e)
    case Ok(bins) => Ok(seq(|bins|, i requires 0 <= i < |bins| => labels[bins[i]]))
  }

  /** When `qcut` succeeds with at least two bins, the edges increase strictly. */
  lemma QCutEdgesIncreasing(values: seq<real>, q: nat)
    requires q >= 2 && QCutBins(values, q).Ok?
    ensures values != [] && Increasing(QuantileEdges(values, q))
  {
    DistinctNonDecreasing(QuantileEdges(values, q));
  }

  /** Each value lies in exactly one right-closed bin, the one `qcut` reports. */
  lemma QCutBinsInterval(values: seq<real>, q: nat, i: nat, b: nat)
    requires q >= 2 && QCutBins(values, q).Ok? && i < |values|
    ensures InBin(QuantileEdges(values, q), QCutBins(values, q).value[i], values[i])
    ensures InBin(QuantileEdges(values, q), b, values[i]) ==> b == QCutBins(values, q).value[i]
  {
    QCutEdgesIncreasing(values, q);
    AscendingBounds(values, values[i]);
    BinOfIsInBin(QuantileEdges(values, q), values[i], b);
  }

  /** The bin index grows with the value. */
  lemma QCutBinsMono(values: seq<real>, q: nat, i: nat, j: nat)
    requires q >= 1 && QCutBins(values, q).Ok? && i < |values| && j < |values| && values[i] <= values[j]
    ensures QCutBins(values, q).value[i] <= QCutBins(values, q).value[j]
  {
    AscendingBounds(values, values[i]);
    BinOfMono(QuantileEdges(values, q), values[i], values[j]);
  }

  /** The smallest value is in the first bin. */
  lemma QCutBinsMinimum(values: seq<real>, q: nat, i: nat)
    requires q >= 1 && QCutBins(values, q).Ok? && i < |values|
    requires forall k :: 0 <= k < |values| ==> values[i] <= values[k]
    ensures QCutBins(values, q).value[i] == 0
  {
    var s := Ascending(values);
    AscendingBounds(values, values[i]);
    assert s[0] in multiset(values);
    var k :| 0 <= k < |values| && values[k] == s[0];
    assert values[i] == QuantileEdges(values, q)[0];
  }

  /** The largest value is in the last bin. */
  lemma QCutBinsMaximum(values: seq<real>, q: nat, i: nat)
    requires q >= 2 && QCutBins(values, q).Ok? && i < |values|
    requires forall k :: 0 <= k < |values| ==> values[k] <= values[i]
    ensures QCutBins(values, q).value[i] == q - 1
  {
    var e := QuantileEdges(values, q);
    var s := Ascending(values);
    AscendingBounds(values, values[i]);
    assert s[|s| - 1] in multiset(values);
    var k :| 0 <= k < |values| && values[k] == s[|s| - 1];
    var x := values[i];
    assert x == e[q];
    QCutEdgesIncreasing(values, q);
    var c := LeadingBelow(e, x);
    assert e[q - 1] < x;
    assert c == q;
    assert QCutBins(values, q).value[i] == BinOf(e, x);
  }

  /** A single distinct value makes every edge equal, so `qcut` with two or more bins raises. */
  lemma QCutConstantFails(values: seq<real>, q: nat)
    requires q >= 2 && values != []
    requires forall i :: 0 <= i < |values| ==> values[i] == values[0]
    ensures QCutBins(values, q).Err?
  {
    var s := Ascending(values);
    assert s[0] in multiset(values) && s[|s| - 1] in multiset(values);
    var e := QuantileEdges(values, q);
    assert e[0] == e[1];
  }

  /** `pd.cut(x, bins=[-inf] + cuts + [inf], labels=[1..len(cuts)+1])`: the label of `x` is one
      more than the number of cuts below it. pandas first rejects a decreasing bin list, then
      repeated edges. */
  function CutRanks(values: seq<real>, cuts: seq<real>): (r: Result<seq<int>, Failure>)
    ensures r.Ok? <==> Increasing(cuts)
    ensures r.Ok? ==> |r.value| == |values|
    ensures r.Ok? ==> forall i :: 0 <= i < |values| ==> 1 <= r.value[i] <= |cuts| + 1
  {
    if exists k :: 0 <= k < |cuts| - 1 && cuts[k] > cuts[k + 1] then Err(EdgesNotMonotonic)
    else if !Increasing(cuts) then Err(EdgesNotUnique)
    else Ok(seq(|values|, i requires 0 <= i < |values| => 1 + CountLess(cuts, values[i])))
  }

  /** With increasing cuts, the label of `x` is `k + 1` exactly when `x` lies in the
      right-closed interval `(cuts[k-1], cuts[k]]` (unbounded at both ends). */
  lemma CutRanksMeaning(values: seq<real>, cuts: seq<real>, i: nat, k: nat)
    requires Increasing(cuts) && i < |values| && k <= |cuts|
    ensures CutRanks(values, cuts).value[i] == k + 1
        <==> (k == 0 || cuts[k - 1] < values[i]) && (k == |cuts| || values[i] <= cuts[k])
  {
    var k' := LeadingBelow(cuts, values[i]);
  }

  /** A larger value never gets a smaller interval label. */
  lemma CutRanksMono(values: seq<real>, cuts: seq<real>, i: nat, j: nat)
    requires Increasing(cuts) && i < |values| && j < |values| && values[i] <= values[j]
    ensures CutRanks(values, cuts).value[i] <= CutRanks(values, cuts).value[j]
  {
    CountLessMono(cuts, values[i], values[j]);
  }

  function Minimum(xs: seq<real>): (m: real)
    requires xs != []
    ensures m in xs && forall i :: 0 <= i < |xs| ==> m <= xs[i]
  {
    if |xs| == 1 then xs[0]
    else
      var rest := Minimum(xs[1..]);
      assert forall i :: 1 <= i < |xs| ==> xs[i] == xs[1..][i - 1];
      if xs[0] <= rest then xs[0] else rest
  }

  function Maximum(xs: seq<real>): (m: real)
    requires xs != []
    ensures m in xs && forall i :: 0 <= i < |xs| ==> xs[i] <= m
  {
    if |xs| == 1 then xs[0]
    else
      var rest := Maximum(xs[1..]);
      assert forall i :: 1 <= i < |xs| ==> xs[i] == xs[1..][i - 1];
      if xs[0] >= rest then xs[0] else rest
  }

  /** `[min + step * i for i in range(1, n)]` with `step = (max - min) / n`. */
  function AutoCuts(values: seq<real>, n: nat): (cuts: seq<real>)
    requires values != [] && n >= 1
    ensures |cuts| == n - 1
  {
    var lo := Minimum(values);
    var step := (Maximum(values) - lo) / n as real;
    seq(n - 1, i requires 0 <= i < n - 1 => lo + step * (i + 1) as real)
  }

  /** The automatic cuts increase strictly exactly when the values are not all equal or there
      is at most one cut. */
  lemma AutoCutsIncreasing(values: seq<real>, n: nat)
    requires values != [] && n >= 1
    ensures Increasing(AutoCuts(values, n)) <==> (Minimum(values) < Maximum(values) || n <= 2)
  {
    var lo, hi := Minimum(values), Maximum(values);
    var cuts := AutoCuts(values, n);
    var step := (hi - lo) / n as real;
    assert lo <= values[0] <= hi;
    if lo < hi {
      StepPositive(hi - lo, n);
    } else {
      assert step == 0.0;
    }
    EvenCuts(cuts, lo, step);
  }

  /** Cuts `lo + step * k` for `k = 1, 2, ...` increase with a positive step and repeat with a
      zero one. */
  lemma EvenCuts(cuts: seq<real>, lo: real, step: real)
    requires forall i :: 0 <= i < |cuts| ==> cuts[i] == lo + step * (i + 1) as real
    ensures step > 0.0 ==> Increasing(cuts)
    ensures step == 0.0 ==> (Increasing(cuts) <==> |cuts| <= 1)
  {
    if step > 0.0 {
      forall i, j | 0 <= i < j < |cuts| ensures cuts[i] < cuts[j] {
        ScaleStrict(step, (i + 1) as real, (j + 1) as real);
      }
    } else if step == 0.0 && |cuts| >= 2 {
      assert cuts[0] == cuts[1];
    }
  }

  lemma StepPositive(width: real, n: nat)
    requires width > 0.0 && n >= 1
    ensures width / n as real > 0.0
  { }

  lemma ScaleStrict(step: real, a: real, b: real)
    requires step > 0.0 && a < b
    ensures step * a < step * b
  { }

  function Reverse(s: seq<real>): (r: seq<real>)
    ensures |r| == |s| && forall i :: 0 <= i < |s| ==> r[i] == s[|s| - 1 - i]
  {
    seq(|s|, i requires 0 <= i < |s| => s[|s| - 1 - i])
  }

  /** `sorted(cuts, reverse=True)`: two or more distinct cuts in this order are never
      increasing, so `cut` raises on them. */
  function Descending(cuts: seq<real>): (r: seq<real>)
    ensures |r| == |cuts| && multiset(r) == multiset(cuts)
    ensures forall i, j :: 0 <= i <= j < |r| ==> r[j] <= r[i]
  {
    var s := Ascending(cuts);
    var r := Reverse(s);
    assert multiset(r) == multiset(s) by {
      ReverseMultiset(s);
    }
    r
  }

  lemma {:induction false} ReverseMultiset(s: seq<real>)
    ensures multiset(Reverse(s)) == multiset(s)
  {
    if s != [] {
      var init := s[..|s| - 1];
      ReverseMultiset(init);
      assert Reverse(s) == [s[|s| - 1]] + Reverse(init);
      assert s == init + [s[|s| - 1]];
    }
  }

  lemma DescendingNotIncreasing(cuts: seq<real>)
    requires |cuts| >= 2
    ensures !Increasing(Descending(cuts))
  {
    var r := Descending(cuts);
    assert r[1] <= r[0];
  }
}

=== FILE: codes.dfy ===
/** Segment codes: the decimal strings of the three ranks concatenated, read back with `int()`
    and compared against the thresholds 444, 333 and 222. */
module Codes {
  import opened Wrappers

  predicate IsDigits(s: string) {
    forall i :: 0 <= i < |s| ==> '0' <= s[i] <= '9'
  }

  function Digit(d: nat): (c: char)
    requires d < 10
    ensures '0' <= c <= '9' && c as int - '0' as int == d
  {
    ('0' as int + d) as char
  }

  /** `str(n)` for `n >= 0`: the shortest decimal numeral. */
  function Digits(n: nat): (s: string)
    ensures |s| >= 1 && IsDigits(s)
    ensures s[0] == '0' ==> n == 0
  {
    if n < 10 then [Digit(n)] else Digits(n / 10) + [Digit(n % 10)]
  }

  /** `str(i)` */
  function Decimal(i: int): string {
    if i < 0 then "-" + Digits(-i) else Digits(i)
  }

  /** The number a string of decimal digits denotes. */
  function Value(s: string): nat
    requires IsDigits(s)
  {
    if s == [] then 0 else Value(s[..|s| - 1]) * 10 + (s[|s| - 1] as int - '0' as int)
  }

  /** `int(s)` for the strings a code can hold: an optional minus sign and at least one
      digit; `None` where Python raises `ValueError`. */
  function ParseInt(s: string): Option<int> {
    if s != [] && IsDigits(s) then Some(Value(s) as int)
    else if |s| >= 2 && s[0] == '-' && IsDigits(s[1..]) then Some(-(Value(s[1..]) as int))
    else None
  }

  function Pow10(k: nat): (p: nat)
    ensures p >= 1
  {
    if k == 0 then 1 else 10 * Pow10(k - 1)
  }

  lemma {:induction false} ValueConcat(a: string, b: string)
    requires IsDigits(a) && IsDigits(b)
    ensures IsDigits(a + b) && Value(a + b) == Value(a) * Pow10(|b|) + Value(b)
    decreases |b|
  {
    ConcatDigits(a, b);
    if b != [] {
      var b' := b[..|b| - 1];
      var d := b[|b| - 1] as int - '0' as int;
      assert (a + b)[..|a + b| - 1] == a + b';
      assert (a + b)[|a + b| - 1] == b[|b| - 1];
      ConcatDigits(a, b');
      ValueConcat(a, b');
      assert Value(a + b) == Value(a + b') * 10 + d;
      assert Value(b) == Value(b') * 10 + d;
      assert Pow10(|b|) == 10 * Pow10(|b'|);
      ShiftDigit(Value(a), Pow10(|b'|), Value(b'), d);
    } else {
      assert a + b == a;
    }
  }

  lemma ConcatDigits(a: string, b: string)
    requires IsDigits(a) && IsDigits(b)
    ensures IsDigits(a + b)
  {
    forall i | 0 <= i < |a + b| ensures '0' <= (a + b)[i] <= '9' {
      if i >= |a| {
        assert (a + b)[i] == b[i - |a|];
      }
    }
  }

  /** Appending a digit multiplies by ten and adds it. */
  lemma ShiftDigit(x: int, p: int, y: int, d: int)
    ensures (x * p + y) * 10 + d == x * (10 * p) + (y * 10 + d)
  {
  }

  lemma {:induction false} ValueDigits(n: nat)
    ensures Value(Digits(n)) == n
  {
    if n >= 10 {
      ValueDigits(n / 10);
      var s := Digits(n / 10) + [Digit(n % 10)];
      assert s[..|s| - 1] == Digits(n / 10);
    }
  }

  /** `int(str(i)) == i` */
  lemma DecimalRoundTrip(i: int)
    ensures ParseInt(Decimal(i)) == Some(i)
  {
    if i < 0 {
      NegativeRoundTrip(i);
    } else {
      NonNegativeRoundTrip(i);
    }
  }

  lemma NonNegativeRoundTrip(n: nat)
    ensures ParseInt(Decimal(n)) == Some(n)
  {
    ValueDigits(n);
    ParsePositive(Digits(n));
  }

  lemma NegativeRoundTrip(i: int)
    requires i < 0
    ensures ParseInt(Decimal(i)) == Some(i)
  {
    var n: nat := -i;
    var d := Digits(n);
    ValueDigits(n);
    ParseNegative(d);
    assert Decimal(i) == "-" + d;
  }

  /** Digits alone read back as their value. */
  lemma ParsePositive(t: string)
    requires t != [] && IsDigits(t)
    ensures ParseInt(t) == Some(Value(t) as int)
  {
  }

  /** A minus sign followed by digits reads back as the negated value. */
  lemma ParseNegative(t: string)
    requires t != [] && IsDigits(t)
    ensures ParseInt("-" + t) == Some(-(Value(t) as int))
  {
    var s := "-" + t;
    assert s[0] == '-';
    assert s[1..] == t;
  }

  /** `str(r) + str(f) + str(m)` */
  function Code(r: int, f: int, m: int): string {
    Decimal(r) + Decimal(f) + Decimal(m)
  }

  /** The code of the lowest ranks. */
  lemma LowestCode()
    ensures Code(1, 1, 1) == "111"
  {
    assert Digits(1) == "1";
  }

  predicate IsDigit(d: int) {
    0 <= d <= 9
  }

  /** For one-digit ranks the code has three characters and reads back as `100 r + 10 f + m`. */
  lemma CodeValue(r: int, f: int, m: int)
    requires 1 <= r <= 9 && 1 <= f <= 9 && 1 <= m <= 9
    ensures |Code(r, f, m)| == 3
    ensures ParseInt(Code(r, f, m)) == Some(100 * r + 10 * f + m)
  {
    var a, b, c := Decimal(r), Decimal(f), Decimal(m);
    ValueConcat(a, b);
    ValueConcat(a + b, c);
  }

  /** Comparing three-digit numbers is comparing their digit triples lexicographically. */
  lemma ThreeDigitOrder(r: int, f: int, m: int, a: int, b: int, c: int)
    requires IsDigit(r) && IsDigit(f) && IsDigit(m) && IsDigit(a) && IsDigit(b) && IsDigit(c)
    ensures 100 * r + 10 * f + m >= 100 * a + 10 * b + c
        <==> r > a || (r == a && (f > b || (f == b && m >= c)))
  {
  }

  /** The four segments of the threshold rule set. */
  datatype Segment = Champions | Loyal | AtRisk | Lost {
    function Name(): string {
      match this
      case Champions => "champions"
      case Loyal => "loyal"
      case AtRisk => "at_risk"
      case Lost => "lost"
    }
  }

  /** The `if/elif` chain on the integer value of the code. */
  function ThresholdSegment(v: int): (s: Segment)
    ensures s == Champions <==> v >= 444
    ensures s == Loyal <==> 333 <= v < 444
    ensures s == AtRisk <==> 222 <= v < 333
    ensures s == Lost <==> v < 222
  {
    if v >= 444 then Champions
    else if v >= 333 then Loyal
    else if v >= 222 then AtRisk
    else Lost
  }

  /** `segment_customers(row)`: `None` where `int(code)` raises. */
  function SegmentOfCode(code: string): Option<Segment> {
    match ParseInt(code)
    case None => None
    case Some(v) => Some(ThresholdSegment(v))
  }

  /** At least `(t, t, t)` in the lexicographic order of rank triples. */
  predicate LexAtLeast(r: int, f: int, m: int, t: int) {
    r > t || (r == t && (f > t || (f == t && m >= t)))
  }

  /** With ranks in `1..4` the thresholds compare the rank triple lexicographically with
      `(4,4,4)`, `(3,3,3)` and `(2,2,2)`: only `444` is a champion, a customer with recency
      rank 4 is at least loyal, and one with recency rank 1 is always lost. */
  lemma SegmentOfRanks(r: int, f: int, m: int)
    requires 1 <= r <= 4 && 1 <= f <= 4 && 1 <= m <= 4
    ensures SegmentOfCode(Code(r, f, m)).Some?
    ensures SegmentOfCode(Code(r, f, m)).value == Champions <==> r == 4 && f == 4 && m == 4
    ensures SegmentOfCode(Code(r, f, m)).value == Loyal <==> LexAtLeast(r, f, m, 3) && !(r == 4 && f == 4 && m == 4)
    ensures SegmentOfCode(Code(r, f, m)).value == AtRisk <==> LexAtLeast(r, f, m, 2) && !LexAtLeast(r, f, m, 3)
    ensures SegmentOfCode(Code(r, f, m)).value == Lost <==> !LexAtLeast(r, f, m, 2)
    ensures r == 4 ==> SegmentOfCode(Code(r, f, m)).value in {Champions, Loyal}
    ensures r == 1 ==> SegmentOfCode(Code(r, f, m)).value == Lost
  {
    CodeValue(r, f, m);
    ThreeDigitOrder(r, f, m, 4, 4, 4);
    ThreeDigitOrder(r, f, m, 3, 3, 3);
    ThreeDigitOrder(r, f, m, 2, 2, 2);
  }

  /** Ranks of two or more digits make codes ambiguous: `(1, 11, 1)` and `(11, 1, 1)` both
      give `"1111"`. */
  lemma CodeCollision()
    ensures Code(1, 11, 1) == Code(11, 1, 1) == "1111"
  {
    assert Digits(11) == Digits(1) + [Digit(1)];
  }
}

=== FILE: dense.dfy ===
/** The fallback ranking: `rank(method='dense')` rescaled onto `1..K` with numpy's
    round-half-to-even, or the middle rank `(K + 1) // 2` when a metric has one value. */
module DenseRank {
  import opened Tally
  import opened Binning

  /** `Series.nunique()` */
  function NUnique(values: seq<real>): nat {
    |Distinct(values)|
  }

  lemma {:induction false} CountEqMember(s: seq<real>, x: real)
    requires x in s
    ensures CountEq(s, x) >= 1
  {
    var i :| 0 <= i < |s| && s[i] == x;
    CountEqPositive(s, i);
  }

  lemma {:induction false} CountEqUnique(s: seq<real>, x: real)
    requires NoDup(s) && x in s
    ensures CountEq(s, x) == 1
  {
    if s[0] == x {
      assert x !in s[1..] by {
        forall i | 0 <= i < |s[1..]| ensures s[1..][i] != x {
          assert s[1..][i] == s[i + 1];
        }
      }
      CountEqAbsent(s[1..], x);
    } else {
      assert x in s[1..] by {
        var i :| 0 <= i < |s| && s[i] == x;
        assert s[1..][i - 1] == x;
      }
      assert NoDup(s[1..]) by {
        forall i, j | 0 <= i < j < |s[1..]| ensures s[1..][i] != s[1..][j] {
          assert s[1..][i] == s[i + 1] && s[1..][j] == s[j + 1];
        }
      }
      CountEqUnique(s[1..], x);
    }
  }

  lemma {:induction false} CountEqAbsent(s: seq<real>, x: real)
    requires x !in s
    ensures CountEq(s, x) == 0
  {
    if s != [] {
      assert x !in s[1..];
      CountEqAbsent(s[1..], x);
    }
  }

  lemma {:induction false} CountLessNone(s: seq<real>, x: real)
    requires forall i :: 0 <= i < |s| ==> x <= s[i]
    ensures CountLess(s, x) == 0
  {
    if s != [] {
      assert forall i :: 0 <= i < |s[1..]| ==> s[1..][i] == s[i + 1];
      CountLessNone(s[1..], x);
    }
  }

  lemma {:induction false} CountGreaterNone(s: seq<real>, x: real)
    requires forall i :: 0 <= i < |s| ==> s[i] <= x
    ensures CountGreater(s, x) == 0
  {
    if s != [] {
      assert forall i :: 0 <= i < |s[1..]| ==> s[1..][i] == s[i + 1];
      CountGreaterNone(s[1..], x);
    }
  }

  /** `rank(ascending=ascending, method='dense')`: one more than the number of distinct
      values before `x` in the chosen order. */
  function Dense(values: seq<real>, x: real, ascending: bool): (d: nat)
    ensures x in values ==> 1 <= d <= NUnique(values)
  {
    var u := Distinct(values);
    MemberCounts(u, x);
    1 + (if ascending then CountLess(u, x) else CountGreater(u, x))
  }

  /** A member of `s` is not below itself, so fewer than `|s|` elements are below it. */
  lemma MemberCounts(s: seq<real>, x: real)
    ensures x in s ==> CountLess(s, x) < |s| && CountGreater(s, x) < |s|
  {
    if x in s {
      CountEqMember(s, x);
      CountSplit(s, x);
    }
  }

  /** Dense ranks order the values exactly: ascending ranks grow with the value, descending
      ranks shrink, so distinct values of the metric never share a rank. */
  lemma DenseOrder(values: seq<real>, x: real, y: real)
    requires x in values && y in values && x < y
    ensures Dense(values, x, true) < Dense(values, y, true)
    ensures Dense(values, y, false) < Dense(values, x, false)
  {
    var u := Distinct(values);
    CountEqMember(u, x);
    CountEqMember(u, y);
    CountLessMono(u, x, y);
    CountGreaterMono(u, x, y);
  }

  /** The smallest value has ascending dense rank 1 and descending dense rank `nunique`;
      the largest the other way round. */
  lemma DenseExtremes(values: seq<real>, x: real)
    requires x in values
    ensures (forall i :: 0 <= i < |values| ==> x <= values[i]) ==>
              Dense(values, x, true) == 1 && Dense(values, x, false) == NUnique(values)
    ensures (forall i :: 0 <= i < |values| ==> values[i] <= x) ==>
              Dense(values, x, false) == 1 && Dense(values, x, true) == NUnique(values)
  {
    var u := Distinct(values);
    assert x in u;
    CountEqUnique(u, x);
    CountSplit(u, x);
    if forall i :: 0 <= i < |values| ==> x <= values[i] {
      CountLessNone(u, x);
    }
    if forall i :: 0 <= i < |values| ==> values[i] <= x {
      CountGreaterNone(u, x);
    }
  }

  /** numpy's `round`: to the nearest integer, ties to the even one. */
  function RoundHalfEven(num: int, den: nat): (k: int)
    requires den >= 1
    ensures 2 * num - den <= 2 * k * den <= 2 * num + den
  {
    var q, r := num / den, num % den;
    assert num == q * den + r;
    assert (q + 1) * den == q * den + den;
    if 2 * r < den then q
    else if 2 * r > den then q + 1
    else if q % 2 == 0 then q else q + 1
  }

  /** Ties go to the even neighbour. */
  lemma RoundTiesEven(num: int, den: nat)
    requires den >= 1
    requires 2 * num - den == 2 * RoundHalfEven(num, den) * den || 2 * num + den == 2 * RoundHalfEven(num, den) * den
    ensures RoundHalfEven(num, den) % 2 == 0
  {
    var q, r := num / den, num % den;
    var k := RoundHalfEven(num, den);
    assert num == q * den + r;
    assert (q + 1) * den == q * den + den;
    if k == q {
      assert 2 * k * den == 2 * q * den;
    } else {
      assert 2 * k * den == 2 * q * den + 2 * den;
    }
    assert 2 * r == den;
  }

  /** Exact quotients are returned unchanged. */
  lemma RoundExact(k: int, den: nat)
    requires den >= 1
    ensures RoundHalfEven(k * den, den) == k
  {
    var num := k * den;
    var q, r := num / den, num % den;
    assert num == q * den + r;
    assert (k - q) * den == r;
    if k - q >= 1 {
      MulLe(1, k - q, den);
    } else if k - q <= -1 {
      MulLe(k - q, -1, den);
    }
  }

  lemma RoundMono(num1: int, num2: int, den: nat)
    requires den >= 1 && num1 <= num2
    ensures RoundHalfEven(num1, den) <= RoundHalfEven(num2, den)
  {
    var q1, q2 := num1 / den, num2 / den;
    assert num1 == q1 * den + num1 % den;
    assert num2 == q2 * den + num2 % den;
    assert (q2 + 1) * den == q2 * den + den;
    MulLtCancel(q1, q2 + 1, den);
    if q1 == q2 {
      assert num1 % den <= num2 % den;
    }
  }

  /** `round((d - 1) / (dmax - 1) * (K - 1) + 1)` over exact rationals. */
  function Rescale(d: nat, dmax: nat, k: nat): int
    requires 1 <= d <= dmax && dmax >= 2 && k >= 1
  {
    RoundHalfEven((d - 1) * (k - 1) + (dmax - 1), dmax - 1)
  }

  /** The rescaled rank stays in `1..K`, sends rank 1 to 1 and the top rank to `K`, and keeps
      the order of the dense ranks. */
  lemma RescaleShape(d: nat, e: nat, dmax: nat, k: nat)
    requires 1 <= d <= e <= dmax && dmax >= 2 && k >= 1
    ensures Rescale(1, dmax, k) == 1 && Rescale(dmax, dmax, k) == k
    ensures 1 <= Rescale(d, dmax, k) <= Rescale(e, dmax, k) <= k
  {
    RoundExact(1, dmax - 1);
    assert (dmax - 1) * (k - 1) + (dmax - 1) == k * (dmax - 1);
    RoundExact(k, dmax - 1);
    MulLe(0, d - 1, k - 1);
    MulLe(d - 1, e - 1, k - 1);
    MulLe(e - 1, dmax - 1, k - 1);
    RoundMono(dmax - 1, (d - 1) * (k - 1) + (dmax - 1), dmax - 1);
    RoundMono((d - 1) * (k - 1) + (dmax - 1), (e - 1) * (k - 1) + (dmax - 1), dmax - 1);
    RoundMono((e - 1) * (k - 1) + (dmax - 1), (dmax - 1) * (k - 1) + (dmax - 1), dmax - 1);
  }

  /** The rank every value gets from the fallback. */
  function FallbackRank(values: seq<real>, x: real, k: nat, ascending: bool): (r: int)
    requires k >= 1 && x in values
    ensures 1 <= r <= k
  {
    if NUnique(values) <= 1 then (k + 1) / 2
    else
      var d := Dense(values, x, ascending);
      RescaleShape(d, d, NUnique(values), k);
      Rescale(d, NUnique(values), k)
  }

  /** The fallback ranks of a whole metric column. */
  function Fallback(values: seq<real>, k: nat, ascending: bool): (r: seq<int>)
    requires k >= 1
    ensures |r| == |values|
    ensures forall i :: 0 <= i < |values| ==> r[i] == FallbackRank(values, values[i], k, ascending) && 1 <= r[i] <= k
  {
    seq(|values|, i requires 0 <= i < |values| => FallbackRank(values, values[i], k, ascending))
  }

  lemma ConstantNoDup(s: seq<real>, c: real)
    requires NoDup(s) && forall m :: 0 <= m < |s| ==> s[m] == c
    ensures |s| <= 1
  {
    ConstantMultiplicity(s, c);
    NoDupBound(s);
  }

  lemma {:induction false} ConstantMultiplicity(s: seq<real>, c: real)
    requires forall m :: 0 <= m < |s| ==> s[m] == c
    ensures multiset(s)[c] == |s|
  {
    if s != [] {
      assert s == [s[0]] + s[1..];
      ConstantMultiplicity(s[1..], c);
    }
  }

  /** One distinct value: every customer gets the middle rank. */
  lemma FallbackConstant(values: seq<real>, k: nat, i: nat)
    requires k >= 1 && i < |values|
    requires forall j :: 0 <= j < |values| ==> values[j] == values[0]
    ensures Fallback(values, k, true)[i] == (k + 1) / 2 && Fallback(values, k, false)[i] == (k + 1) / 2
  {
    var u := Distinct(values);
    assert forall m :: 0 <= m < |u| ==> u[m] == values[0];
    ConstantNoDup(u, values[0]);
  }

  /** The fallback respects the order of the metric: ascending ranks grow with the value,
      descending ranks shrink. */
  lemma FallbackOrder(values: seq<real>, k: nat, i: nat, j: nat)
    requires k >= 1 && i < |values| && j < |values| && values[i] <= values[j]
    ensures Fallback(values, k, true)[i] <= Fallback(values, k, true)[j]
    ensures Fallback(values, k, false)[j] <= Fallback(values, k, false)[i]
  {
    if NUnique(values) >= 2 && values[i] < values[j] {
      var n := NUnique(values);
      DenseOrder(values, values[i], values[j]);
      var a, b := Dense(values, values[i], true), Dense(values, values[j], true);
      RescaleShape(a, b, n, k);
      var c, d := Dense(values, values[j], false), Dense(values, values[i], false);
      RescaleShape(c, d, n, k);
    }
  }

  /** With two or more distinct values the ascending fallback sends the smallest value to 1
      and the largest to `K`; the descending one the other way round. */
  lemma FallbackExtremes(values: seq<real>, k: nat, i: nat)
    requires k >= 1 && i < |values| && NUnique(values) >= 2
    ensures (forall j :: 0 <= j < |values| ==> values[i] <= values[j]) ==>
              Fallback(values, k, true)[i] == 1 && Fallback(values, k, false)[i] == k
    ensures (forall j :: 0 <= j < |values| ==> values[j] <= values[i]) ==>
              Fallback(values, k, false)[i] == 1 && Fallback(values, k, true)[i] == k
  {
    DenseExtremes(values, values[i]);
    RescaleShape(1, NUnique(values), NUnique(values), k);
  }
}

=== FILE: distribution.dfy ===
/** Per-segment counts and percentages: `groupby(label).size()` and `value_counts()` with
    `count / total * 100`. */
module Distribution {
  import opened Tally

  datatype Entry<S> = Entry(segment: S, count: nat, percentage: real)

  /** The labels of `order` that occur in `labels`, each with its number of occurrences. */
  function Counts<S(==)>(labels: seq<S>, order: seq<S>): (t: seq<(S, nat)>)
    ensures |t| <= |order|
    ensures forall i :: 0 <= i < |t| ==> t[i].0 in order && t[i].1 == Count(labels, Itself, t[i].0) && t[i].1 >= 1
    ensures forall j :: 0 <= j < |order| && Count(labels, Itself, order[j]) >= 1 ==>
              (order[j], Count(labels, Itself, order[j])) in t
  {
    if order == [] then []
    else
      var c := Count(labels, Itself, order[0]);
      var rest := Counts(labels, order[1..]);
      assert forall j :: 1 <= j < |order| ==> order[j] == order[1..][j - 1];
      if c >= 1 then [(order[0], c)] + rest else rest
  }

  function CountSum<S>(t: seq<(S, nat)>): nat {
    if t == [] then 0 else t[0].1 + CountSum(t[1..])
  }

  lemma {:induction false} CountsAddUp<S>(labels: seq<S>, order: seq<S>)
    ensures CountSum(Counts(labels, order)) == CountAll(labels, Itself, order)
  {
    if order != [] {
      CountsAddUp(labels, order[1..]);
      var rest := Counts(labels, order[1..]);
      if Count(labels, Itself, order[0]) >= 1 {
        assert ([(order[0], Count(labels, Itself, order[0]))] + rest)[1..] == rest;
      }
    }
  }

  /** When every label is listed once in `order`, the counts add up to the number of labels. */
  lemma CountsCover<S>(labels: seq<S>, order: seq<S>)
    requires NoDup(order)
    requires forall i :: 0 <= i < |labels| ==> labels[i] in order
    ensures CountSum(Counts(labels, order)) == |labels|
  {
    CountsAddUp(labels, order);
    CountAllPartition(labels, Itself, order);
  }

  function EntryCount<S>(e: Entry<S>): real { e.count as real }
  function EntryShare<S>(e: Entry<S>): real { e.percentage }

  /** `count / total * 100` for every counted label. */
  function Shares<S>(t: seq<(S, nat)>, total: nat): (d: seq<Entry<S>>)
    requires total >= 1
    ensures |d| == |t|
    ensures forall i :: 0 <= i < |t| ==> d[i] == Entry(t[i].0, t[i].1, t[i].1 as real / total as real * 100.0)
  {
    seq(|t|, i requires 0 <= i < |t| => Entry(t[i].0, t[i].1, t[i].1 as real / total as real * 100.0))
  }

  lemma {:induction false} EntryCounts<S>(t: seq<(S, nat)>, total: nat)
    requires total >= 1
    ensures Sum(Shares(t, total), EntryCount) == CountSum(t) as real
  {
    if t != [] {
      EntryCounts(t[1..], total);
      assert Shares(t, total)[1..] == Shares(t[1..], total);
    }
  }

  /** Percentages of counts that cover all `total` items add up to 100. */
  lemma SharesAddUp<S>(t: seq<(S, nat)>, total: nat)
    requires total >= 1 && CountSum(t) == total
    ensures Sum(Shares(t, total), EntryShare) == 100.0
  {
    var d := Shares(t, total);
    var n := total as real;
    forall i | 0 <= i < |d| ensures EntryShare(d[i]) == EntryCount(d[i]) / n * 100.0 {
      assert d[i] == Entry(t[i].0, t[i].1, t[i].1 as real / n * 100.0);
    }
    ShareSum(d, EntryCount, EntryShare, n);
    EntryCounts(t, total);
    assert Sum(d, EntryCount) == n;
    WholeOver(n);
  }

  lemma WholeOver(n: real)
    requires n > 0.0
    ensures n / n * 100.0 == 100.0
  { }
}

=== FILE: firstrank.dfy ===
/** `Series.rank(method='first')`: ties are broken by position, so the ranks are a
    permutation of `1..n`. Ranking before `qcut` is what makes quantile binning of a
    metric with repeated values succeed. */
module FirstRank {
  import opened Tally
  import opened Binning

  /** One more than the number of smaller values, plus the number of equal values
      earlier in the series. */
  function Rank(xs: seq<real>, i: nat): (r: nat)
    requires i < |xs|
    ensures 1 <= r <= |xs|
  {
    EqualBefore(xs, i);
    CountSplit(xs, xs[i]);
    1 + CountLess(xs, xs[i]) + CountEq(xs[..i], xs[i])
  }

  /** The copies of `xs[i]` before position `i` are fewer than all its copies. */
  lemma EqualBefore(xs: seq<real>, i: nat)
    requires i < |xs|
    ensures CountEq(xs[..i], xs[i]) + 1 <= CountEq(xs, xs[i])
  {
    assert xs == xs[..i] + xs[i..];
    CountConcat(xs[..i], xs[i..], xs[i]);
    CountEqPositive(xs[i..], 0);
  }

  function FirstRanks(xs: seq<real>): (r: seq<real>)
    ensures |r| == |xs|
  {
    seq(|xs|, i requires 0 <= i < |xs| => Rank(xs, i) as real)
  }

  /** Ranks follow the order by value, then by position. */
  lemma RankOrder(xs: seq<real>, i: nat, j: nat)
    requires i < |xs| && j < |xs|
    requires xs[i] < xs[j] || (xs[i] == xs[j] && i < j)
    ensures Rank(xs, i) < Rank(xs, j)
  {
    if xs[i] == xs[j] {
      assert xs[..j] == xs[..i] + xs[i..j];
      CountConcat(xs[..i], xs[i..j], xs[i]);
      assert xs[i..j][0] == xs[i];
      CountEqPositive(xs[i..j], 0);
    } else {
      CountLessMono(xs, xs[i], xs[j]);
      EqualBefore(xs, i);
    }
  }

  /** No two positions share a rank. */
  lemma FirstRanksDistinct(xs: seq<real>)
    ensures NoDup(FirstRanks(xs))
  {
    var r := FirstRanks(xs);
    forall i, j | 0 <= i < j < |r| ensures r[i] != r[j] {
      if xs[i] <= xs[j] {
        RankOrder(xs, i, j);
      } else {
        RankOrder(xs, j, i);
      }
    }
  }

  predicate Integral(x: real) {
    x.Floor as real == x
  }

  lemma IntegralStep(a: real, b: real)
    requires Integral(a) && Integral(b) && a < b
    ensures a + 1.0 <= b
  {
    assert a.Floor < b.Floor;
  }

  lemma {:induction false} StepsFromBelow(t: seq<real>, k: nat)
    requires k < |t| && t[0] >= 1.0
    requires forall m :: 0 <= m < |t| - 1 ==> t[m] + 1.0 <= t[m + 1]
    ensures t[k] >= (k + 1) as real
  {
    if k > 0 {
      StepsFromBelow(t, k - 1);
    }
  }

  lemma {:induction false} StepsFromAbove(t: seq<real>, k: nat)
    requires k < |t| && t[|t| - 1] <= |t| as real
    requires forall m :: 0 <= m < |t| - 1 ==> t[m] + 1.0 <= t[m + 1]
    ensures t[k] <= (k + 1) as real
    decreases |t| - k
  {
    if k < |t| - 1 {
      StepsFromAbove(t, k + 1);
    }
  }

  /** `n` distinct sorted whole numbers between `1` and `n` are `1, 2, ..., n`. */
  lemma SortedWholeNumbers(t: seq<real>)
    requires NoDup(t) && NonDecreasing(t)
    requires forall k :: 0 <= k < |t| ==> Integral(t[k]) && 1.0 <= t[k] <= |t| as real
    ensures forall k :: 0 <= k < |t| ==> t[k] == (k + 1) as real
  {
    forall m | 0 <= m < |t| - 1 ensures t[m] + 1.0 <= t[m + 1] {
      IntegralStep(t[m], t[m + 1]);
    }
    forall k | 0 <= k < |t| ensures t[k] == (k + 1) as real {
      StepsFromBelow(t, k);
      StepsFromAbove(t, k);
    }
  }

  lemma FirstRanksWhole(xs: seq<real>)
    ensures forall k :: 0 <= k < |xs| ==> Integral(FirstRanks(xs)[k]) && 1.0 <= FirstRanks(xs)[k] <= |xs| as real
  {
    forall k | 0 <= k < |xs| ensures Integral(FirstRanks(xs)[k]) && 1.0 <= FirstRanks(xs)[k] <= |xs| as real {
      var m := Rank(xs, k);
      assert (m as real).Floor == m;
    }
  }

  /** A property of every element survives a permutation. */
  lemma PermutedWhole(r: seq<real>, t: seq<real>)
    requires multiset(r) == multiset(t) && |r| == |t|
    requires forall k :: 0 <= k < |r| ==> Integral(r[k]) && 1.0 <= r[k] <= |r| as real
    ensures forall k :: 0 <= k < |t| ==> Integral(t[k]) && 1.0 <= t[k] <= |t| as real
  {
    forall k | 0 <= k < |t| ensures Integral(t[k]) && 1.0 <= t[k] <= |t| as real {
      assert t[k] in multiset(r);
      var m :| 0 <= m < |r| && r[m] == t[k];
    }
  }

  /** Sorting the first-ranks of `n` values gives exactly `1, 2, ..., n`. */
  lemma SortedFirstRanks(xs: seq<real>)
    ensures forall k :: 0 <= k < |xs| ==> Ascending(FirstRanks(xs))[k] == (k + 1) as real
  {
    var r := FirstRanks(xs);
    var t := Ascending(r);
    FirstRanksDistinct(xs);
    NoDupPermutation(r, t);
    FirstRanksWhole(xs);
    PermutedWhole(r, t);
    SortedWholeNumbers(t);
  }

  function Ratio(a: int, q: nat): real
    requires q >= 1
  {
    a as real / q as real
  }

  lemma RealQuotient(num: nat, lo: nat, rem: nat, q: nat)
    requires q >= 1 && num == lo * q + rem
    ensures Ratio(num, q) == lo as real + rem as real / q as real
  {
    assert (lo * q) as real == lo as real * q as real;
    assert num as real == lo as real * q as real + rem as real;
    assert (lo as real * q as real) / q as real == lo as real;
  }

  /** Interpolating in `1, 2, ..., n` at the virtual index `num / q` gives `1 + num / q`. */
  lemma InterpWhole(t: seq<real>, num: nat, q: nat)
    requires |t| >= 1 && q >= 1 && num <= (|t| - 1) * q
    requires forall k :: 0 <= k < |t| ==> t[k] == (k + 1) as real
    ensures Interp(t, num, q) == 1.0 + Ratio(num, q)
  {
    DivBound(num, q, |t| - 1);
    var lo, rem := num / q, num % q;
    RealQuotient(num, lo, rem, q);
    if rem != 0 {
      assert t[lo + 1] - t[lo] == 1.0;
    }
  }

  lemma WholeQuantile(t: seq<real>, q: nat, i: nat)
    requires |t| >= 1 && q >= 1 && i <= q
    requires forall k :: 0 <= k < |t| ==> t[k] == (k + 1) as real
    ensures Quantile(t, i, q) == 1.0 + Ratio((|t| - 1) * i, q)
  {
    MulLe(i, q, |t| - 1);
    InterpWhole(t, (|t| - 1) * i, q);
  }

  /** The quantile edges of first-ranks are `1 + (n-1) i / q`. */
  lemma FirstRankEdges(xs: seq<real>, q: nat, i: nat)
    requires xs != [] && q >= 1 && i <= q
    ensures QuantileEdges(FirstRanks(xs), q)[i] == 1.0 + Ratio((|xs| - 1) * i, q)
  {
    SortedFirstRanks(xs);
    WholeEdges(FirstRanks(xs), q, i);
  }

  /** The quantile edges of values that sort to `1, 2, ..., n`. */
  lemma WholeEdges(r: seq<real>, q: nat, i: nat)
    requires r != [] && q >= 1 && i <= q
    requires forall k :: 0 <= k < |r| ==> Ascending(r)[k] == (k + 1) as real
    ensures QuantileEdges(r, q)[i] == 1.0 + Ratio((|r| - 1) * i, q)
  {
    var t := Ascending(r);
    assert QuantileEdges(r, q) == Edges(t, q);
    WholeQuantile(t, q, i);
  }

  lemma MulStrict(a: nat, i: nat, j: nat)
    requires a >= 1 && i < j
    ensures a * i < a * j
  {
  }

  lemma QuotientLess(a: int, b: int, q: nat)
    requires q >= 1 && a < b
    ensures Ratio(a, q) < Ratio(b, q)
  {
  }

  /** Two or more values give strictly increasing, hence distinct, edges. */
  lemma FirstRankEdgesDistinct(xs: seq<real>, q: nat)
    requires |xs| >= 2 && q >= 1
    ensures NoDup(QuantileEdges(FirstRanks(xs), q))
  {
    var e := QuantileEdges(FirstRanks(xs), q);
    var a := |xs| - 1;
    forall i, j | 0 <= i < j <= q ensures e[i] != e[j] {
      FirstRankEdges(xs, q, i);
      FirstRankEdges(xs, q, j);
      RatioStrict(a, i, j, q);
    }
  }

  lemma RatioStrict(a: nat, i: nat, j: nat, q: nat)
    requires a >= 1 && i < j && q >= 1
    ensures Ratio(a * i, q) < Ratio(a * j, q)
  {
    MulStrict(a, i, j);
    QuotientLess(a * i, a * j, q);
  }

  /** With two or more bins, `qcut` of first-ranks succeeds exactly when there are at least
      two values; with one bin it always succeeds. */
  lemma QCutFirstRanks(xs: seq<real>, q: nat)
    requires q >= 1
    ensures QCutBins(FirstRanks(xs), q).Ok? <==> (q == 1 || |xs| >= 2)
  {
    if |xs| >= 2 {
      FirstRankEdgesDistinct(xs, q);
    } else if |xs| == 1 && q >= 2 {
      FirstRankEdges(xs, q, 0);
      FirstRankEdges(xs, q, 1);
      assert QuantileEdges(FirstRanks(xs), q)[0] == QuantileEdges(FirstRanks(xs), q)[1];
    }
  }
}

=== FILE: frame.dfy ===
/** The tabular input shared by every variant: named columns of cells, the failures the
    source raises, and the order pandas uses for group keys. */
module Frame {
  import opened Wrappers
  import opened Sorting

  /** One value of a data frame: missing (NaN/None/NaT), a number, or text. */
  datatype Cell = Null | Num(number: real) | Text(text: string)

  /** A data frame: column names and rows of cells, one cell per column. */
  datatype Table = Table(columns: seq<string>, rows: seq<seq<Cell>>)

  /** What the source raises, by kind. */
  datatype Failure =
    | MissingColumns(names: seq<string>)    // ValueError naming the missing columns, in order
    | MissingColumnSet(absent: set<string>)  // ValueError naming a set difference of columns
    | MissingKey(name: string)              // KeyError: indexing a column that is absent
    | NullValues                            // ValueError: a required column holds a null
    | NotNumeric(column: string)            // ValueError: the amount column is not numeric
    | NotComparable(column: string)         // TypeError: text compared with or added to numbers
    | DateUnparseable(column: string)       // the date conversion raised
    | EdgesNotUnique                        // qcut/cut: bin edges must be unique
    | EdgesNotMonotonic                     // cut: bins must increase monotonically
    | UnsupportedRankingMethod(name: string)
    | ZeroDivision
    | ColumnCountMismatch                   // ValueError: more column names assigned than columns
    | EmptyApply                            // ValueError: a row-wise apply over no rows fills one column with a frame
    | FieldsOutOfRange(fields: seq<string>) // model validation error, one entry per bad field

  predicate WellFormed(t: Table) {
    forall r :: r in t.rows ==> |r| == |t.columns|
  }

  /** Position of the first column named `c`. */
  function IndexOf(cols: seq<string>, c: string): (i: nat)
    requires c in cols
    ensures i < |cols| && cols[i] == c && c !in cols[..i]
  {
    if cols[0] == c then 0
    else
      assert cols == [cols[0]] + cols[1..];
      var j := IndexOf(cols[1..], c);
      assert cols[..j + 1] == [cols[0]] + cols[1..][..j];
      j + 1
  }

  /** The cells of column `c`, one per row. */
  function Column(t: Table, c: string): (cells: seq<Cell>)
    requires WellFormed(t) && c in t.columns
    ensures |cells| == |t.rows|
    ensures forall i :: 0 <= i < |t.rows| ==> cells[i] == t.rows[i][IndexOf(t.columns, c)]
  {
    var k := IndexOf(t.columns, c);
    seq(|t.rows|, i requires 0 <= i < |t.rows| => assert t.rows[i] in t.rows; t.rows[i][k])
  }

  /** `[col for col in required if col not in columns]`. */
  function Missing(required: seq<string>, columns: seq<string>): (m: seq<string>)
    ensures forall x :: x in m <==> x in required && x !in columns
    ensures |m| <= |required|
  {
    if required == [] then []
    else if required[0] in columns then Missing(required[1..], columns)
    else [required[0]] + Missing(required[1..], columns)
  }

  /** No cell of column `c` (when present) is null. */
  predicate NullFree(t: Table, c: string)
    requires WellFormed(t)
  {
    c in t.columns ==> forall cell :: cell in Column(t, c) ==> cell != Null
  }

  predicate AllNumbers(cells: seq<Cell>) {
    forall cell :: cell in cells ==> cell.Num?
  }

  function Numbers(cells: seq<Cell>): (xs: seq<real>)
    requires AllNumbers(cells)
    ensures |xs| == |cells| && forall i :: 0 <= i < |cells| ==> cells[i] == Num(xs[i])
  {
    if cells == [] then []
    else
      assert cells[0] in cells;
      assert forall c :: c in cells[1..] ==> c in cells;
      [cells[0].number] + Numbers(cells[1..])
  }

  /** `pd.to_datetime` applied to a column, with the cell-level conversion as a parameter:
      it raises as soon as one cell does not convert. */
  function Days(cells: seq<Cell>, toDay: Cell -> Option<int>, column: string): (r: Result<seq<int>, Failure>)
    ensures r.Ok? <==> forall i :: 0 <= i < |cells| ==> toDay(cells[i]).Some?
    ensures r.Ok? ==> |r.value| == |cells| && forall i :: 0 <= i < |cells| ==> toDay(cells[i]) == Some(r.value[i])
    ensures r.Err? ==> r.error == DateUnparseable(column)
  {
    if cells == [] then Ok([])
    else
      match toDay(cells[0])
      case None => Err(DateUnparseable(column))
      case Some(d) =>
        match Days(cells[1..], toDay, column)
        case Err(e) => Err(e)
        case Ok(rest) =>
          assert forall i :: 1 <= i < |cells| ==> cells[i] == cells[1..][i - 1];
          Ok([d] + rest)
  }

  /** Python/pandas string order: code point by code point, a prefix first. */
  predicate TextLeq(s: string, t: string) {
    if s == [] then true
    else if t == [] then false
    else if s[0] != t[0] then s[0] < t[0]
    else TextLeq(s[1..], t[1..])
  }

  /** The order of group keys: numbers before text (pandas sorts mixed keys that way),
      numbers by value, text by code points. pandas drops null keys; the analyses that group
      require key columns without nulls, and a null here is merely ordered first. */
  predicate KeyLeq(a: Cell, b: Cell) {
    match (a, b)
    case (Null, _) => true
    case (_, Null) => false
    case (Num(x), Num(y)) => x <= y
    case (Num(_), Text(_)) => true
    case (Text(_), Num(_)) => false
    case (Text(s), Text(t)) => TextLeq(s, t)
  }

  lemma {:induction false} TextLeqTotal(s: string, t: string)
    ensures TextLeq(s, t) || TextLeq(t, s)
  {
    if s != [] && t != [] && s[0] == t[0] {
      TextLeqTotal(s[1..], t[1..]);
    }
  }

  lemma {:induction false} TextLeqTransitive(s: string, t: string, u: string)
    requires TextLeq(s, t) && TextLeq(t, u)
    ensures TextLeq(s, u)
  {
    if s != [] && t != [] && u != [] && s[0] == t[0] && t[0] == u[0] {
      TextLeqTransitive(s[1..], t[1..], u[1..]);
    }
  }

  lemma KeyLeqIsTotalPreorder()
    ensures TotalPreorder(KeyLeq)
  {
    forall a, b ensures KeyLeq(a, b) || KeyLeq(b, a) {
      if a.Text? && b.Text? {
        TextLeqTotal(a.text, b.text);
      }
    }
    forall a, b, c | KeyLeq(a, b) && KeyLeq(b, c) ensures KeyLeq(a, c) {
      if a.Text? && b.Text? && c.Text? {
        TextLeqTransitive(a.text, b.text, c.text);
      }
    }
  }
}

=== FILE: metrics.dfy ===
/** Metric extraction: `groupby(customer)` over transactions, giving one row per distinct
    customer, in sorted key order, with the last purchase day, the purchase count and the
    amount sum. */
module Metrics {
  import opened Wrappers
  import opened Tally
  import opened Sorting
  import opened Frame

  /** One purchase: who, on which day number, for how much. */
  datatype Txn = Txn(customer: Cell, day: int, amount: real)

  /** One row of the grouped table. */
  datatype CustomerStats = CustomerStats(customer: Cell, lastDay: int, frequency: nat, monetary: real)

  function CustomerOf(t: Txn): Cell { t.customer }
  function AmountOf(t: Txn): real { t.amount }
  function FrequencyOf(s: CustomerStats): real { s.frequency as real }
  function MonetaryOf(s: CustomerStats): real { s.monetary }

  /** Zips three equally long columns into transactions. */
  function Zip(customers: seq<Cell>, days: seq<int>, amounts: seq<real>): (txns: seq<Txn>)
    requires |customers| == |days| == |amounts|
    ensures |txns| == |customers|
    ensures forall i :: 0 <= i < |txns| ==> txns[i] == Txn(customers[i], days[i], amounts[i])
  {
    seq(|customers|, i requires 0 <= i < |customers| => Txn(customers[i], days[i], amounts[i]))
  }

  function CustomersOf(txns: seq<Txn>): (cs: seq<Cell>)
    ensures |cs| == |txns| && forall i :: 0 <= i < |txns| ==> cs[i] == txns[i].customer
  {
    seq(|txns|, i requires 0 <= i < |txns| => txns[i].customer)
  }

  /** The group keys: each customer once, in pandas' sorted key order. */
  function Keys(txns: seq<Txn>): (ks: seq<Cell>)
    ensures NoDup(ks) && SortedBy(ks, KeyLeq)
    ensures forall i :: 0 <= i < |txns| ==> txns[i].customer in ks
    ensures forall k :: k in ks ==> k in CustomersOf(txns)
    ensures |ks| <= |txns|
  {
    KeyLeqIsTotalPreorder();
    var d := Distinct(CustomersOf(txns));
    var s := Sort(d, KeyLeq);
    NoDupPermutation(d, s);
    assert forall k :: k in s <==> k in d by {
      forall k ensures k in s <==> k in d {
        assert k in s <==> k in multiset(s);
        assert k in d <==> k in multiset(d);
      }
    }
    s
  }

  /** Day of the customer's latest purchase: `x.max()` over the customer's dates. */
  function LastDay(txns: seq<Txn>, k: Cell): (d: int)
    requires k in CustomersOf(txns)
    ensures forall i :: 0 <= i < |txns| && txns[i].customer == k ==> txns[i].day <= d
    ensures exists i :: 0 <= i < |txns| && txns[i].customer == k && txns[i].day == d
  {
    var rest := txns[1..];
    assert forall i :: 1 <= i < |txns| ==> txns[i] == rest[i - 1];
    if txns[0].customer == k then
      if k in CustomersOf(rest) then
        var later := LastDay(rest, k);
        if txns[0].day >= later then txns[0].day else later
      else
        txns[0].day
    else
      assert k in CustomersOf(rest) by {
        var j :| 0 <= j < |txns| && CustomersOf(txns)[j] == k;
        assert CustomersOf(rest)[j - 1] == k;
      }
      LastDay(rest, k)
  }

  /** Latest day in the whole data set: `df['order_date'].max()`. */
  function MaxDay(txns: seq<Txn>): (d: int)
    requires txns != []
    ensures forall i :: 0 <= i < |txns| ==> txns[i].day <= d
    ensures exists i :: 0 <= i < |txns| && txns[i].day == d
  {
    if |txns| == 1 then txns[0].day
    else
      var rest := MaxDay(txns[1..]);
      assert forall i :: 1 <= i < |txns| ==> txns[i] == txns[1..][i - 1];
      if txns[0].day >= rest then txns[0].day else rest
  }

  function StatsOf(txns: seq<Txn>, k: Cell): CustomerStats
    requires k in CustomersOf(txns)
  {
    CustomerStats(k, LastDay(txns, k), Count(txns, CustomerOf, k), Total(txns, CustomerOf, AmountOf, k))
  }

  function StatsFor(txns: seq<Txn>, ks: seq<Cell>): (stats: seq<CustomerStats>)
    requires forall k :: k in ks ==> k in CustomersOf(txns)
    ensures |stats| == |ks|
    ensures forall i :: 0 <= i < |ks| ==> stats[i] == StatsOf(txns, ks[i])
  {
    if ks == [] then [] else [StatsOf(txns, ks[0])] + StatsFor(txns, ks[1..])
  }

  /** The grouped table: one row per distinct customer, in sorted key order. */
  function Aggregate(txns: seq<Txn>): (stats: seq<CustomerStats>)
    ensures |stats| == |Keys(txns)|
    ensures forall i :: 0 <= i < |stats| ==> stats[i] == StatsOf(txns, Keys(txns)[i])
  {
    StatsFor(txns, Keys(txns))
  }

  lemma {:induction false} StatsForSums(txns: seq<Txn>, ks: seq<Cell>)
    requires forall k :: k in ks ==> k in CustomersOf(txns)
    ensures Sum(StatsFor(txns, ks), FrequencyOf) == CountAll(txns, CustomerOf, ks) as real
    ensures Sum(StatsFor(txns, ks), MonetaryOf) == TotalAll(txns, CustomerOf, AmountOf, ks)
  {
    if ks != [] {
      StatsForSums(txns, ks[1..]);
      assert StatsFor(txns, ks)[1..] == StatsFor(txns, ks[1..]);
    }
  }

  /** Grouping keeps every purchase: each row describes one customer who bought at least
      once, frequencies add up to the number of purchases, and the monetary values add up to
      the total amount. */
  lemma AggregateConserves(txns: seq<Txn>)
    ensures |Aggregate(txns)| <= |txns|
    ensures txns != [] ==> Aggregate(txns) != []
    ensures forall i :: 0 <= i < |Aggregate(txns)| ==> Aggregate(txns)[i].frequency >= 1
    ensures Sum(Aggregate(txns), FrequencyOf) == |txns| as real
    ensures Sum(Aggregate(txns), MonetaryOf) == Sum(txns, AmountOf)
  {
    AggregateFrequencySum(txns);
    AggregateMonetarySum(txns);
    AggregatePositive(txns);
    if txns != [] {
      assert txns[0].customer in Keys(txns);
    }
  }

  lemma AggregateFrequencySum(txns: seq<Txn>)
    ensures Sum(Aggregate(txns), FrequencyOf) == |txns| as real
  {
    var ks := Keys(txns);
    StatsForSums(txns, ks);
    CountAllPartition(txns, CustomerOf, ks);
  }

  lemma AggregateMonetarySum(txns: seq<Txn>)
    ensures Sum(Aggregate(txns), MonetaryOf) == Sum(txns, AmountOf)
  {
    var ks := Keys(txns);
    StatsForSums(txns, ks);
    TotalAllPartition(txns, CustomerOf, AmountOf, ks);
  }

  lemma AggregatePositive(txns: seq<Txn>)
    ensures forall i :: 0 <= i < |Aggregate(txns)| ==> Aggregate(txns)[i].frequency >= 1
  {
    var ks := Keys(txns);
    forall i | 0 <= i < |ks| ensures Aggregate(txns)[i].frequency >= 1 {
      CountPositive(txns, ks[i]);
    }
  }

  lemma {:induction false} CountPositive(txns: seq<Txn>, k: Cell)
    requires k in CustomersOf(txns)
    ensures Count(txns, CustomerOf, k) >= 1
  {
    if txns[0].customer != k {
      var j :| 0 <= j < |txns| && CustomersOf(txns)[j] == k;
      assert CustomersOf(txns[1..])[j - 1] == k;
      CountPositive(txns[1..], k);
    }
  }

  /** One transaction per row, from the date, customer and amount columns; the date column
      goes through `pd.to_datetime`, given here as `toDay`. */
  function Transactions(t: Table, date: string, customer: string, amount: string, toDay: Cell -> Option<int>): (r: Result<seq<Txn>, Failure>)
    requires WellFormed(t) && date in t.columns && customer in t.columns && amount in t.columns
    requires AllNumbers(Column(t, amount))
    ensures r.Ok? <==> forall i :: 0 <= i < |t.rows| ==> toDay(Column(t, date)[i]).Some?
    ensures r.Err? ==> r.error == DateUnparseable(date)
    ensures r.Ok? ==> |r.value| == |t.rows|
    ensures r.Ok? ==> forall i :: 0 <= i < |t.rows| ==>
              r.value[i].customer == Column(t, customer)[i] && toDay(Column(t, date)[i]) == Some(r.value[i].day)
              && Column(t, amount)[i] == Num(r.value[i].amount)
  {
    var days :- Days(Column(t, date), toDay, date);
    Ok(Zip(Column(t, customer), days, Numbers(Column(t, amount))))
  }

  /** A null-free key column gives purchases without a null customer. */
  lemma KeyedTransactions(t: Table, date: string, customer: string, amount: string, toDay: Cell -> Option<int>)
    requires WellFormed(t) && date in t.columns && customer in t.columns && amount in t.columns
    requires AllNumbers(Column(t, amount)) && NullFree(t, customer)
    requires Transactions(t, date, customer, amount, toDay).Ok?
    ensures forall i :: 0 <= i < |Transactions(t, date, customer, amount, toDay).value| ==>
              Transactions(t, date, customer, amount, toDay).value[i].customer != Null
  {
    var txns := Transactions(t, date, customer, amount, toDay).value;
    forall i | 0 <= i < |txns| ensures txns[i].customer != Null {
      assert txns[i].customer == Column(t, customer)[i];
      assert Column(t, customer)[i] in Column(t, customer);
    }
  }

  /** Days from `now` back to each customer's last purchase. */
  function Recencies(stats: seq<CustomerStats>, now: int): (xs: seq<real>)
    ensures |xs| == |stats| && forall i :: 0 <= i < |stats| ==> xs[i] == (now - stats[i].lastDay) as real
  {
    seq(|stats|, i requires 0 <= i < |stats| => (now - stats[i].lastDay) as real)
  }

  function Frequencies(stats: seq<CustomerStats>): (xs: seq<real>)
    ensures |xs| == |stats| && forall i :: 0 <= i < |stats| ==> xs[i] == stats[i].frequency as real
  {
    seq(|stats|, i requires 0 <= i < |stats| => stats[i].frequency as real)
  }

  function Monetaries(stats: seq<CustomerStats>): (xs: seq<real>)
    ensures |xs| == |stats| && forall i :: 0 <= i < |stats| ==> xs[i] == stats[i].monetary
  {
    seq(|stats|, i requires 0 <= i < |stats| => stats[i].monetary)
  }

  lemma LastDayBelowMax(txns: seq<Txn>, k: Cell)
    requires k in CustomersOf(txns)
    ensures LastDay(txns, k) <= MaxDay(txns)
  {
    var j :| 0 <= j < |txns| && txns[j].customer == k && txns[j].day == LastDay(txns, k);
  }

  /** Measured from the latest purchase in the data, no recency is negative and the customer
      who made that purchase has recency 0. */
  lemma LatestPurchaseReference(txns: seq<Txn>)
    requires txns != []
    ensures forall i :: 0 <= i < |Aggregate(txns)| ==> Aggregate(txns)[i].lastDay <= MaxDay(txns)
    ensures exists i :: 0 <= i < |Aggregate(txns)| && Aggregate(txns)[i].lastDay == MaxDay(txns)
  {
    var stats, ks := Aggregate(txns), Keys(txns);
    forall i | 0 <= i < |stats| ensures stats[i].lastDay <= MaxDay(txns) {
      LastDayBelowMax(txns, ks[i]);
    }
    var i := LatestCustomer(txns);
  }

  lemma IndexIn(ks: seq<Cell>, k: Cell) returns (i: nat)
    requires k in ks
    ensures i < |ks| && ks[i] == k
  {
    i :| 0 <= i < |ks| && ks[i] == k;
  }

  lemma LatestCustomer(txns: seq<Txn>) returns (i: nat)
    requires txns != []
    ensures i < |Aggregate(txns)| && Aggregate(txns)[i].lastDay == MaxDay(txns)
  {
    var ks := Keys(txns);
    var j :| 0 <= j < |txns| && txns[j].day == MaxDay(txns);
    var k := txns[j].customer;
    assert k in ks;
    i := IndexIn(ks, k);
    LatestBuyerLastDay(txns, j);
    assert Aggregate(txns)[i] == StatsOf(txns, k);
  }

  lemma LatestBuyerLastDay(txns: seq<Txn>, j: nat)
    requires j < |txns| && txns[j].day == MaxDay(txns)
    ensures txns[j].customer in CustomersOf(txns) && LastDay(txns, txns[j].customer) == MaxDay(txns)
  {
    var k := txns[j].customer;
    assert CustomersOf(txns)[j] == k;
    LastDayBelowMax(txns, k);
    assert txns[j].day <= LastDay(txns, k);
  }

  function Same(x: real): real { x }

  /** The amounts carried by the transactions add up to the sum of the amount column. */
  lemma AmountColumnSum(cells: seq<Cell>, txns: seq<Txn>)
    requires AllNumbers(cells)
    requires |txns| == |cells| && forall i :: 0 <= i < |cells| ==> cells[i] == Num(txns[i].amount)
    ensures Sum(txns, AmountOf) == Sum(Numbers(cells), Same)
  {
    var amounts := Numbers(cells);
    assert forall i :: 0 <= i < |txns| ==> AmountOf(txns[i]) == Same(amounts[i]);
    SumPointwise(txns, AmountOf, amounts, Same);
  }
}

=== FILE: models.dfy ===
/** The field constraints of `backend/app/models.py`, as validators: a constructor either
    builds the record, with defaults filled in, or reports every field that fails, in
    declaration order, as pydantic does. */
module Models {
  import opened Wrappers

  /** An anchored alternation `^(a|b|...)$`: the whole string is one of the words. */
  predicate OneOf(s: string, words: seq<string>) {
    s in words
  }

  const PlanTypes: seq<string> := ["free", "basic", "pro"]
  const FileStatuses: seq<string> := ["pending", "processing", "completed", "error"]
  const AnalysisStatuses: seq<string> := ["processing", "completed", "error"]

  const DefaultPlanType := "free"
  const MinPasswordLength := 8
  const DefaultSegmentsCount := 5
  const DefaultWeight := 1.0

  /** `[field]` when the field's constraint fails. */
  function Check(ok: bool, field: string): (e: seq<string>)
    ensures ok <==> e == []
    ensures !ok ==> e == [field]
  {
    if ok then [] else [field]
  }

  // ---------------------------------------------------------------- users

  datatype UserCreate = UserCreate(email: string, name: string, planType: string, password: string)

  /** `UserCreate(...)`: `plan_type` defaults to free and must name a plan; the password has
      at least eight characters. */
  function NewUser(email: string, name: string, planType: Option<string>, password: string): (r: Result<UserCreate, seq<string>>)
    ensures r.Ok? <==> (planType.None? || OneOf(planType.value, PlanTypes)) && |password| >= MinPasswordLength
    ensures r.Ok? ==> r.value.planType == (if planType.Some? then planType.value else DefaultPlanType)
                      && r.value.password == password && r.value.email == email && r.value.name == name
    ensures r.Ok? ==> OneOf(r.value.planType, PlanTypes)
    ensures r.Err? ==> ("plan_type" in r.error <==> planType.Some? && !OneOf(planType.value, PlanTypes))
                       && ("password" in r.error <==> |password| < MinPasswordLength)
  {
    var plan := if planType.Some? then planType.value else DefaultPlanType;
    var errors := Check(OneOf(plan, PlanTypes), "plan_type") + Check(|password| >= MinPasswordLength, "password");
    if errors == [] then Ok(UserCreate(email, name, plan, password)) else Err(errors)
  }

  // ---------------------------------------------------------------- files and results

  /** `FileInfo.status` and `AnalysisResult.status`. */
  function NewFileStatus(status: string): (r: Result<string, seq<string>>)
    ensures r.Ok? <==> status in {"pending", "processing", "completed", "error"}
    ensures r.Ok? ==> r.value == status
    ensures r.Err? ==> r.error == ["status"]
  {
    if OneOf(status, FileStatuses) then Ok(status) else Err(["status"])
  }

  function NewAnalysisStatus(status: string): (r: Result<string, seq<string>>)
    ensures r.Ok? <==> status in {"processing", "completed", "error"}
    ensures r.Ok? ==> r.value == status
    ensures r.Err? ==> r.error == ["status"]
  {
    if OneOf(status, AnalysisStatuses) then Ok(status) else Err(["status"])
  }

  /** An analysis status is a valid file status; a file can also be pending, an analysis
      cannot. */
  lemma StatusEnums(status: string)
    ensures NewAnalysisStatus(status).Ok? ==> NewFileStatus(status).Ok?
    ensures NewFileStatus(status).Ok? ==> NewAnalysisStatus(status).Ok? || status == "pending"
    ensures NewFileStatus("pending").Ok? && NewAnalysisStatus("pending").Err?
  {
  }

  // ---------------------------------------------------------------- analysis parameters

  datatype RfmParams = RfmParams(recencyColumn: string, frequencyColumn: string, monetaryColumn: string,
                                 segmentsCount: int, recencyWeight: real, frequencyWeight: real, monetaryWeight: real)

  predicate CountInRange(n: int) { 2 <= n <= 10 }
  predicate UnitWeight(w: real) { 0.0 <= w <= 1.0 }

  predicate ValidParams(p: RfmParams) {
    CountInRange(p.segmentsCount) && UnitWeight(p.recencyWeight) && UnitWeight(p.frequencyWeight) && UnitWeight(p.monetaryWeight)
  }

  function Given<T>(x: Option<T>, default: T): T {
    if x.Some? then x.value else default
  }

  /** `RFMParams(...)`: `segments_count` is an integer in [2, 10], default 5; each weight is in
      [0, 1], default 1.0. */
  function NewRfmParams(recencyColumn: string, frequencyColumn: string, monetaryColumn: string, segmentsCount: Option<int>,
                        recencyWeight: Option<real>, frequencyWeight: Option<real>, monetaryWeight: Option<real>): (r: Result<RfmParams, seq<string>>)
    ensures r.Ok? <==> CountInRange(Given(segmentsCount, DefaultSegmentsCount)) && UnitWeight(Given(recencyWeight, DefaultWeight))
                       && UnitWeight(Given(frequencyWeight, DefaultWeight)) && UnitWeight(Given(monetaryWeight, DefaultWeight))
    ensures r.Ok? ==> ValidParams(r.value)
                      && r.value.recencyColumn == recencyColumn && r.value.frequencyColumn == frequencyColumn
                      && r.value.monetaryColumn == monetaryColumn
                      && r.value.segmentsCount == Given(segmentsCount, DefaultSegmentsCount)
                      && r.value.recencyWeight == Given(recencyWeight, DefaultWeight)
                      && r.value.frequencyWeight == Given(frequencyWeight, DefaultWeight)
                      && r.value.monetaryWeight == Given(monetaryWeight, DefaultWeight)
    ensures r.Err? ==> ("segments_count" in r.error <==> !CountInRange(Given(segmentsCount, DefaultSegmentsCount)))
                       && ("recency_weight" in r.error <==> !UnitWeight(Given(recencyWeight, DefaultWeight)))
                       && ("frequency_weight" in r.error <==> !UnitWeight(Given(frequencyWeight, DefaultWeight)))
                       && ("monetary_weight" in r.error <==> !UnitWeight(Given(monetaryWeight, DefaultWeight)))
  {
    var p := RfmParams(recencyColumn, frequencyColumn, monetaryColumn, Given(segmentsCount, DefaultSegmentsCount),
                       Given(recencyWeight, DefaultWeight), Given(frequencyWeight, DefaultWeight), Given(monetaryWeight, DefaultWeight));
    var errors := Check(CountInRange(p.segmentsCount), "segments_count") + Check(UnitWeight(p.recencyWeight), "recency_weight")
                  + Check(UnitWeight(p.frequencyWeight), "frequency_weight") + Check(UnitWeight(p.monetaryWeight), "monetary_weight");
    ParamErrors(CountInRange(p.segmentsCount), UnitWeight(p.recencyWeight), UnitWeight(p.frequencyWeight), UnitWeight(p.monetaryWeight));
    if errors == [] then Ok(p) else Err(errors)
  }

  /** The parameter errors name exactly the fields that failed their check. */
  lemma ParamErrors(count: bool, recency: bool, frequency: bool, monetary: bool)
    ensures var errors := Check(count, "segments_count") + Check(recency, "recency_weight")
                          + Check(frequency, "frequency_weight") + Check(monetary, "monetary_weight");
            && (errors == [] <==> count && recency && frequency && monetary)
            && ("segments_count" in errors <==> !count) && ("recency_weight" in errors <==> !recency)
            && ("frequency_weight" in errors <==> !frequency) && ("monetary_weight" in errors <==> !monetary)
  {
    assert "segments_count"[0] == 's' && "recency_weight"[0] == 'r' && "frequency_weight"[0] == 'f' && "monetary_weight"[0] == 'm';
  }

  /** With every default taken the parameters are valid, with five segments, and the weights
      add up to 3, not 1. */
  lemma DefaultParams(recencyColumn: string, frequencyColumn: string, monetaryColumn: string)
    ensures NewRfmParams(recencyColumn, frequencyColumn, monetaryColumn, None, None, None, None).Ok?
    ensures var p := NewRfmParams(recencyColumn, frequencyColumn, monetaryColumn, None, None, None, None).value;
            p.segmentsCount == 5 && p.recencyWeight + p.frequencyWeight + p.monetaryWeight == 3.0
  {
  }

  // ---------------------------------------------------------------- recommendations

  datatype SegmentRecommendation = SegmentRecommendation(segmentId: int, priority: int)

  predicate PriorityInRange(p: int) { 1 <= p <= 5 }

  /** `SegmentRecommendation(...)`: the priority is an integer in [1, 5]. */
  function NewRecommendation(segmentId: int, priority: int): (r: Result<SegmentRecommendation, seq<string>>)
    ensures r.Ok? <==> 1 <= priority <= 5
    ensures r.Ok? ==> r.value.segmentId == segmentId && r.value.priority == priority
    ensures r.Err? ==> r.error == ["priority"]
  {
    if PriorityInRange(priority) then Ok(SegmentRecommendation(segmentId, priority)) else Err(["priority"])
  }
}

=== FILE: plans.dfy ===
/** `check_plan_limits` and `is_premium_feature` of `backend/app/auth.py`, with the plan limits
    of `backend/app/config.py`. */
module Plans {

  /** The plan limits of `Settings`. They are `BaseSettings` fields, so the environment or an
      `.env` file may replace the defaults. */
  datatype Settings = Settings(freePlanLimit: int, basicPlanLimit: int)

  const Defaults := Settings(100, 1000)

  /** A plan's upper bound on the data size; `float("inf")` for pro. */
  datatype Limit = AtMost(n: int) | Unlimited

  predicate Within(size: int, l: Limit) {
    l.Unlimited? || size <= l.n
  }

  function Limits(s: Settings): map<string, Limit> {
    map["free" := AtMost(s.freePlanLimit), "basic" := AtMost(s.basicPlanLimit), "pro" := Unlimited]
  }

  /** `limits.get(plan_type, limits["free"])`. */
  function LimitOf(s: Settings, plan: string): Limit {
    if plan in Limits(s) then Limits(s)[plan] else Limits(s)["free"]
  }

  /** The data size fits the plan: at most the free limit on free and on any unknown plan, at
      most the basic limit on basic, anything on pro. */
  function CheckPlanLimits(s: Settings, plan: string, size: int): (ok: bool)
    ensures plan == "pro" ==> ok
    ensures plan == "basic" ==> (ok <==> size <= s.basicPlanLimit)
    ensures plan != "pro" && plan != "basic" ==> (ok <==> size <= s.freePlanLimit)
  {
    Within(size, LimitOf(s, plan))
  }

  /** With the default settings: 100 on free and unknown plans, 1000 on basic. */
  lemma DefaultLimits(plan: string, size: int)
    ensures plan == "basic" ==> (CheckPlanLimits(Defaults, plan, size) <==> size <= 1000)
    ensures plan != "pro" && plan != "basic" ==> (CheckPlanLimits(Defaults, plan, size) <==> size <= 100)
  {
  }

  /** A size that fits a plan keeps fitting when it shrinks. */
  lemma LimitsMonotone(s: Settings, plan: string, small: int, large: int)
    requires small <= large && CheckPlanLimits(s, plan, large)
    ensures CheckPlanLimits(s, plan, small)
  {
  }

  /** Plans are ordered free, basic, pro when the settings keep the free limit at most the
      basic one, as the defaults do: what fits one plan fits every larger plan. */
  lemma PlanOrder(s: Settings, size: int)
    requires s.freePlanLimit <= s.basicPlanLimit
    ensures CheckPlanLimits(s, "free", size) ==> CheckPlanLimits(s, "basic", size)
    ensures CheckPlanLimits(s, "basic", size) ==> CheckPlanLimits(s, "pro", size)
  {
  }

  /** Settings with a free limit above the basic one break that order: a size at the free
      limit fits free but not basic. Nothing in the code rules such settings out. */
  lemma PlanOrderNeedsSettings(s: Settings)
    requires s.freePlanLimit > s.basicPlanLimit
    ensures CheckPlanLimits(s, "free", s.freePlanLimit) && !CheckPlanLimits(s, "basic", s.freePlanLimit)
  {
  }

  /** An unknown plan is checked as free. */
  lemma UnknownPlanIsFree(s: Settings, plan: string, size: int)
    requires plan !in Limits(s)
    ensures CheckPlanLimits(s, plan, size) == CheckPlanLimits(s, "free", size)
  {
  }

  /** The premium features and the plans they are listed under. */
  const PremiumFeatures: map<string, seq<string>> :=
    map["excel_export" := ["basic", "pro"], "ai_recommendations" := ["pro"], "api_access" := ["pro"], "advanced_analytics" := ["pro"]]

  /** A feature is premium exactly when it is one of the four listed; the plan lists play no
      part. */
  function IsPremiumFeature(feature: string): (premium: bool)
    ensures premium <==> feature == "excel_export" || feature == "ai_recommendations" || feature == "api_access" || feature == "advanced_analytics"
  {
    feature in PremiumFeatures
  }
}

=== FILE: pro_analysis.dfy ===
/** `rfmpro_analysis.py`: the configurable variant. Input validation with warnings,
    per-customer metrics with recency clipped at zero, the ranks of `ProRanks`, the rank sum
    and code, the eight-rule segment table (or a caller's code-to-segment mapping), and the
    segment distribution. */
module ProAnalysis {
  import opened Wrappers
  import opened Tally
  import opened Frame
  import opened Metrics
  import opened Binning
  import opened ProRanks
  import opened Codes
  import opened Distribution

  // ---------------------------------------------------------------- validation

  /** The warnings `_validate_input_data` prints instead of raising. */
  datatype Warning = NullsIn(columns: seq<string>) | NegativeAmounts | TooFewRows

  predicate HasNull(cells: seq<Cell>) {
    exists i :: 0 <= i < |cells| && cells[i].Null?
  }

  /** The required columns holding at least one null, in the order they are listed. */
  function NullColumns(t: Table, cols: seq<string>): (nc: seq<string>)
    requires WellFormed(t) && forall c :: c in cols ==> c in t.columns
    ensures forall c :: c in nc <==> c in cols && HasNull(Column(t, c))
  {
    if cols == [] then []
    else (if HasNull(Column(t, cols[0])) then [cols[0]] else []) + NullColumns(t, cols[1..])
  }

  /** A text cell makes the column's dtype `object`, i.e. not numeric. */
  predicate HasText(cells: seq<Cell>) {
    exists i :: 0 <= i < |cells| && cells[i].Text?
  }

  /** `pd.to_numeric` succeeds: every text cell reads as a number (`parse`). */
  predicate Convertible(cells: seq<Cell>, parse: string -> Option<real>) {
    forall i :: 0 <= i < |cells| && cells[i].Text? ==> parse(cells[i].text).Some?
  }

  predicate AnyNegative(cells: seq<Cell>) {
    exists i :: 0 <= i < |cells| && cells[i].Num? && cells[i].number < 0.0
  }

  /** `_validate_input_data`. A missing column raises, naming the missing ones in the order
      date, customer, amount. A text amount column raises: as `NotNumeric` when
      `pd.to_numeric` fails, and otherwise at the `< 0` comparison, which `object` columns
      do not support. Nulls, negative amounts and short data only warn. */
  function Validate(t: Table, date: string, customer: string, amount: string, parse: string -> Option<real>): (r: Result<seq<Warning>, Failure>)
    requires WellFormed(t)
    ensures Missing([date, customer, amount], t.columns) != [] ==>
              r == Err(MissingColumns(Missing([date, customer, amount], t.columns)))
    ensures r.Ok? ==> date in t.columns && customer in t.columns && amount in t.columns && !HasText(Column(t, amount))
    ensures Missing([date, customer, amount], t.columns) == [] ==>
              (r.Err? <==> HasText(Column(t, amount)))
              && (HasText(Column(t, amount)) && !Convertible(Column(t, amount), parse) ==> r == Err(NotNumeric(amount)))
              && (HasText(Column(t, amount)) && Convertible(Column(t, amount), parse) ==> r == Err(NotComparable(amount)))
  {
    var missing := Missing([date, customer, amount], t.columns);
    if missing != [] then Err(MissingColumns(missing))
    else
      assert date in t.columns && customer in t.columns && amount in t.columns by {
        assert date !in missing && customer !in missing && amount !in missing;
      }
      var cells := Column(t, amount);
      var nulls := NullColumns(t, [date, customer, amount]);
      if HasText(cells) && !Convertible(cells, parse) then Err(NotNumeric(amount))
      else if HasText(cells) then Err(NotComparable(amount))
      else
        Ok((if nulls != [] then [NullsIn(nulls)] else [])
           + (if AnyNegative(cells) then [NegativeAmounts] else [])
           + (if |t.rows| < 10 then [TooFewRows] else []))
  }

  /** A successful validation warns about negative amounts, about fewer than ten rows and
      about null cells in the three columns exactly when each occurs. */
  lemma ValidateWarnings(t: Table, date: string, customer: string, amount: string, parse: string -> Option<real>)
    requires WellFormed(t) && Validate(t, date, customer, amount, parse).Ok?
    ensures amount in t.columns
    ensures NegativeAmounts in Validate(t, date, customer, amount, parse).value <==> AnyNegative(Column(t, amount))
    ensures TooFewRows in Validate(t, date, customer, amount, parse).value <==> |t.rows| < 10
    ensures NullsIn(NullColumns(t, [date, customer, amount])) in Validate(t, date, customer, amount, parse).value
            <==> NullColumns(t, [date, customer, amount]) != []
  {
    var nulls, cells := NullColumns(t, [date, customer, amount]), Column(t, amount);
    var a := if nulls != [] then [NullsIn(nulls)] else [];
    var b := if AnyNegative(cells) then [NegativeAmounts] else [];
    var c := if |t.rows| < 10 then [TooFewRows] else [];
    assert Validate(t, date, customer, amount, parse).value == a + b + c;
  }

  // ---------------------------------------------------------------- segmentation

  const Choices: seq<string> := ["Чемпионы", "Лояльные клиенты", "Потенциально лояльные", "Новые клиенты",
                                 "Под угрозой ухода", "Нельзя потерять", "Потерянные", "Крупные покупатели"]
  const Others := "Прочие"

  /** The eight conditions, in table order; each splits every rank at 3. */
  function Conditions(r: int, f: int, m: int): (c: seq<bool>)
    ensures |c| == 8
  {
    [ r >= 3 && f >= 3 && m >= 3, r >= 3 && f >= 3 && m < 3, r >= 3 && f < 3 && m >= 3, r >= 3 && f < 3 && m < 3,
      r < 3 && f >= 3 && m >= 3,  r < 3 && f >= 3 && m < 3,  r < 3 && f < 3 && m < 3,   r < 3 && f < 3 && m >= 3 ]
  }

  /** `np.select`: the choice of the first true condition, or the default. */
  function Select(conds: seq<bool>, choices: seq<string>, default: string): (s: string)
    requires |conds| == |choices|
    ensures (exists i :: 0 <= i < |conds| && conds[i]) ==> s in choices
    ensures (forall i :: 0 <= i < |conds| ==> !conds[i]) ==> s == default
  {
    if conds == [] then default
    else if conds[0] then choices[0]
    else
      assert forall i :: 1 <= i < |conds| ==> conds[i] == conds[1..][i - 1];
      Select(conds[1..], choices[1..], default)
  }

  /** The first-match choice of `np.select` is the choice of the one true condition. */
  lemma {:induction false} SelectUnique(conds: seq<bool>, choices: seq<string>, default: string, i: nat)
    requires |conds| == |choices| && i < |conds| && conds[i]
    requires forall j :: 0 <= j < |conds| && j != i ==> !conds[j]
    ensures Select(conds, choices, default) == choices[i]
  {
    if i > 0 {
      SelectUnique(conds[1..], choices[1..], default, i - 1);
    }
  }

  function RuleSegment(r: int, f: int, m: int): string {
    Select(Conditions(r, f, m), Choices, Others)
  }

  /** Which side of 3 each rank is on, read as the row of the table. */
  function RuleIndex(r: int, f: int, m: int): (i: nat)
    ensures i < 8
  {
    match (r >= 3, f >= 3, m >= 3)
    case (true, true, true) => 0
    case (true, true, false) => 1
    case (true, false, true) => 2
    case (true, false, false) => 3
    case (false, true, true) => 4
    case (false, true, false) => 5
    case (false, false, false) => 6
    case (false, false, true) => 7
  }

  /** The eight rules are exclusive and exhaustive: exactly one holds for every rank triple,
      so the default 'Прочие' never occurs and the segment is the choice of that rule. */
  lemma RulesPartition(r: int, f: int, m: int)
    ensures forall j :: 0 <= j < 8 ==> (Conditions(r, f, m)[j] <==> j == RuleIndex(r, f, m))
    ensures RuleSegment(r, f, m) == Choices[RuleIndex(r, f, m)]
    ensures RuleSegment(r, f, m) != Others
  {
    SelectUnique(Conditions(r, f, m), Choices, Others, RuleIndex(r, f, m));
  }

  /** `pd.cut(rank, bins=[0, 2, 4, 5], include_lowest=True)`: the band number, or none (NaN)
      for a rank outside `[0, 5]`. */
  function Band(rank: int): (b: Option<nat>)
    ensures b.Some? <==> 0 <= rank <= 5
    ensures b.Some? ==> b.value < 3
  {
    if 0 <= rank <= 2 then Some(0)
    else if 2 < rank <= 4 then Some(1)
    else if 4 < rank <= 5 then Some(2)
    else None
  }

  /** Band numbers are right-closed cut bins on the inner edges 2 and 4. */
  lemma BandIsCut(rank: int)
    requires 0 <= rank <= 5
    ensures Band(rank).value == CountLess([2.0, 4.0], rank as real)
  {
    assert [2.0, 4.0][1..] == [4.0];
    assert [4.0][1..] == [];
  }

  const RecencyBands: seq<string> := ["Давно", "Недавно", "Очень недавно"]
  const FrequencyBands: seq<string> := ["Редко", "Часто", "Очень часто"]
  const MonetaryBands: seq<string> := ["Низкая", "Высокая", "Очень высокая"]

  function BandName(rank: int, names: seq<string>): Option<string>
    requires |names| == 3
  {
    match Band(rank)
    case None => None
    case Some(b) => Some(names[b])
  }

  /** The per-customer labels of `_create_rfm_segments`. */
  datatype Labelled = Labelled(rBand: Option<string>, fBand: Option<string>, mBand: Option<string>, segment: string)

  /** Without a mapping: the three band labels and the rule table. With one: the mapped
      segment of the code, or 'Прочие' for a code the mapping lacks; no band columns. */
  function Label(r: int, f: int, m: int, code: string, mapping: Option<map<string, string>>): (l: Labelled)
    ensures mapping.None? ==> l.segment == RuleSegment(r, f, m)
    ensures mapping.Some? ==> l.segment == (if code in mapping.value then mapping.value[code] else Others)
    ensures mapping.Some? ==> l.rBand.None? && l.fBand.None? && l.mBand.None?
  {
    match mapping
    case None => Labelled(BandName(r, RecencyBands), BandName(f, FrequencyBands), BandName(m, MonetaryBands), RuleSegment(r, f, m))
    case Some(mp) => Labelled(None, None, None, if code in mp then mp[code] else Others)
  }

  // ---------------------------------------------------------------- scoring

  /** The analysis parameters: `n_quantiles`, `ranking_method`, `custom_intervals` and
      `segment_mapping`. */
  datatype Config = Config(k: nat, how: Method, intervals: Option<map<string, seq<real>>>, mapping: Option<map<string, string>>)

  /** `custom_intervals and key in custom_intervals`. */
  function IntervalsFor(intervals: Option<map<string, seq<real>>>, key: string): Option<seq<real>> {
    if intervals.Some? && key in intervals.value then Some(intervals.value[key]) else None
  }

  /** Which way each metric is ranked: `ascending` for recency, and for frequency and
      monetary. */
  datatype Directions = Directions(recency: bool, spend: bool)

  /** As written: recency ascending, frequency and monetary reversed. */
  const AsWritten := Directions(true, false)

  /** One row of the result frame. */
  datatype ProRow = ProRow(customer: Cell, recency: real, frequency: nat, monetary: real,
                           r: int, f: int, m: int, score: int, code: string, labels: Labelled)

  /** `Recency = (analysis_date - last purchase).days`, clipped at 0. */
  function ClippedRecencies(stats: seq<CustomerStats>, now: int): (xs: seq<real>)
    ensures |xs| == |stats|
    ensures forall i :: 0 <= i < |stats| ==> xs[i] == (if now - stats[i].lastDay >= 0 then (now - stats[i].lastDay) as real else 0.0)
  {
    seq(|stats|, i requires 0 <= i < |stats| => if now - stats[i].lastDay >= 0 then (now - stats[i].lastDay) as real else 0.0)
  }

  function RRanks(stats: seq<CustomerStats>, now: int, cfg: Config, dir: Directions): seq<int>
    requires cfg.k >= 1
  {
    RankMetric(ClippedRecencies(stats, now), cfg.k, cfg.how, IntervalsFor(cfg.intervals, "R"), dir.recency)
  }

  function FRanks(stats: seq<CustomerStats>, cfg: Config, dir: Directions): seq<int>
    requires cfg.k >= 1
  {
    RankMetric(Frequencies(stats), cfg.k, cfg.how, IntervalsFor(cfg.intervals, "F"), dir.spend)
  }

  function MRanks(stats: seq<CustomerStats>, cfg: Config, dir: Directions): seq<int>
    requires cfg.k >= 1
  {
    RankMetric(Monetaries(stats), cfg.k, cfg.how, IntervalsFor(cfg.intervals, "M"), dir.spend)
  }

  /** Ranks, `RFM_Score`, `RFM_Segment_Code` and labels for every grouped customer. */
  function ScoreWith(stats: seq<CustomerStats>, now: int, cfg: Config, dir: Directions): (rows: seq<ProRow>)
    requires cfg.k >= 1
    ensures |rows| == |stats|
    ensures forall i :: 0 <= i < |stats| ==>
              var row := rows[i];
              && row.customer == stats[i].customer
              && row.recency == ClippedRecencies(stats, now)[i] && row.recency >= 0.0
              && row.frequency == stats[i].frequency && row.monetary == stats[i].monetary
              && row.r == RRanks(stats, now, cfg, dir)[i]
              && row.f == FRanks(stats, cfg, dir)[i]
              && row.m == MRanks(stats, cfg, dir)[i]
              && row.score == row.r + row.f + row.m
              && row.code == Code(row.r, row.f, row.m)
              && row.labels == Label(row.r, row.f, row.m, row.code, cfg.mapping)
  {
    var rec := ClippedRecencies(stats, now);
    var rs, fs, ms := RRanks(stats, now, cfg, dir), FRanks(stats, cfg, dir), MRanks(stats, cfg, dir);
    seq(|stats|, i requires 0 <= i < |stats| =>
      ProRow(stats[i].customer, rec[i], stats[i].frequency, stats[i].monetary, rs[i], fs[i], ms[i],
             rs[i] + fs[i] + ms[i], Code(rs[i], fs[i], ms[i]), Label(rs[i], fs[i], ms[i], Code(rs[i], fs[i], ms[i]), cfg.mapping)))
  }

  function Segments(rows: seq<ProRow>): (s: seq<string>)
    ensures |s| == |rows| && forall i :: 0 <= i < |rows| ==> s[i] == rows[i].labels.segment
  {
    seq(|rows|, i requires 0 <= i < |rows| => rows[i].labels.segment)
  }

  /** `value_counts()` of the segments with `Count / Count.sum() * 100`. */
  function SegmentDistribution(segments: seq<string>): (d: seq<Entry<string>>)
  {
    if segments == [] then [] else Shares(Counts(segments, Distinct(segments)), |segments|)
  }

  /** Every segment that occurs is listed once with its count; the counts add up to the
      number of customers and the percentages to 100. */
  lemma DistributionAddsUp(segments: seq<string>)
    requires segments != []
    ensures forall i :: 0 <= i < |segments| ==>
              (exists j :: 0 <= j < |SegmentDistribution(segments)| && SegmentDistribution(segments)[j].segment == segments[i])
    ensures forall j :: 0 <= j < |SegmentDistribution(segments)| ==>
              var e := SegmentDistribution(segments)[j];
              e.count == Count(segments, Itself, e.segment) >= 1
              && e.percentage == e.count as real / |segments| as real * 100.0
    ensures Sum(SegmentDistribution(segments), EntryCount) == |segments| as real
    ensures Sum(SegmentDistribution(segments), EntryShare) == 100.0
  {
    DistributionListsEvery(segments);
    DistributionEntries(segments);
    DistributionTotals(segments);
  }

  lemma DistributionListsEvery(segments: seq<string>)
    requires segments != []
    ensures forall i :: 0 <= i < |segments| ==>
              (exists j :: 0 <= j < |SegmentDistribution(segments)| && SegmentDistribution(segments)[j].segment == segments[i])
  {
    var u := Distinct(segments);
    var t := Counts(segments, u);
    var d := SegmentDistribution(segments);
    assert d == Shares(t, |segments|);
    forall i | 0 <= i < |segments| ensures exists j :: 0 <= j < |d| && d[j].segment == segments[i] {
      var j := CountedAt(segments, i);
      assert d[j].segment == t[j].0;
    }
  }

  /** Every segment that occurs has its row among the counts. */
  lemma CountedAt(segments: seq<string>, i: nat) returns (j: nat)
    requires i < |segments|
    ensures j < |Counts(segments, Distinct(segments))| && Counts(segments, Distinct(segments))[j].0 == segments[i]
  {
    var u := Distinct(segments);
    var t := Counts(segments, u);
    var a :| 0 <= a < |u| && u[a] == segments[i];
    CountMember(segments, Itself, i);
    assert (u[a], Count(segments, Itself, u[a])) in t;
    j :| 0 <= j < |t| && t[j] == (u[a], Count(segments, Itself, u[a]));
  }

  lemma DistributionEntries(segments: seq<string>)
    requires segments != []
    ensures forall j :: 0 <= j < |SegmentDistribution(segments)| ==>
              var e := SegmentDistribution(segments)[j];
              e.count == Count(segments, Itself, e.segment) >= 1
              && e.percentage == e.count as real / |segments| as real * 100.0
  {
    var t := Counts(segments, Distinct(segments));
    assert SegmentDistribution(segments) == Shares(t, |segments|);
  }

  lemma DistributionTotals(segments: seq<string>)
    requires segments != []
    ensures Sum(SegmentDistribution(segments), EntryCount) == |segments| as real
    ensures Sum(SegmentDistribution(segments), EntryShare) == 100.0
  {
    var u := Distinct(segments);
    var t := Counts(segments, u);
    assert SegmentDistribution(segments) == Shares(t, |segments|);
    CountsCover(segments, u);
    EntryCounts(t, |segments|);
    SharesAddUp(t, |segments|);
  }

  // ---------------------------------------------------------------- the analysis

  datatype Outcome = Outcome(rows: seq<ProRow>, distribution: seq<Entry<string>>, warnings: seq<Warning>)

  /** `rfm_analysis(data, ...)` on the calendar-day path, with `analysis_date` given as the
      day number `now`; `parse` stands for `pd.to_numeric` and `toDay` for `pd.to_datetime`. */
  function Analyze(t: Table, date: string, customer: string, amount: string, parse: string -> Option<real>,
                   toDay: Cell -> Option<int>, now: int, cfg: Config): (r: Result<Outcome, Failure>)
    requires WellFormed(t) && cfg.k >= 1
    requires NullFree(t, date) && NullFree(t, customer) && NullFree(t, amount)
    ensures Validate(t, date, customer, amount, parse).Err? ==> r == Err(Validate(t, date, customer, amount, parse).error)
    ensures r.Ok? ==> Validate(t, date, customer, amount, parse) == Ok(r.value.warnings)
    ensures Validate(t, date, customer, amount, parse).Ok? ==>
              (r.Ok? <==> forall i :: 0 <= i < |t.rows| ==> toDay(Column(t, date)[i]).Some?)
    ensures r.Err? && Validate(t, date, customer, amount, parse).Ok? ==> r.error == DateUnparseable(date)
    ensures r.Ok? ==>
              var txns := Transactions(t, date, customer, amount, toDay).value;
              && r.value.rows == ScoreWith(Aggregate(txns), now, cfg, AsWritten)
              && r.value.distribution == SegmentDistribution(Segments(r.value.rows))
  {
    var warnings :- Validate(t, date, customer, amount, parse);
    assert AllNumbers(Column(t, amount)) by {
      forall cell | cell in Column(t, amount) ensures cell.Num? {
        var i :| 0 <= i < |Column(t, amount)| && Column(t, amount)[i] == cell;
      }
    }
    var txns :- Transactions(t, date, customer, amount, toDay);
    var rows := ScoreWith(Aggregate(txns), now, cfg, AsWritten);
    Ok(Outcome(rows, SegmentDistribution(Segments(rows)), warnings))
  }

  /** Without a custom mapping every customer lands in one of the eight named segments. */
  lemma NoOthersWithoutMapping(stats: seq<CustomerStats>, now: int, cfg: Config, dir: Directions, i: nat)
    requires cfg.k >= 1 && cfg.mapping.None? && i < |stats|
    ensures ScoreWith(stats, now, cfg, dir)[i].labels.segment in Choices
  {
    var row := ScoreWith(stats, now, cfg, dir)[i];
    RulesPartition(row.r, row.f, row.m);
  }

  /** With at most five quantiles (and no custom cuts) every rank has a band label; with
      more, the top ranks fall outside `[0, 5]` and get none. */
  lemma BandsDefined(stats: seq<CustomerStats>, now: int, cfg: Config, dir: Directions, i: nat)
    requires 1 <= cfg.k <= 5 && cfg.mapping.None? && i < |stats|
    requires !(cfg.how.Fixed? && cfg.intervals.Some?)
    ensures ScoreWith(stats, now, cfg, dir)[i].labels.rBand.Some?
    ensures ScoreWith(stats, now, cfg, dir)[i].labels.fBand.Some?
    ensures ScoreWith(stats, now, cfg, dir)[i].labels.mBand.Some?
  {
    RankRange(ClippedRecencies(stats, now), cfg.k, cfg.how, IntervalsFor(cfg.intervals, "R"), dir.recency, i);
    RankRange(Frequencies(stats), cfg.k, cfg.how, IntervalsFor(cfg.intervals, "F"), dir.spend, i);
    RankRange(Monetaries(stats), cfg.k, cfg.how, IntervalsFor(cfg.intervals, "M"), dir.spend, i);
  }

  // ---------------------------------------------------------------- rank direction

  /** The best customer: strictly most recent, strictly most frequent, strictly biggest
      spender. */
  predicate Best(stats: seq<CustomerStats>, now: int, i: nat)
    requires i < |stats|
  {
    StrictMin(ClippedRecencies(stats, now), i) && StrictMax(Frequencies(stats), i) && StrictMax(Monetaries(stats), i)
  }

  /** The worst customer: strictly least recent, least frequent, smallest spender. */
  predicate Worst(stats: seq<CustomerStats>, now: int, i: nat)
    requires i < |stats|
  {
    StrictMax(ClippedRecencies(stats, now), i) && StrictMin(Frequencies(stats), i) && StrictMin(Monetaries(stats), i)
  }

  function QuantileConfig(k: nat): Config {
    Config(k, Quantile, None, None)
  }

  /** As written, on the default quantile method the best customer gets ranks (1, 1, 1) and
      the segment 'Потерянные' (lost). */
  lemma BestCustomerIsLost(stats: seq<CustomerStats>, now: int, k: nat, i: nat)
    requires k >= 1 && |stats| >= 2 && i < |stats| && Best(stats, now, i)
    ensures ScoreWith(stats, now, QuantileConfig(k), AsWritten)[i].r == 1
    ensures ScoreWith(stats, now, QuantileConfig(k), AsWritten)[i].f == 1
    ensures ScoreWith(stats, now, QuantileConfig(k), AsWritten)[i].m == 1
    ensures ScoreWith(stats, now, QuantileConfig(k), AsWritten)[i].labels.segment == "Потерянные"
  {
    QuantileRanks(stats, now, k, AsWritten, i);
    QuantileMinimum(ClippedRecencies(stats, now), k, true, i);
    QuantileMaximum(Frequencies(stats), k, false, i);
    QuantileMaximum(Monetaries(stats), k, false, i);
    RulesPartition(1, 1, 1);
  }

  /** As written, with three or more quantiles the worst customer gets ranks (K, K, K) and
      the segment 'Чемпионы' (champions). */
  lemma WorstCustomerIsChampion(stats: seq<CustomerStats>, now: int, k: nat, i: nat)
    requires k >= 3 && |stats| >= 2 && i < |stats| && Worst(stats, now, i)
    ensures ScoreWith(stats, now, QuantileConfig(k), AsWritten)[i].r == k
    ensures ScoreWith(stats, now, QuantileConfig(k), AsWritten)[i].f == k
    ensures ScoreWith(stats, now, QuantileConfig(k), AsWritten)[i].m == k
    ensures ScoreWith(stats, now, QuantileConfig(k), AsWritten)[i].labels.segment == "Чемпионы"
  {
    QuantileRanks(stats, now, k, AsWritten, i);
    QuantileMaximum(ClippedRecencies(stats, now), k, true, i);
    QuantileMinimum(Frequencies(stats), k, false, i);
    QuantileMinimum(Monetaries(stats), k, false, i);
    RulesPartition(k, k, k);
  }

  /** The evidently intended directions: a better metric value gets a higher rank, which is
      what the segment names read into ranks of 3 and above. */
  const Intended := Directions(false, true)

  /** With the intended directions, from three quantiles on, the best customer gets
      (K, K, K) and the segment 'Чемпионы'. */
  lemma IntendedBestIsChampion(stats: seq<CustomerStats>, now: int, k: nat, i: nat)
    requires k >= 3 && |stats| >= 2 && i < |stats| && Best(stats, now, i)
    ensures ScoreWith(stats, now, QuantileConfig(k), Intended)[i].r == k
    ensures ScoreWith(stats, now, QuantileConfig(k), Intended)[i].f == k
    ensures ScoreWith(stats, now, QuantileConfig(k), Intended)[i].m == k
    ensures ScoreWith(stats, now, QuantileConfig(k), Intended)[i].labels.segment == "Чемпионы"
  {
    QuantileRanks(stats, now, k, Intended, i);
    QuantileMinimum(ClippedRecencies(stats, now), k, false, i);
    QuantileMaximum(Frequencies(stats), k, true, i);
    QuantileMaximum(Monetaries(stats), k, true, i);
    RulesPartition(k, k, k);
  }

  /** With the intended directions the worst customer gets (1, 1, 1) and 'Потерянные'. */
  lemma IntendedWorstIsLost(stats: seq<CustomerStats>, now: int, k: nat, i: nat)
    requires k >= 1 && |stats| >= 2 && i < |stats| && Worst(stats, now, i)
    ensures ScoreWith(stats, now, QuantileConfig(k), Intended)[i].r == 1
    ensures ScoreWith(stats, now, QuantileConfig(k), Intended)[i].f == 1
    ensures ScoreWith(stats, now, QuantileConfig(k), Intended)[i].m == 1
    ensures ScoreWith(stats, now, QuantileConfig(k), Intended)[i].labels.segment == "Потерянные"
  {
    QuantileRanks(stats, now, k, Intended, i);
    QuantileMaximum(ClippedRecencies(stats, now), k, false, i);
    QuantileMinimum(Frequencies(stats), k, true, i);
    QuantileMinimum(Monetaries(stats), k, true, i);
    RulesPartition(1, 1, 1);
  }

  /** With the intended directions, on the quantile method, a customer better on a metric
      never gets a lower rank on it. */
  lemma IntendedOrder(stats: seq<CustomerStats>, now: int, k: nat, i: nat, j: nat)
    requires k >= 1 && i < |stats| && j < |stats|
    ensures ClippedRecencies(stats, now)[i] < ClippedRecencies(stats, now)[j] ==>
              ScoreWith(stats, now, QuantileConfig(k), Intended)[j].r <= ScoreWith(stats, now, QuantileConfig(k), Intended)[i].r
    ensures stats[i].frequency < stats[j].frequency ==>
              ScoreWith(stats, now, QuantileConfig(k), Intended)[i].f <= ScoreWith(stats, now, QuantileConfig(k), Intended)[j].f
    ensures stats[i].monetary < stats[j].monetary ==>
              ScoreWith(stats, now, QuantileConfig(k), Intended)[i].m <= ScoreWith(stats, now, QuantileConfig(k), Intended)[j].m
  {
    QuantileRanks(stats, now, k, Intended, i);
    QuantileRanks(stats, now, k, Intended, j);
    var rec, fr, mo := ClippedRecencies(stats, now), Frequencies(stats), Monetaries(stats);
    if rec[i] < rec[j] {
      QuantileOrder(rec, k, false, i, j);
    }
    if fr[i] < fr[j] {
      QuantileOrder(fr, k, true, i, j);
    }
    if mo[i] < mo[j] {
      QuantileOrder(mo, k, true, i, j);
    }
  }

  /** On the quantile method without custom intervals, each row's ranks are the ranks of its
      metrics in their columns. */
  lemma QuantileRanks(stats: seq<CustomerStats>, now: int, k: nat, dir: Directions, i: nat)
    requires k >= 1 && i < |stats|
    ensures ScoreWith(stats, now, QuantileConfig(k), dir)[i].r == RankMetric(ClippedRecencies(stats, now), k, Quantile, None, dir.recency)[i]
    ensures ScoreWith(stats, now, QuantileConfig(k), dir)[i].f == RankMetric(Frequencies(stats), k, Quantile, None, dir.spend)[i]
    ensures ScoreWith(stats, now, QuantileConfig(k), dir)[i].m == RankMetric(Monetaries(stats), k, Quantile, None, dir.spend)[i]
  {
    var cfg := QuantileConfig(k);
    assert IntervalsFor(cfg.intervals, "R") == None;
    assert IntervalsFor(cfg.intervals, "F") == None;
    assert IntervalsFor(cfg.intervals, "M") == None;
  }
}

=== FILE: pro_ranks.dfy ===
/** `_assign_rfm_ranks` of `rfmpro_analysis.py`, one metric at a time: quantile ranks,
    fixed-interval ranks (custom or automatic cuts), and the fallback taken on any
    exception. */
module ProRanks {
  import opened Wrappers
  import opened Tally
  import opened Frame
  import opened Binning
  import opened FirstRank
  import opened DenseRank

  /** `ranking_method`: 'quantile', 'fixed', or anything else. `Other` carries a name that
      is neither of the two; `MethodOf` is how a name becomes a method. */
  datatype Method = Quantile | Fixed | Other(name: string)

  /** The `if ranking_method == 'quantile' ... elif ranking_method == 'fixed' ... else`
      dispatch on the name the caller passed. */
  function MethodOf(name: string): (m: Method)
    ensures m == Quantile <==> name == "quantile"
    ensures m == Fixed <==> name == "fixed"
    ensures m.Other? ==> m.name == name
  {
    if name == "quantile" then Quantile else if name == "fixed" then Fixed else Other(name)
  }

  /** The label list: `1..K`, reversed unless the metric ranks ascending. */
  function Labels(k: nat, ascending: bool): (labels: seq<int>)
    ensures |labels| == k && forall x :: x in labels ==> 1 <= x <= k
  {
    if ascending then Ascend(k) else Descend(k)
  }

  /** The cut list `pd.cut` receives between the two infinite sentinels: the given cuts,
      sorted in reverse unless the metric ranks ascending. */
  function Oriented(cuts: seq<real>, ascending: bool): seq<real> {
    if ascending then cuts else Descending(cuts)
  }

  /** The body of the `try`: what the chosen method yields, or the exception it raises.
      `intervals` is the custom cut list of this metric, when one was given. */
  function TryRank(values: seq<real>, k: nat, how: Method, intervals: Option<seq<real>>, ascending: bool): (r: Result<seq<int>, Failure>)
    requires k >= 1
    ensures r.Ok? ==> |r.value| == |values|
    ensures how.Other? ==> r == Err(UnsupportedRankingMethod(how.name))
  {
    match how
    case Quantile =>
      if NUnique(values) < k then QCut(FirstRanks(values), k, Labels(k, ascending))
      else QCut(values, k, Labels(k, ascending))
    case Fixed =>
      if intervals.Some? then CutRanks(values, Oriented(intervals.value, ascending))
      else if values == [] then Ok([])
      else CutRanks(values, Oriented(AutoCuts(values, k), ascending))
    case Other(name) => Err(UnsupportedRankingMethod(name))
  }

  /** The rank column of one metric: the method's ranks, or the fallback when it raises. */
  function RankMetric(values: seq<real>, k: nat, how: Method, intervals: Option<seq<real>>, ascending: bool): (r: seq<int>)
    requires k >= 1
    ensures |r| == |values|
  {
    match TryRank(values, k, how, intervals, ascending)
    case Ok(v) => v
    case Err(_) => Fallback(values, k, ascending)
  }

  /** The `except` clause: whatever the method raises, every value gets its fallback rank. */
  lemma RankMetricCases(values: seq<real>, k: nat, how: Method, intervals: Option<seq<real>>, ascending: bool)
    requires k >= 1
    ensures TryRank(values, k, how, intervals, ascending).Ok? ==>
              RankMetric(values, k, how, intervals, ascending) == TryRank(values, k, how, intervals, ascending).value
    ensures TryRank(values, k, how, intervals, ascending).Err? ==>
              RankMetric(values, k, how, intervals, ascending) == Fallback(values, k, ascending)
  { }

  /** Every method except custom intervals ranks within `1..K`; custom intervals `c1..cm`
      rank within `1..m+1`. */
  lemma RankRange(values: seq<real>, k: nat, how: Method, intervals: Option<seq<real>>, ascending: bool, i: nat)
    requires k >= 1 && i < |values|
    ensures !(how.Fixed? && intervals.Some?) ==> 1 <= RankMetric(values, k, how, intervals, ascending)[i] <= k
    ensures how.Fixed? && intervals.Some? ==>
              1 <= RankMetric(values, k, how, intervals, ascending)[i] <= Max(k, |intervals.value| + 1)
  {
    RankMetricCases(values, k, how, intervals, ascending);
    var r := TryRank(values, k, how, intervals, ascending);
    if r.Ok? {
      match how
      case Quantile =>
      case Fixed =>
        if intervals.Some? {
          assert |Oriented(intervals.value, ascending)| == |intervals.value|;
        } else {
          assert |Oriented(AutoCuts(values, k), ascending)| == k - 1;
        }
      case Other(_) =>
    }
  }

  function Max(a: int, b: int): int { if a >= b then a else b }

  /** An unsupported method, or custom cuts that must be reversed and hold two or more
      values, always end in the fallback. */
  lemma FallbackTaken(values: seq<real>, k: nat, how: Method, intervals: Option<seq<real>>, ascending: bool)
    requires k >= 1
    requires how.Other? || (how.Fixed? && intervals.Some? && !ascending && |intervals.value| >= 2)
    ensures RankMetric(values, k, how, intervals, ascending) == Fallback(values, k, ascending)
  {
    RankMetricCases(values, k, how, intervals, ascending);
    if how.Fixed? {
      DescendingNotIncreasing(intervals.value);
    }
  }

  /** Automatic intervals on a metric ranked in reverse (frequency, monetary) never survive
      `pd.cut` once `K >= 3`: the reversed cut list is not increasing. */
  lemma AutoReversedFallsBack(values: seq<real>, k: nat)
    requires k >= 3 && values != []
    ensures RankMetric(values, k, Fixed, None, false) == Fallback(values, k, false)
  {
    RankMetricCases(values, k, Fixed, None, false);
    DescendingNotIncreasing(AutoCuts(values, k));
  }

  /** Automatic intervals on an ascending metric succeed exactly when the metric is not
      constant or `K <= 2`, and then give `pd.cut`'s right-closed bin numbers. */
  lemma AutoAscending(values: seq<real>, k: nat)
    requires k >= 1 && values != []
    ensures TryRank(values, k, Fixed, None, true).Ok? <==> (Minimum(values) < Maximum(values) || k <= 2)
    ensures TryRank(values, k, Fixed, None, true).Ok? ==>
              forall i :: 0 <= i < |values| ==>
                TryRank(values, k, Fixed, None, true).value[i] == 1 + CountLess(AutoCuts(values, k), values[i])
  {
    AutoCutsIncreasing(values, k);
  }

  /** With fewer distinct values than quantiles, the quantile method bins `rank('first')`,
      which never raises for two or more customers. */
  lemma FewDistinctUsesFirstRanks(values: seq<real>, k: nat, ascending: bool)
    requires k >= 1 && |values| >= 2 && NUnique(values) < k
    ensures TryRank(values, k, Quantile, None, ascending).Ok?
    ensures forall i :: 0 <= i < |values| ==>
              RankMetric(values, k, Quantile, None, ascending)[i]
              == Labels(k, ascending)[QCutBins(FirstRanks(values), k).value[i]]
  {
    RankMetricCases(values, k, Quantile, None, ascending);
    QCutFirstRanks(values, k);
  }

  /** Two different values make at least two distinct values. */
  lemma TwoDistinct(values: seq<real>, i: nat, j: nat)
    requires i < |values| && j < |values| && values[i] != values[j]
    ensures NUnique(values) >= 2
  {
    var u := Distinct(values);
    assert values[i] in u && values[j] in u;
  }

  predicate StrictMin(values: seq<real>, i: nat)
    requires i < |values|
  {
    forall j :: 0 <= j < |values| && j != i ==> values[i] < values[j]
  }

  predicate StrictMax(values: seq<real>, i: nat)
    requires i < |values|
  {
    forall j :: 0 <= j < |values| && j != i ==> values[j] < values[i]
  }

  /** The rank of the quantile label at the bottom or top bin. */
  lemma LabelEnds(k: nat, ascending: bool)
    requires k >= 1
    ensures Labels(k, ascending)[0] == (if ascending then 1 else k)
    ensures Labels(k, ascending)[k - 1] == (if ascending then k else 1)
  {
  }

  lemma FirstRankMin(values: seq<real>, i: nat)
    requires i < |values| && StrictMin(values, i)
    ensures forall j :: 0 <= j < |values| ==> FirstRanks(values)[i] <= FirstRanks(values)[j]
  {
    forall j | 0 <= j < |values| ensures FirstRanks(values)[i] <= FirstRanks(values)[j] {
      if j != i {
        RankOrder(values, i, j);
      }
    }
  }

  lemma FirstRankMax(values: seq<real>, i: nat)
    requires i < |values| && StrictMax(values, i)
    ensures forall j :: 0 <= j < |values| ==> FirstRanks(values)[j] <= FirstRanks(values)[i]
  {
    forall j | 0 <= j < |values| ensures FirstRanks(values)[j] <= FirstRanks(values)[i] {
      if j != i {
        RankOrder(values, j, i);
      }
    }
  }

  /** On the quantile method, whichever path is taken, a strict minimum gets the bottom
      label and a strict maximum the top label: `1` and `K` for an ascending metric, `K` and
      `1` for a reversed one. */
  lemma QuantileMinimum(values: seq<real>, k: nat, ascending: bool, i: nat)
    requires k >= 1 && i < |values| && |values| >= 2 && StrictMin(values, i)
    ensures RankMetric(values, k, Quantile, None, ascending)[i] == (if ascending then 1 else k)
  {
    RankMetricCases(values, k, Quantile, None, ascending);
    LabelEnds(k, ascending);
    var other := if i == 0 then 1 else 0;
    TwoDistinct(values, i, other);
    if NUnique(values) < k {
      QCutFirstRanks(values, k);
      FirstRankMin(values, i);
      QCutBinsMinimum(FirstRanks(values), k, i);
    } else if QCutBins(values, k).Ok? {
      QCutBinsMinimum(values, k, i);
    } else {
      FallbackExtremes(values, k, i);
    }
  }

  lemma QuantileMaximum(values: seq<real>, k: nat, ascending: bool, i: nat)
    requires k >= 1 && i < |values| && |values| >= 2 && StrictMax(values, i)
    ensures RankMetric(values, k, Quantile, None, ascending)[i] == (if ascending then k else 1)
  {
    RankMetricCases(values, k, Quantile, None, ascending);
    LabelEnds(k, ascending);
    var other := if i == 0 then 1 else 0;
    TwoDistinct(values, i, other);
    if NUnique(values) < k {
      QCutFirstRanks(values, k);
      FirstRankMax(values, i);
      if k >= 2 {
        QCutBinsMaximum(FirstRanks(values), k, i);
      }
    } else if QCutBins(values, k).Ok? {
      if k >= 2 {
        QCutBinsMaximum(values, k, i);
      }
    } else {
      FallbackExtremes(values, k, i);
    }
  }

  /** On the quantile method a strictly larger value never gets a smaller rank when the
      metric is ascending, nor a larger one when it is reversed. */
  lemma QuantileOrder(values: seq<real>, k: nat, ascending: bool, i: nat, j: nat)
    requires k >= 1 && i < |values| && j < |values| && values[i] < values[j]
    ensures ascending ==> RankMetric(values, k, Quantile, None, ascending)[i] <= RankMetric(values, k, Quantile, None, ascending)[j]
    ensures !ascending ==> RankMetric(values, k, Quantile, None, ascending)[j] <= RankMetric(values, k, Quantile, None, ascending)[i]
  {
    RankMetricCases(values, k, Quantile, None, ascending);
    if NUnique(values) < k && QCutBins(FirstRanks(values), k).Ok? {
      RankOrder(values, i, j);
      QCutBinsMono(FirstRanks(values), k, i, j);
    } else if NUnique(values) >= k && QCutBins(values, k).Ok? {
      QCutBinsMono(values, k, i, j);
    } else {
      FallbackOrder(values, k, i, j);
    }
  }
}

=== FILE: root.dfy ===
/** `rfm_analysis.py`: the original script. Fixed column names, recency measured from the
    latest order in the data, four quantile scores with no fallback, and a report of totals
    and segment sizes. */
module RootAnalysis {
  import opened Wrappers
  import opened Tally
  import opened Frame
  import opened Metrics
  import opened Binning
  import opened FirstRank
  import opened Codes
  import opened Distribution
  import opened Scoring

  const DateColumn := "order_date"
  const CustomerColumn := "customer_id"
  const AmountColumn := "order_amount"

  /** Scores every grouped customer. `pd.qcut` raises whenever a metric yields repeated
      quartile edges, and nothing catches it. */
  function Score(txns: seq<Txn>): (r: Result<seq<Scored>, Failure>)
    ensures r.Ok? ==> txns != [] && |r.value| == |Aggregate(txns)|
    ensures r.Ok? ==> forall i :: 0 <= i < |r.value| ==> Describes(r.value[i], Aggregate(txns)[i], MaxDay(txns))
    ensures r.Err? ==> r.error == EdgesNotUnique
  {
    if txns == [] then Err(EdgesNotUnique) else ScoreGrouped(Aggregate(txns), MaxDay(txns))
  }

  /** The three `pd.qcut` calls on the grouped table: r labels 4..1 on recency, f labels 1..4
      on the first-rank of frequency, m labels 1..4 on monetary. */
  function ScoreGrouped(stats: seq<CustomerStats>, now: int): (r: Result<seq<Scored>, Failure>)
    ensures r.Ok? ==> |r.value| == |stats| && forall i :: 0 <= i < |stats| ==> Describes(r.value[i], stats[i], now)
    ensures r.Err? ==> r.error == EdgesNotUnique
  {
    var rs :- QCut(Recencies(stats, now), 4, Descend(4));
    var fs :- QCut(FirstRanks(Frequencies(stats)), 4, Ascend(4));
    var ms :- QCut(Monetaries(stats), 4, Ascend(4));
    Ok(Assemble(stats, now, rs, fs, ms))
  }

  function RecencyBins(txns: seq<Txn>): Result<seq<nat>, Failure>
    requires txns != []
  {
    QCutBins(Recencies(Aggregate(txns), MaxDay(txns)), 4)
  }

  function MonetaryBins(txns: seq<Txn>): Result<seq<nat>, Failure> {
    QCutBins(Monetaries(Aggregate(txns)), 4)
  }

  function FrequencyBins(txns: seq<Txn>): Result<seq<nat>, Failure> {
    QCutBins(FirstRanks(Frequencies(Aggregate(txns))), 4)
  }

  /** Scoring succeeds exactly when there are at least two customers and both the recency and
      the monetary quartile edges are distinct; the frequency score, taken on first-ranks,
      never fails then. A single customer is always an error. */
  lemma ScoreSucceeds(txns: seq<Txn>)
    ensures Score(txns).Ok? <==>
              txns != [] && |Aggregate(txns)| >= 2 && RecencyBins(txns).Ok? && MonetaryBins(txns).Ok?
    ensures |Aggregate(txns)| == 1 ==> Score(txns).Err?
  {
    var stats := Aggregate(txns);
    QCutFirstRanks(Frequencies(stats), 4);
    if txns != [] {
      GroupedSucceeds(stats, MaxDay(txns));
    }
  }

  lemma GroupedSucceeds(stats: seq<CustomerStats>, now: int)
    ensures ScoreGrouped(stats, now).Ok? <==>
              && QCutBins(Recencies(stats, now), 4).Ok?
              && QCutBins(FirstRanks(Frequencies(stats)), 4).Ok? && QCutBins(Monetaries(stats), 4).Ok?
  {
  }

  /** The scores are the quartile bins: r counts down from 4 in recency, f and m count up
      from 1 in first-rank of frequency and in monetary. */
  lemma ScoreBins(txns: seq<Txn>, i: nat)
    requires Score(txns).Ok? && i < |Score(txns).value|
    ensures RecencyBins(txns).Ok? && FrequencyBins(txns).Ok? && MonetaryBins(txns).Ok?
    ensures Score(txns).value[i].r == 4 - RecencyBins(txns).value[i]
    ensures Score(txns).value[i].f == 1 + FrequencyBins(txns).value[i]
    ensures Score(txns).value[i].m == 1 + MonetaryBins(txns).value[i]
  {
  }

  /** A more recent customer never gets a lower r; a customer who bought more often, or spent
      more, never gets a lower f or m. */
  lemma ScoreDirections(txns: seq<Txn>, i: nat, j: nat)
    requires Score(txns).Ok? && i < |Score(txns).value| && j < |Score(txns).value|
    ensures Score(txns).value[i].recency <= Score(txns).value[j].recency ==> Score(txns).value[j].r <= Score(txns).value[i].r
    ensures Score(txns).value[i].frequency < Score(txns).value[j].frequency ==> Score(txns).value[i].f <= Score(txns).value[j].f
    ensures Score(txns).value[i].monetary <= Score(txns).value[j].monetary ==> Score(txns).value[i].m <= Score(txns).value[j].m
  {
    var cs, stats, now := Score(txns).value, Aggregate(txns), MaxDay(txns);
    ScoreBins(txns, i);
    ScoreBins(txns, j);
    var rec, fr, mon := Recencies(stats, now), Frequencies(stats), Monetaries(stats);
    if cs[i].recency <= cs[j].recency {
      QCutBinsMono(rec, 4, i, j);
    }
    if cs[i].frequency < cs[j].frequency {
      RankOrder(fr, i, j);
      QCutBinsMono(FirstRanks(fr), 4, i, j);
    }
    if cs[i].monetary <= cs[j].monetary {
      QCutBinsMono(mon, 4, i, j);
    }
  }

  predicate TopSpender(cs: seq<Scored>, i: nat)
    requires i < |cs|
  {
    forall j :: 0 <= j < |cs| ==> cs[j].monetary <= cs[i].monetary
  }

  /** Recency is measured from the latest order: it is never negative, and the customer who
      placed that order has recency 0 and hence the top r score. */
  lemma ScoreLatest(txns: seq<Txn>) returns (k: nat)
    requires Score(txns).Ok?
    ensures forall i :: 0 <= i < |Score(txns).value| ==> Score(txns).value[i].recency >= 0.0
    ensures k < |Score(txns).value| && Score(txns).value[k].recency == 0.0 && Score(txns).value[k].r == 4
  {
    var cs, stats, now := Score(txns).value, Aggregate(txns), MaxDay(txns);
    LatestPurchaseReference(txns);
    forall i | 0 <= i < |cs| ensures cs[i].recency >= 0.0 {
      assert Describes(cs[i], stats[i], now);
    }
    k := LatestCustomer(txns);
    assert Describes(cs[k], stats[k], now);
    LatestTopR(txns, k);
  }

  /** A customer with the smallest recency gets r = 4. */
  lemma LatestTopR(txns: seq<Txn>, k: nat)
    requires Score(txns).Ok? && k < |Aggregate(txns)| && Aggregate(txns)[k].lastDay == MaxDay(txns)
    ensures k < |Score(txns).value| && Score(txns).value[k].r == 4
  {
    var stats, now := Aggregate(txns), MaxDay(txns);
    LatestPurchaseReference(txns);
    ScoreBins(txns, k);
    var rec := Recencies(stats, now);
    forall j | 0 <= j < |rec| ensures rec[k] <= rec[j] {
      assert stats[j].lastDay <= now;
    }
    QCutBinsMinimum(rec, 4, k);
  }

  /** The biggest spender gets m = 4. */
  lemma ScoreTopSpender(txns: seq<Txn>, i: nat)
    requires Score(txns).Ok? && i < |Score(txns).value| && TopSpender(Score(txns).value, i)
    ensures Score(txns).value[i].m == 4
  {
    var cs, stats := Score(txns).value, Aggregate(txns);
    ScoreBins(txns, i);
    var mon := Monetaries(stats);
    assert forall j :: 0 <= j < |mon| ==> mon[j] <= mon[i] by {
      forall j | 0 <= j < |mon| ensures mon[j] <= mon[i] {
        assert cs[j].monetary <= cs[i].monetary;
      }
    }
    QCutBinsMaximum(mon, 4, i);
  }

  /** The result dictionary: customer count, revenue and segment sizes. */
  function Summary(cs: seq<Scored>): Report {
    Summarise(cs)
  }

  /** `perform_rfm_analysis(df)`. The columns are read in the order the script touches them:
      the date column (converted first), then the customer and amount columns of the
      aggregation; a missing one is a `KeyError`. */
  function Analyze(t: Table, toDay: Cell -> Option<int>): (r: Result<Report, Failure>)
    requires WellFormed(t)
    requires AmountColumn in t.columns ==> AllNumbers(Column(t, AmountColumn))
    requires NullFree(t, DateColumn) && NullFree(t, CustomerColumn)
    ensures DateColumn !in t.columns ==> r == Err(MissingKey(DateColumn))
    ensures DateColumn in t.columns && Days(Column(t, DateColumn), toDay, DateColumn).Err? ==>
              r == Err(DateUnparseable(DateColumn))
    ensures DateColumn in t.columns && Days(Column(t, DateColumn), toDay, DateColumn).Ok? ==>
              (CustomerColumn !in t.columns ==> r == Err(MissingKey(CustomerColumn)))
              && (CustomerColumn in t.columns && AmountColumn !in t.columns ==> r == Err(MissingKey(AmountColumn)))
    ensures r.Ok? ==> DateColumn in t.columns && CustomerColumn in t.columns && AmountColumn in t.columns
    ensures r.Ok? ==> Transactions(t, DateColumn, CustomerColumn, AmountColumn, toDay).Ok?
    ensures r.Ok? ==> Score(Transactions(t, DateColumn, CustomerColumn, AmountColumn, toDay).value).Ok?
    ensures r.Ok? ==> r.value == Summarise(Score(Transactions(t, DateColumn, CustomerColumn, AmountColumn, toDay).value).value)
  {
    if DateColumn !in t.columns then Err(MissingKey(DateColumn))
    else
      var days :- Days(Column(t, DateColumn), toDay, DateColumn);
      if CustomerColumn !in t.columns then Err(MissingKey(CustomerColumn))
      else if AmountColumn !in t.columns then Err(MissingKey(AmountColumn))
      else
        var txns := Zip(Column(t, CustomerColumn), days, Numbers(Column(t, AmountColumn)));
        assert txns == Transactions(t, DateColumn, CustomerColumn, AmountColumn, toDay).value;
        var cs :- Score(txns);
        Ok(Summary(cs))
  }

  /** On success the report counts every distinct customer once, the segment sizes add up to
      that count, and the revenue is the sum of the amount column. */
  lemma AnalyzeTotals(t: Table, toDay: Cell -> Option<int>)
    requires WellFormed(t)
    requires AmountColumn in t.columns ==> AllNumbers(Column(t, AmountColumn))
    requires NullFree(t, DateColumn) && NullFree(t, CustomerColumn)
    requires Analyze(t, toDay).Ok?
    ensures Transactions(t, DateColumn, CustomerColumn, AmountColumn, toDay).Ok?
    ensures Analyze(t, toDay).value.totalCustomers == |Keys(Transactions(t, DateColumn, CustomerColumn, AmountColumn, toDay).value)|
    ensures CountSum(Analyze(t, toDay).value.segments) == Analyze(t, toDay).value.totalCustomers
    ensures Analyze(t, toDay).value.totalRevenue == Sum(Numbers(Column(t, AmountColumn)), Same)
  {
    var txns := Transactions(t, DateColumn, CustomerColumn, AmountColumn, toDay).value;
    KeyedTransactions(t, DateColumn, CustomerColumn, AmountColumn, toDay);
    ReportTotals(txns);
    AmountColumnSum(Column(t, AmountColumn), txns);
  }

  /** The report of a successful scoring: one entry per grouped customer, segment sizes
      adding up to that number, revenue equal to the sum of all amounts. */
  lemma ReportTotals(txns: seq<Txn>)
    requires forall i :: 0 <= i < |txns| ==> txns[i].customer != Null
    requires Score(txns).Ok?
    ensures Summary(Score(txns).value).totalCustomers == |Keys(txns)|
    ensures CountSum(Summary(Score(txns).value).segments) == |Keys(txns)|
    ensures Summary(Score(txns).value).totalRevenue == Sum(txns, AmountOf)
  {
    var cs, stats := Score(txns).value, Aggregate(txns);
    assert |cs| == |stats|;
    assert forall i :: 0 <= i < |cs| ==> Describes(cs[i], stats[i], MaxDay(txns));
    assert forall i :: 0 <= i < |cs| ==> cs[i].monetary == stats[i].monetary;
    SummaryTotals(cs, txns, MaxDay(txns));
  }
}

=== FILE: scoring.dfy ===
/** The per-customer record and the summary shared by the two variants that score with four
    quantile labels and segment by code thresholds (`rfm_analysis.py` and
    `backend/rfm_analysis.py`). */
module Scoring {
  import opened Wrappers
  import opened Tally
  import opened Frame
  import opened Metrics
  import opened Codes
  import opened Distribution

  /** One customer after scoring: metrics, the three scores, the code and the segment. */
  datatype Scored = Scored(customer: Cell, recency: real, frequency: nat, monetary: real,
                           r: int, f: int, m: int, code: string, segment: Segment)

  /** `total_customers`, `total_revenue` and `groupby('segment').size()`. */
  datatype Report = Report(totalCustomers: nat, totalRevenue: real, segments: seq<(Segment, nat)>)

  /** `groupby('segment')` lists the segments in the order of their names. */
  const NameOrder: seq<Segment> := [AtRisk, Champions, Lost, Loyal]

  predicate InRange(r: int, f: int, m: int) {
    1 <= r <= 4 && 1 <= f <= 4 && 1 <= m <= 4
  }

  /** The segment `segment_customers` gives to a code of three scores in `1..4`. */
  function SegmentOf(r: int, f: int, m: int): (s: Segment)
    requires InRange(r, f, m)
    ensures SegmentOfCode(Code(r, f, m)) == Some(s)
  {
    SegmentOfRanks(r, f, m);
    SegmentOfCode(Code(r, f, m)).value
  }

  /** The scored record of one grouped customer. */
  function Make(s: CustomerStats, now: int, r: int, f: int, m: int): (c: Scored)
    requires InRange(r, f, m)
  {
    Scored(s.customer, (now - s.lastDay) as real, s.frequency, s.monetary, r, f, m, Code(r, f, m), SegmentOf(r, f, m))
  }

  /** What every scored record promises about the grouped customer it comes from. */
  predicate Describes(c: Scored, s: CustomerStats, now: int) {
    && c.customer == s.customer
    && c.recency == (now - s.lastDay) as real
    && c.frequency == s.frequency
    && c.monetary == s.monetary
    && InRange(c.r, c.f, c.m)
    && c.code == Code(c.r, c.f, c.m)
    && SegmentOfCode(c.code) == Some(c.segment)
  }

  /** One scored record per grouped customer, from the three score columns. */
  function Assemble(stats: seq<CustomerStats>, now: int, rs: seq<int>, fs: seq<int>, ms: seq<int>): (cs: seq<Scored>)
    requires |rs| == |stats| && |fs| == |stats| && |ms| == |stats|
    requires forall i :: 0 <= i < |stats| ==> InRange(rs[i], fs[i], ms[i])
    ensures |cs| == |stats|
    ensures forall i :: 0 <= i < |stats| ==>
              Describes(cs[i], stats[i], now) && cs[i].r == rs[i] && cs[i].f == fs[i] && cs[i].m == ms[i]
  {
    seq(|stats|, i requires 0 <= i < |stats| => Make(stats[i], now, rs[i], fs[i], ms[i]))
  }

  function SegmentsOf(cs: seq<Scored>): (labels: seq<Segment>)
    ensures |labels| == |cs| && forall i :: 0 <= i < |cs| ==> labels[i] == cs[i].segment
  {
    seq(|cs|, i requires 0 <= i < |cs| => cs[i].segment)
  }

  function ScoredMonetary(c: Scored): real { c.monetary }

  function Summarise(cs: seq<Scored>): Report {
    Report(|cs|, Sum(cs, ScoredMonetary), Counts(SegmentsOf(cs), NameOrder))
  }

  /** The segment counts add up to the number of scored customers. */
  lemma SegmentsCover(cs: seq<Scored>)
    ensures CountSum(Summarise(cs).segments) == Summarise(cs).totalCustomers
  {
    var labels := SegmentsOf(cs);
    forall i | 0 <= i < |labels| ensures labels[i] in NameOrder {
      InNameOrder(labels[i]);
    }
    NameOrderNoDup();
    CountsCover(labels, NameOrder);
  }

  /** The segment counts add up to the number of customers, and the revenue is the sum of
      every transaction amount. */
  lemma SummaryTotals(cs: seq<Scored>, txns: seq<Txn>, now: int)
    requires |cs| == |Aggregate(txns)|
    requires forall i :: 0 <= i < |cs| ==> cs[i].monetary == Aggregate(txns)[i].monetary
    ensures CountSum(Summarise(cs).segments) == Summarise(cs).totalCustomers == |Aggregate(txns)|
    ensures Summarise(cs).totalRevenue == Sum(txns, AmountOf)
  {
    SegmentsCover(cs);
    SumPointwise(cs, ScoredMonetary, Aggregate(txns), MonetaryOf);
    AggregateMonetarySum(txns);
  }

  function SegmentOfScored(c: Scored): Segment { c.segment }
  function ScoredFrequency(c: Scored): real { c.frequency as real }

  /** One row of `groupby('segment').agg(...)`: size, revenue sum and the two means. */
  datatype SegmentStats = SegmentStats(segment: Segment, count: nat, totalRevenue: real,
                                       avgRevenue: real, avgFrequency: real)

  function StatsCount(s: SegmentStats): real { s.count as real }
  function StatsRevenue(s: SegmentStats): real { s.totalRevenue }

  /** The per-segment statistics, one row for each segment of `order` that occurs. */
  function SegmentTable(cs: seq<Scored>, order: seq<Segment>): (rows: seq<SegmentStats>)
    ensures |rows| <= |order|
    ensures forall i :: 0 <= i < |rows| ==>
              var g := rows[i].segment;
              && g in order
              && rows[i].count == Count(cs, SegmentOfScored, g) >= 1
              && rows[i].totalRevenue == Total(cs, SegmentOfScored, ScoredMonetary, g)
              && rows[i].avgRevenue == rows[i].totalRevenue / rows[i].count as real
              && rows[i].avgFrequency == Total(cs, SegmentOfScored, ScoredFrequency, g) / rows[i].count as real
  {
    if order == [] then []
    else
      var g := order[0];
      var n := Count(cs, SegmentOfScored, g);
      var head := if n >= 1 then
                    var total := Total(cs, SegmentOfScored, ScoredMonetary, g);
                    [SegmentStats(g, n, total, total / n as real, Total(cs, SegmentOfScored, ScoredFrequency, g) / n as real)]
                  else [];
      head + SegmentTable(cs, order[1..])
  }

  lemma {:induction false} TotalOfAbsent<T, K>(xs: seq<T>, key: T -> K, val: T -> real, k: K)
    requires Count(xs, key, k) == 0
    ensures Total(xs, key, val, k) == 0.0
  {
    if xs != [] {
      TotalOfAbsent(xs[1..], key, val, k);
    }
  }

  lemma {:induction false} SegmentTableSums(cs: seq<Scored>, order: seq<Segment>)
    ensures Sum(SegmentTable(cs, order), StatsCount) == CountAll(cs, SegmentOfScored, order) as real
    ensures Sum(SegmentTable(cs, order), StatsRevenue) == TotalAll(cs, SegmentOfScored, ScoredMonetary, order)
  {
    if order != [] {
      var g := order[0];
      var head := if Count(cs, SegmentOfScored, g) >= 1 then [SegmentTable(cs, order)[0]] else [];
      assert SegmentTable(cs, order) == head + SegmentTable(cs, order[1..]);
      SegmentTableSums(cs, order[1..]);
      SumConcat(head, SegmentTable(cs, order[1..]), StatsCount);
      SumConcat(head, SegmentTable(cs, order[1..]), StatsRevenue);
      if Count(cs, SegmentOfScored, g) == 0 {
        TotalOfAbsent(cs, SegmentOfScored, ScoredMonetary, g);
      }
    }
  }

  /** Every scored customer falls in exactly one of the listed segments: the per-segment
      sizes add up to the number of customers and the per-segment revenues to the revenue. */
  lemma SegmentTableCovers(cs: seq<Scored>)
    ensures Sum(SegmentTable(cs, NameOrder), StatsCount) == |cs| as real
    ensures Sum(SegmentTable(cs, NameOrder), StatsRevenue) == Sum(cs, ScoredMonetary)
  {
    forall i | 0 <= i < |cs| ensures SegmentOfScored(cs[i]) in NameOrder {
      InNameOrder(cs[i].segment);
    }
    NameOrderNoDup();
    SegmentTableCoversOrder(cs, NameOrder);
  }

  lemma InNameOrder(g: Segment)
    ensures g in NameOrder
  {
    match g
    case Champions =>
    case Loyal =>
    case AtRisk =>
    case Lost =>
  }

  lemma NameOrderNoDup()
    ensures NoDup(NameOrder)
  {
    var n := NameOrder;
    assert n[0] != n[1] && n[0] != n[2] && n[0] != n[3] && n[1] != n[2] && n[1] != n[3] && n[2] != n[3];
  }

  lemma SegmentTableCoversOrder(cs: seq<Scored>, order: seq<Segment>)
    requires NoDup(order)
    requires forall i :: 0 <= i < |cs| ==> SegmentOfScored(cs[i]) in order
    ensures Sum(SegmentTable(cs, order), StatsCount) == |cs| as real
    ensures Sum(SegmentTable(cs, order), StatsRevenue) == Sum(cs, ScoredMonetary)
  {
    SegmentTableSums(cs, order);
    CountAllPartition(cs, SegmentOfScored, order);
    TotalAllPartition(cs, SegmentOfScored, ScoredMonetary, order);
  }

  /** `DataFrame.round(2)`: NumPy scales by 100, rounds half to even and scales back. The
      result is a whole number of cents within half a cent of the value; whole cents stay,
      and an exact half cent goes to the even neighbour. */
  function Round2(x: real): (y: real)
    ensures (y * 100.0).Floor as real == y * 100.0
    ensures -0.005 <= y - x <= 0.005
    ensures (x * 100.0).Floor as real == x * 100.0 ==> y == x
    ensures x * 100.0 - (x * 100.0).Floor as real == 0.5 ==> (y * 100.0).Floor % 2 == 0
  {
    var s := x * 100.0;
    var k := s.Floor;
    var d := s - k as real;
    var n := if d < 0.5 then k else if d > 0.5 then k + 1 else if k % 2 == 0 then k else k + 1;
    assert n as real / 100.0 * 100.0 == n as real;
    assert -0.5 <= n as real - s <= 0.5;
    n as real / 100.0
  }

  /** The statistics table after `.round(2)`: sizes are whole numbers and stay, the revenue
      and the two means are rounded to cents each on its own. */
  function RoundStats(rows: seq<SegmentStats>): (out: seq<SegmentStats>)
    ensures |out| == |rows|
    ensures forall i :: 0 <= i < |rows| ==>
              && out[i].segment == rows[i].segment
              && out[i].count == rows[i].count
              && -0.005 <= out[i].totalRevenue - rows[i].totalRevenue <= 0.005
              && -0.005 <= out[i].avgRevenue - rows[i].avgRevenue <= 0.005
              && -0.005 <= out[i].avgFrequency - rows[i].avgFrequency <= 0.005
  {
    seq(|rows|, i requires 0 <= i < |rows| =>
      SegmentStats(rows[i].segment, rows[i].count, Round2(rows[i].totalRevenue),
                   Round2(rows[i].avgRevenue), Round2(rows[i].avgFrequency)))
  }

  /** Rounding keeps the sizes, and moves the sum of the revenues by at most half a cent per
      row. */
  lemma {:induction false} RoundedSums(rows: seq<SegmentStats>)
    ensures Sum(RoundStats(rows), StatsCount) == Sum(rows, StatsCount)
    ensures -(|rows| as real) * 0.005 <= Sum(RoundStats(rows), StatsRevenue) - Sum(rows, StatsRevenue)
                                      <= |rows| as real * 0.005
  {
    if rows != [] {
      var out := RoundStats(rows);
      assert out[1..] == RoundStats(rows[1..]);
      RoundedSums(rows[1..]);
    }
  }

  /** The rounded per-segment revenues need not add up to the revenue: two segments of
      0.004 each round to 0.0 and 0.0 against a total of 0.008. */
  lemma CentsLost()
    ensures Round2(0.004) == 0.0
    ensures Sum(RoundStats([SegmentStats(Lost, 1, 0.004, 0.004, 1.0), SegmentStats(Loyal, 1, 0.004, 0.004, 1.0)]), StatsRevenue) == 0.0
  {
  }
}

=== FILE: sorting.dfy ===
/** Insertion sort over a total preorder, used for the sorted quantile input and for the
    sorted group keys that pandas `groupby` produces. */
module Sorting {

  ghost predicate TotalPreorder<T(!new)>(leq: (T, T) -> bool) {
    && (forall a, b :: leq(a, b) || leq(b, a))
    && (forall a, b, c :: leq(a, b) && leq(b, c) ==> leq(a, c))
  }

  predicate SortedBy<T>(s: seq<T>, leq: (T, T) -> bool) {
    forall i, j :: 0 <= i < j < |s| ==> leq(s[i], s[j])
  }

  function Insert<T(!new)>(x: T, s: seq<T>, leq: (T, T) -> bool): (r: seq<T>)
    requires TotalPreorder(leq)
    requires SortedBy(s, leq)
    ensures multiset(r) == multiset(s) + multiset{x}
    ensures SortedBy(r, leq)
  {
    if s == [] then [x]
    else if leq(x, s[0]) then
      assert forall y :: y in s ==> leq(x, y) by {
        forall y | y in s ensures leq(x, y) {
          var j :| 0 <= j < |s| && s[j] == y;
          if j > 0 {
            assert leq(s[0], s[j]);
          }
        }
      }
      PrependSorted(x, s, leq);
      [x] + s
    else
      var rest := Insert(x, s[1..], leq);
      assert s == [s[0]] + s[1..];
      assert forall y :: y in rest ==> leq(s[0], y) by {
        forall y | y in rest ensures leq(s[0], y) {
          assert y in multiset(rest);
          if y != x {
            assert y in s[1..];
          }
        }
      }
      PrependSorted(s[0], rest, leq);
      [s[0]] + rest
  }

  lemma PrependSorted<T>(h: T, s: seq<T>, leq: (T, T) -> bool)
    requires SortedBy(s, leq)
    requires forall y :: y in s ==> leq(h, y)
    ensures SortedBy([h] + s, leq)
  {
    forall i, j | 0 <= i < j < |[h] + s| ensures leq(([h] + s)[i], ([h] + s)[j]) {
      assert ([h] + s)[j] == s[j - 1];
      if i > 0 {
        assert ([h] + s)[i] == s[i - 1];
      }
    }
  }

  /** The elements of `s`, rearranged into `leq` order. */
  function Sort<T(!new)>(s: seq<T>, leq: (T, T) -> bool): (r: seq<T>)
    requires TotalPreorder(leq)
    ensures multiset(r) == multiset(s)
    ensures SortedBy(r, leq)
    ensures |r| == |s|
  {
    if s == [] then []
    else
      assert s == [s[0]] + s[1..];
      Insert(s[0], Sort(s[1..], leq), leq)
  }
}

=== FILE: tally.dfy ===
/** Counting and summing over sequences, grouped by a key: the arithmetic behind pandas
    `groupby(...).size()`, `.count()`, `.sum()` and `value_counts()`. */
module Tally {

  predicate NoDup<K(==)>(ks: seq<K>) {
    forall i, j :: 0 <= i < j < |ks| ==> ks[i] != ks[j]
  }

  /** Number of elements of `xs` whose key is `k`. */
  function Count<T, K(==)>(xs: seq<T>, key: T -> K, k: K): (n: nat)
    ensures n <= |xs|
  {
    if xs == [] then 0 else (if key(xs[0]) == k then 1 else 0) + Count(xs[1..], key, k)
  }

  /** Sum of `val` over the elements of `xs` whose key is `k`. */
  function Total<T, K(==)>(xs: seq<T>, key: T -> K, val: T -> real, k: K): real
  {
    if xs == [] then 0.0 else (if key(xs[0]) == k then val(xs[0]) else 0.0) + Total(xs[1..], key, val, k)
  }

  /** Sum of `val` over all of `xs`. */
  function Sum<T>(xs: seq<T>, val: T -> real): real
  {
    if xs == [] then 0.0 else val(xs[0]) + Sum(xs[1..], val)
  }

  /** Sum of the per-key counts, over the keys `ks`. */
  function CountAll<T, K(==)>(xs: seq<T>, key: T -> K, ks: seq<K>): nat
  {
    if ks == [] then 0 else Count(xs, key, ks[0]) + CountAll(xs, key, ks[1..])
  }

  /** Sum of the per-key totals, over the keys `ks`. */
  function TotalAll<T, K(==)>(xs: seq<T>, key: T -> K, val: T -> real, ks: seq<K>): real
  {
    if ks == [] then 0.0 else Total(xs, key, val, ks[0]) + TotalAll(xs, key, val, ks[1..])
  }

  /** The distinct elements of `xs`, in order of first appearance. */
  function Distinct<K(==)>(xs: seq<K>): (d: seq<K>)
    ensures NoDup(d)
    ensures forall i :: 0 <= i < |xs| ==> xs[i] in d
    ensures forall i :: 0 <= i < |d| ==> d[i] in xs
    ensures |d| <= |xs|
  {
    if xs == [] then []
    else
      var rest := Distinct(xs[..|xs| - 1]);
      var x := xs[|xs| - 1];
      assert xs == xs[..|xs| - 1] + [x];
      if x in rest then rest else rest + [x]
  }

  lemma {:induction false} IndicatorSum<K>(ks: seq<K>, c: K)
    requires NoDup(ks)
    ensures (c in ks ==> CountAll([c], Itself, ks) == 1) && (c !in ks ==> CountAll([c], Itself, ks) == 0)
  {
    if ks != [] {
      assert NoDup(ks[1..]) by {
        forall i, j | 0 <= i < j < |ks[1..]| ensures ks[1..][i] != ks[1..][j] {
          assert ks[1..][i] == ks[i + 1] && ks[1..][j] == ks[j + 1];
        }
      }
      IndicatorSum(ks[1..], c);
      assert [c][1..] == [];
      if ks[0] == c {
        assert c !in ks[1..];
      }
    }
  }

  function Itself<K>(x: K): K { x }

  lemma {:induction false} CountAllSplit<T, K>(xs: seq<T>, key: T -> K, ks: seq<K>)
    requires xs != []
    ensures CountAll(xs, key, ks) == CountAll([key(xs[0])], Itself, ks) + CountAll(xs[1..], key, ks)
  {
    if ks != [] {
      CountAllSplit(xs, key, ks[1..]);
      assert [key(xs[0])][1..] == [];
    }
  }

  /** Grouping by a key loses no element: the group sizes over a duplicate-free list of keys
      covering every element add up to the number of elements. */
  lemma {:induction false} CountAllPartition<T, K>(xs: seq<T>, key: T -> K, ks: seq<K>)
    requires NoDup(ks)
    requires forall i :: 0 <= i < |xs| ==> key(xs[i]) in ks
    ensures CountAll(xs, key, ks) == |xs|
  {
    if xs == [] {
      CountAllEmpty(key, ks);
    } else {
      CountAllSplit(xs, key, ks);
      IndicatorSum(ks, key(xs[0]));
      assert forall i :: 0 <= i < |xs[1..]| ==> key(xs[1..][i]) in ks by {
        forall i | 0 <= i < |xs[1..]| ensures key(xs[1..][i]) in ks {
          assert xs[1..][i] == xs[i + 1];
        }
      }
      CountAllPartition(xs[1..], key, ks);
    }
  }

  lemma {:induction false} CountAllEmpty<T, K>(key: T -> K, ks: seq<K>)
    ensures CountAll([], key, ks) == 0
  {
    if ks != [] {
      CountAllEmpty(key, ks[1..]);
    }
  }

  lemma {:induction false} TotalAllEmpty<T, K>(key: T -> K, val: T -> real, ks: seq<K>)
    ensures TotalAll([], key, val, ks) == 0.0
  {
    if ks != [] {
      TotalAllEmpty(key, val, ks[1..]);
    }
  }

  lemma {:induction false} TotalAllSplit<T, K>(xs: seq<T>, key: T -> K, val: T -> real, ks: seq<K>)
    requires xs != [] && NoDup(ks)
    ensures TotalAll(xs, key, val, ks)
         == (if key(xs[0]) in ks then val(xs[0]) else 0.0) + TotalAll(xs[1..], key, val, ks)
  {
    if ks != [] {
      NoDupTail(ks);
      TotalAllSplit(xs, key, val, ks[1..]);
      if key(xs[0]) == ks[0] {
        assert key(xs[0]) !in ks[1..];
      }
    }
  }

  lemma NoDupTail<K>(ks: seq<K>)
    requires ks != [] && NoDup(ks)
    ensures NoDup(ks[1..]) && ks[0] !in ks[1..]
  {
    forall i, j | 0 <= i < j < |ks[1..]| ensures ks[1..][i] != ks[1..][j] {
      assert ks[1..][i] == ks[i + 1] && ks[1..][j] == ks[j + 1];
    }
  }

  /** Grouping by a key loses no amount: the per-key sums over a duplicate-free list of keys
      covering every element add up to the sum over all elements. */
  lemma {:induction false} TotalAllPartition<T, K>(xs: seq<T>, key: T -> K, val: T -> real, ks: seq<K>)
    requires NoDup(ks)
    requires forall i :: 0 <= i < |xs| ==> key(xs[i]) in ks
    ensures TotalAll(xs, key, val, ks) == Sum(xs, val)
  {
    if xs == [] {
      TotalAllEmpty(key, val, ks);
    } else {
      TotalAllSplit(xs, key, val, ks);
      assert forall i :: 0 <= i < |xs[1..]| ==> key(xs[1..][i]) in ks by {
        forall i | 0 <= i < |xs[1..]| ensures key(xs[1..][i]) in ks {
          assert xs[1..][i] == xs[i + 1];
        }
      }
      TotalAllPartition(xs[1..], key, val, ks[..]);
    }
  }

  /** A duplicate-free sequence holds every value at most once, and conversely. */
  lemma {:induction false} NoDupMultiplicity<K>(s: seq<K>)
    ensures NoDup(s) <==> forall x :: multiset(s)[x] <= 1
  {
    if NoDup(s) {
      NoDupBound(s);
    } else {
      var i, j :| 0 <= i < j < |s| && s[i] == s[j];
      TwiceInMultiset(s, i, j);
    }
  }

  lemma {:induction false} NoDupBound<K>(s: seq<K>)
    requires NoDup(s)
    ensures forall x :: multiset(s)[x] <= 1
  {
    if s != [] {
      var init := s[..|s| - 1];
      assert s == init + [s[|s| - 1]];
      assert NoDup(init) by {
        forall i, j | 0 <= i < j < |init| ensures init[i] != init[j] {
          assert init[i] == s[i] && init[j] == s[j];
        }
      }
      NoDupBound(init);
      assert s[|s| - 1] !in init;
      assert multiset(s) == multiset(init) + multiset{s[|s| - 1]};
    }
  }

  lemma TwiceInMultiset<K>(s: seq<K>, i: nat, j: nat)
    requires i < j < |s| && s[i] == s[j]
    ensures multiset(s)[s[i]] >= 2
  {
    assert s == s[..i] + [s[i]] + s[i + 1..j] + [s[j]] + s[j + 1..];
  }

  /** Reordering (any sequence with the same multiset) keeps a sequence duplicate-free. */
  lemma NoDupPermutation<K>(a: seq<K>, b: seq<K>)
    requires multiset(a) == multiset(b)
    requires NoDup(a)
    ensures NoDup(b)
  {
    NoDupMultiplicity(a);
    NoDupMultiplicity(b);
  }

  /** Summing a quotient: sum of `c / n * 100` equals `(sum of c) / n * 100`. */
  lemma {:induction false} ShareSum<T>(xs: seq<T>, count: T -> real, share: T -> real, total: real)
    requires total != 0.0
    requires forall i :: 0 <= i < |xs| ==> share(xs[i]) == count(xs[i]) / total * 100.0
    ensures Sum(xs, share) == Sum(xs, count) / total * 100.0
  {
    if xs != [] {
      assert forall i :: 0 <= i < |xs[1..]| ==> share(xs[1..][i]) == count(xs[1..][i]) / total * 100.0 by {
        forall i | 0 <= i < |xs[1..]| ensures share(xs[1..][i]) == count(xs[1..][i]) / total * 100.0 {
          assert xs[1..][i] == xs[i + 1];
        }
      }
      ShareSum(xs[1..], count, share, total);
    }
  }

  /** Sums of pointwise equal terms are equal. */
  lemma {:induction false} SumPointwise<T, U>(xs: seq<T>, f: T -> real, ys: seq<U>, g: U -> real)
    requires |xs| == |ys| && forall i :: 0 <= i < |xs| ==> f(xs[i]) == g(ys[i])
    ensures Sum(xs, f) == Sum(ys, g)
  {
    if xs != [] {
      assert forall i :: 0 <= i < |xs[1..]| ==> f(xs[1..][i]) == g(ys[1..][i]) by {
        forall i | 0 <= i < |xs[1..]| ensures f(xs[1..][i]) == g(ys[1..][i]) {
          assert xs[1..][i] == xs[i + 1] && ys[1..][i] == ys[i + 1];
        }
      }
      SumPointwise(xs[1..], f, ys[1..], g);
    }
  }

  lemma {:induction false} SumConcat<T>(a: seq<T>, b: seq<T>, val: T -> real)
    ensures Sum(a + b, val) == Sum(a, val) + Sum(b, val)
  {
    if a != [] {
      assert (a + b)[1..] == a[1..] + b;
      SumConcat(a[1..], b, val);
    } else {
      assert a + b == b;
    }
  }

  /** An element's own key is counted at least once. */
  lemma {:induction false} CountMember<T, K>(xs: seq<T>, key: T -> K, i: nat)
    requires i < |xs|
    ensures Count(xs, key, key(xs[i])) >= 1
  {
    if i > 0 {
      assert xs[1..][i - 1] == xs[i];
      CountMember(xs[1..], key, i - 1);
    }
  }
}

=== FILE: wrappers.dfy ===
/** Option and Result, the failure-compatible wrappers every other module uses. */
module Wrappers {

  datatype Option<T> = None | Some(value: T)

  /** The outcome of an operation that raises in the source: `Err` carries what was raised. */
  datatype Result<T, E> = Ok(value: T) | Err(error: E) {

    predicate IsFailure() {
      Err?
    }

    function PropagateFailure<U>(): Result<U, E>
      requires Err?
    {
      Err(error)
    }

    function Extract(): T
      requires Ok?
    {
      value
    }
  }
}
